=== FILE: README.md ===
# Badmatch core in Dafny

A model of the logic behind Badmatch, a React application where badminton
players post, search and join game announcements. The model covers:

- the mock announcement store of `src/services/announcementService.js`:
  lookup, create, update, delete, join, leave, per-organizer listing and
  search;
- the mock user store of `src/services/auth.js` (the `mockAuth` object);
- the pure helpers of `src/utils/helpers.js`;
- the list logic of the announcements page, the filter bar, the
  `useAnnouncements` hook and the dashboard;
- the validators, change handlers and submit gates of the announcement
  form, the register and login pages, the register and login modal forms,
  the profile form and the photo picker;
- what the announcement card, the profile card, `Button` and `Input`
  display, and when.

Every operation is a pure function. Mutable state (the module-level
arrays, React state) becomes an explicit value passed in and returned. A
thrown error becomes `Result.Err` carrying the thrown message. Clocks,
timers, the network, `FileReader` and `URL.createObjectURL` are left out;
their outcomes are parameters. "Now" is a millisecond count, "today" a
calendar date, and a request's outcome is a success or failure value.

Shared modules capture the JavaScript semantics the components rely on:

- `Json`: loosely typed values, truthiness, `||` defaults, `toString`,
  optional property access and strict equality;
- `Numbers`: `parseInt`, `Number()` on integer text, decimal rendering;
- `Text`: `trim`, case mapping, `includes`, `split` and `join`;
- `Seqs`: order-preserving filtering and subsequences;
- `Forms`: the shared error-map and submit-gate shape of every form, and
  the unanchored email test `\S+@\S+\.\S+`;
- `ClassNames`: the `[...].filter(Boolean).join(' ')` class-list idiom.

## Model

| member | source | states |
|---|---|---|
| AnnouncementService.SeedInvariants | src/services/announcementService.js:5-90 | The four seed announcements are numbered 1..4, their ids are unique, and each has between one and `maxPlayers` players |
| AnnouncementService.FindIndex | src/services/announcementService.js:171 | Gives the first position whose id equals `parseInt(id)`, or none exactly when no announcement has that id |
| AnnouncementService.GetById | src/services/announcementService.js:113-130 | Fails with 'Annonce non trouvée' exactly when no announcement has the id; otherwise returns the first announcement with that id |
| AnnouncementService.FindIndexIsFirst | src/services/announcementService.js:171 | Any position holding the id with no earlier position holding it is the one `findIndex` reports |
| AnnouncementService.Create | src/services/announcementService.js:133-160 | Appends exactly one announcement at the end. Its id is `length + 1` unless the input carries an id, which then wins. It has one player, both timestamps set to now, and organizer (1, 'Utilisateur', input level). All other fields are copied from the input |
| AnnouncementService.CreateOnDenseIsFresh | src/services/announcementService.js:142 | On a store numbered 1..n, the generated id is fresh and the store stays numbered 1..n+1 |
| AnnouncementService.CreateAfterDeleteReusesId | src/services/announcementService.js:142 | Deleting any id but the last from a store numbered 1..n, then creating, hands out id n a second time. Ids stop being unique, and a lookup of n still finds the older announcement |
| AnnouncementService.CreatePreservesCounts | src/services/announcementService.js:141-154 | Creating with `maxPlayers >= 1` keeps every player count between 1 and `maxPlayers` |
| AnnouncementService.ApplyPatch | src/services/announcementService.js:176-180 | The spread sets `updatedAt` to now. Every other field (id, title, description, location, date, time, level, type, game type, price, player counts, organizer, creation date) comes from the patch when it has it, else from the record |
| AnnouncementService.EmptyPatchTouchesOnlyTimestamp | src/services/announcementService.js:176-180 | A patch with no fields changes only `updatedAt` |
| AnnouncementService.FullPatchReplaces | src/services/announcementService.js:176-180 | No field is protected: a patch carrying every field replaces id, organizer, player count and creation date too |
| AnnouncementService.PatchIdempotent | src/services/announcementService.js:176-180 | Applying the same patch twice equals applying it once with the later timestamp |
| AnnouncementService.Update | src/services/announcementService.js:163-187 | Fails with 'Annonce non trouvée' exactly when the id is absent. Otherwise the first record with that id is replaced in place by its patched version, which is returned; every other position and the length are unchanged |
| AnnouncementService.Delete | src/services/announcementService.js:190-208 | Fails exactly when the id is absent. Otherwise it removes the first record with that id and keeps the rest in order (length − 1) |
| AnnouncementService.DeleteTwiceFails | src/services/announcementService.js:197-202 | With unique ids, deleting the same id a second time fails with not-found |
| AnnouncementService.Join | src/services/announcementService.js:211-236 | Not found when the id is absent; 'Cette annonce est complète' when `currentPlayers >= maxPlayers`. Otherwise the count rises by exactly one, `updatedAt` is now, and nothing else in the store changes |
| AnnouncementService.Leave | src/services/announcementService.js:239-264 | Not found when the id is absent; 'Impossible de quitter cette annonce' when `currentPlayers <= 1`. Otherwise the count drops by exactly one, and nothing else in the store changes |
| AnnouncementService.JoinLeavePreserveCounts | src/services/announcementService.js:224-257 | A successful join or leave keeps every count within 1..`maxPlayers` |
| AnnouncementService.JoinTwice | src/services/announcementService.js:219-229 | There is no per-user check: while two places remain, the same caller can join twice, and the count rises by two |
| AnnouncementService.JoinThenLeave | src/services/announcementService.js:228-256 | For an announcement with at least one player and a free place, a join succeeds, and a leave right after it restores the store apart from the `updatedAt` timestamp |
| AnnouncementService.HasRenderedId | src/services/announcementService.js:121 | The decimal text of n selects exactly the announcements with id n |
| AnnouncementService.UserAnnouncements | src/services/announcementService.js:267-280 | Keeps, in store order, every stored announcement whose organizer id equals `parseInt(userId)`, as many times as the store holds it, and nothing else |
| AnnouncementService.SeedUserOne | src/services/announcementService.js:5-90 | On the seed, user '1' organises exactly the first announcement |
| AnnouncementService.Search | src/services/announcementService.js:283-324 | Gives an order-preserving subsequence of the store holding each announcement that passes every active filter as many times as the store does, and nothing else. The filters are: location as a case-insensitive substring; level, type, game type and date by equality; price at most `parseInt(maxPrice)` |
| AnnouncementService.SearchIsSinglePass | src/services/announcementService.js:291-319 | The six successive filter stages select what one pass testing all criteria at once selects |
| AnnouncementService.SearchWithoutFilters | src/services/announcementService.js:291-319 | Without filters the search returns the whole store in order |
| AnnouncementService.NonNumericMaxPriceFindsNothing | src/services/announcementService.js:315-317 | A maximum price that `parseInt` reads as NaN empties the result |
| AnnouncementService.SearchParis | src/services/announcementService.js:293-297 | 'paris' finds the 'Gymnase Municipal, Paris 15e' game whatever the case |
| AuthService.Login | src/services/auth.js:20-31 | Succeeds exactly for 'test@example.com' / 'password', returning the first user and 'mock-jwt-token'; every other pair fails with 'Email ou mot de passe incorrect' |
| AuthService.Register | src/services/auth.js:33-53 | Fails with 'Un compte existe déjà avec cet email' exactly when a stored user has the same email. Otherwise it appends one user holding the input's fields, plus id `length + 1` when the input has no id |
| AuthService.RegisterTwiceFails | src/services/auth.js:38-47 | Registering the same primitive email a second time fails with the duplicate error |
| AuthService.VerifyToken | src/services/auth.js:55-63 | Accepts exactly 'mock-jwt-token' and returns the first user; anything else is 'Token invalide' |
| AuthService.UpdateProfile | src/services/auth.js:65-72 | Overlays the patch on the first user only. Patched keys take the patch's value, other keys keep theirs, and every other user is unchanged |
| AuthService.UpdateThenVerify | src/services/auth.js:59-70 | After an update, verifying the mock token returns the updated user |
| AuthService.UpdateProfileIdempotent | src/services/auth.js:69-70 | Applying the same profile update twice equals applying it once |
| Helpers.Classify | src/utils/helpers.js:36-52 | The relative-time bucket: 'just now' exactly under one minute (future dates included); n minutes, hours or days with n·unit ≤ elapsed < (n+1)·unit; the date exactly from seven days |
| Helpers.GetRelativeTime | src/utils/helpers.js:33-53 | Under a minute gives 'À l'instant'; n whole minutes (n < 60) give 'Il y a n minute', n whole hours (n < 24) 'Il y a n heure' and n whole days (n < 7) 'Il y a n jour', each with an 's' when n > 1; from seven days on gives the formatted date |
| Helpers.CountedLabels | src/utils/helpers.js:44-49 | The counted buckets print their count in decimal with the French unit, plural from two on |
| Helpers.PluralOnlyAboveOne | src/utils/helpers.js:45-49 | For minutes, hours and days the text ends in 's' exactly when the count exceeds one |
| Helpers.FindEntry | src/utils/helpers.js:59-73 | Finds a table entry whose name or id equals the key case-insensitively, or none exactly when no entry matches |
| Helpers.LookupIgnoresCase | src/utils/helpers.js:59-73 | Lower-casing the key does not change the lookup |
| Helpers.GetLevelColor | src/utils/helpers.js:69-75 | The colour is one of the four level colours or 'gray', and it is 'gray' exactly when no skill level has that name or identifier |
| Helpers.LevelColorOfEachLevel | src/utils/helpers.js:69-75 | A key matching a skill level's name or id gives that level's colour |
| Helpers.UnknownLevelIsGray | src/utils/helpers.js:74 | An unknown level ('Confirmé') gives 'gray' |
| Helpers.GetSportEmoji | src/utils/helpers.js:58-64 | A known sport gives its table emoji; an unknown one gives the runner emoji |
| Helpers.BadmintonEmoji | src/utils/helpers.js:58-64 | 'badminton', in any case, gives the shuttlecock |
| Helpers.IsValidEmailMatchesPattern | src/utils/helpers.js:80-83 | `isValidEmail` holds exactly when the anchored pattern `^[^\s@]+@[^\s@]+\.[^\s@]+$` matches |
| Helpers.EmailCheckSound | src/utils/helpers.js:80-83 | An accepted address splits as run '@' run '.' run, each run non-empty and free of '@' and whitespace |
| Helpers.EmailCheckComplete | src/utils/helpers.js:80-83 | Three non-empty runs free of '@' and whitespace, joined by '@' and '.', are accepted |
| Helpers.Capitalize | src/utils/helpers.js:124-127 | Keeps the length and the text up to case. The first character is not lower case; the others are not upper case |
| Helpers.CapitalizeIdempotent | src/utils/helpers.js:124-127 | Capitalising twice is capitalising once |
| Helpers.TruncateText | src/utils/helpers.js:132-136 | Empty gives ''; text no longer than the maximum is kept. Longer text becomes the first `maxLength` characters with leading and trailing spaces removed, followed by '...' |
| Helpers.TruncatedPieceIsTrim | src/utils/helpers.js:132-136 | The piece kept before '...' is exactly `trim()` of the first `maxLength` characters |
| Helpers.GetInitials | src/utils/helpers.js:268-275 | Takes the upper-cased first letter of each of the first two space-separated words; an empty word gives no letter but still counts among the first two. At most two characters, none lower case |
| Helpers.InitialOfOneWord | src/utils/helpers.js:268-275 | A single word gives its upper-cased first letter alone |
| Helpers.InitialsOfTwoWords | src/utils/helpers.js:268-275 | For 'first second …' the initials are the two words' upper-cased first letters |
| Helpers.LeadingSpacesHideInitials | src/utils/helpers.js:270-274 | Words left empty by repeated spaces count among the first two, so two leading spaces give no initials |
| Helpers.FormatPhoneNumber | src/utils/helpers.js:203-210 | Empty gives ''. With exactly ten digits the result is 14 characters: the same digits in pairs separated by spaces. Any other input is returned unchanged |
| Helpers.PairsKeepDigits | src/utils/helpers.js:207 | Grouping ten digits into pairs keeps exactly those digits in order |
| Helpers.FormatPhoneIdempotent | src/utils/helpers.js:203-210 | Formatting a formatted number changes nothing |
| Helpers.CalculateAge | src/utils/helpers.js:215-226 | The age is the number of whole years: the age-th anniversary is on or before today, and the next one is after it |
| Helpers.MissingSegment | src/utils/helpers.js:166-168 | A missing property anywhere along a dotted path makes `getNestedValue` undefined |
| Helpers.IsEmpty | src/utils/helpers.js:173-179 | A string is empty exactly when it is blank |
| Helpers.FuzzySearch | src/utils/helpers.js:148-161 | An empty query returns the items. Otherwise it keeps each item with a searched field whose folded value contains the folded query, as many times as the items hold it, and nothing else |
| Helpers.FuzzySearchIsSubsequence | src/utils/helpers.js:153-160 | The result keeps the items' order |
| Helpers.FalsyFieldsNeverMatch | src/utils/helpers.js:155-156 | An item whose searched fields are all missing or falsy is never kept |
| AnnouncementsPage.DisplayedIsOneFilter | src/pages/Announcements.jsx:36-50 | The three stages select what one filter by the conjunction selects |
| AnnouncementsPage.HandleFilterChange | src/pages/Announcements.jsx:33-53 | Displays an order-preserving subsequence of the fetched list: each announcement passing every active location, level and date filter, as many times as the list holds it, and nothing else |
| AnnouncementsPage.EmptyFiltersShowAll | src/pages/Announcements.jsx:9-52 | The cleared filters and the page's initial filters display the fetched list as it is |
| AnnouncementsPage.NoCriterionShowsAll | src/pages/Announcements.jsx:38-50 | With location, level and date all empty, everything is displayed in order |
| AnnouncementsPage.StagesCommute | src/pages/Announcements.jsx:38-50 | Running the stages in reverse order (date, level, location) displays the same list |
| AnnouncementsPage.PageAgreesWithSearch | src/pages/Announcements.jsx:38-50 | The page's filter equals the service search restricted to location, level and date |
| AnnouncementsPage.OtherKeysIgnored | src/pages/Announcements.jsx:33-53 | Any key other than location, level and date has no effect |
| AnnouncementsPage.TypeFilterIgnored | src/pages/Announcements.jsx:33-53 | Choosing a game type in the filter bar leaves the displayed list unchanged |
| AnnouncementsPage.LevelOptionHidesSeed | src/components/announcements/FilterBar.jsx:77-81 | Every level option of the filter bar is lower case, so it hides every seed announcement, whose levels are capitalised |
| FilterBar.SetFilter | src/components/announcements/FilterBar.jsx:29-36 | Sets the one field, keeps every other field, and notifies the parent with the new local state |
| FilterBar.SetSameValue | src/components/announcements/FilterBar.jsx:29-36 | Setting a field to its current value changes nothing |
| FilterBar.SetFiltersCommute | src/components/announcements/FilterBar.jsx:29-36 | Changes to two different fields commute |
| FilterBar.Clear | src/components/announcements/FilterBar.jsx:38-47 | Sets location, level, type and date to '' and notifies the parent with that state |
| FilterBar.ClearIdempotent | src/components/announcements/FilterBar.jsx:38-47 | Clearing twice is clearing once |
| FilterBar.SyncThenSet | src/components/announcements/FilterBar.jsx:25-36 | After a new `filters` prop the earlier local state is forgotten: the next edit notifies the parent with the prop's filters and only that field changed |
| FilterBar.OptionValueNotCapitalised | src/components/announcements/FilterBar.jsx:77-81 | No option value equals a text starting with a capital letter |
| FilterBar.OptionValuesLowerCase | src/components/announcements/FilterBar.jsx:60-81 | Every option value is already lower case: lower-casing it again leaves it unchanged |
| FilterBar.LevelOptionValues | src/components/announcements/FilterBar.jsx:11-81 | The level options are 'débutant', 'intermédiaire', 'avancé', 'expert' |
| UseAnnouncements.EncodeComponent | src/hooks/useAnnouncements.js:14-19 | Form encoding keeps or lengthens the text and uses only unreserved characters, '+' and '%' |
| UseAnnouncements.EncodeSpace | src/hooks/useAnnouncements.js:14-19 | A space is sent as '+' and the text on either side is encoded on its own |
| UseAnnouncements.EncodeAccent | src/hooks/useAnnouncements.js:14-19 | A character outside ASCII is sent as its UTF-8 bytes in `%XX` form: 'é' becomes '%C3%A9' |
| UseAnnouncements.KeptEntries | src/hooks/useAnnouncements.js:15-16 | Keeps, in enumeration order, every filter entry with a truthy value, as often as it occurs, and nothing else |
| UseAnnouncements.QueryStringEntries | src/hooks/useAnnouncements.js:14-19 | The query is empty exactly when no value is truthy. Otherwise splitting it at '&' gives one encoded pair per kept entry, in enumeration order |
| UseAnnouncements.Endpoint | src/hooks/useAnnouncements.js:19 | '/announcements' with no '?' when nothing is kept, else '/announcements?' followed by the query |
| UseAnnouncements.RemoveById | src/hooks/useAnnouncements.js:79-81 | Keeps every element whose id differs, as many times as the list holds it, and drops every element with the id |
| UseAnnouncements.RemoveIsSubsequence | src/hooks/useAnnouncements.js:79-81 | The removal keeps the order |
| UseAnnouncements.RemoveIdempotent | src/hooks/useAnnouncements.js:79-81 | Removing twice is removing once |
| UseAnnouncements.RemoveUndoesPrepend | src/hooks/useAnnouncements.js:39-81 | Deleting a freshly created record whose id was new gives back the previous list |
| UseAnnouncements.ReplaceAbsentId | src/hooks/useAnnouncements.js:57-61 | Updating an id no element has changes nothing |
| UseAnnouncements.ReplaceThenRemove | src/hooks/useAnnouncements.js:57-81 | Deleting an id after updating it gives what deleting it alone gives: the update touches only elements with that id |
| UseAnnouncements.TextIdNeverMatches | src/hooks/useAnnouncements.js:59-80 | `===` does not convert: a text id never matches numeric ids, so update and delete leave the list as it was |
| UseAnnouncements.Settle | src/hooks/useAnnouncements.js:20-28 | Loading ends. A success installs the new list and clears the error; a failure keeps the list and records the message |
| UseAnnouncements.Fetch | src/hooks/useAnnouncements.js:9-29 | A success shows the fetched list; a failure keeps the old list and sets the error |
| UseAnnouncements.Create | src/hooks/useAnnouncements.js:31-47 | A success prepends the record and returns it; a failure keeps the list, sets the error and rethrows |
| UseAnnouncements.Update | src/hooks/useAnnouncements.js:49-70 | A success replaces the matching elements and keeps the length; a failure keeps the list and rethrows |
| UseAnnouncements.Delete | src/hooks/useAnnouncements.js:72-88 | A success removes the matching elements; a failure keeps the list and rethrows |
| AnnouncementCard.TypeEmoji | src/components/announcements/AnnouncementCard.jsx:15-22 | Always one of three emojis. Case-insensitively, 'double' gives two shuttlecocks and 'mixte' the mixed emoji; 'simple', any other type and no type give one shuttlecock |
| AnnouncementCard.LevelColor | src/components/announcements/AnnouncementCard.jsx:24-32 | Case-insensitively, 'débutant' gives '#22c55e', 'intermédiaire' '#f59e0b', 'avancé' '#ef4444' and 'expert' '#8b5cf6', each exactly for that level; any other level or none gives the grey '#6b7280' |
| AnnouncementCard.CardLevelColors | src/components/announcements/AnnouncementCard.jsx:24-32 | The four levels as the form spells them ('Débutant', 'Intermédiaire', 'Avancé', 'Expert') get their four colours |
| AnnouncementCard.LookupsIgnoreCase | src/components/announcements/AnnouncementCard.jsx:21-31 | Both lookups ignore case |
| AnnouncementCard.CardLevelsAreSkillLevels | src/components/announcements/AnnouncementCard.jsx:24-32 | A level the card colours is also a level `helpers.getLevelColor` knows |
| AnnouncementCard.FormatTime | src/components/announcements/AnnouncementCard.jsx:43-45 | A prefix of at most five characters ('HH:MM' of 'HH:MM:SS'); a time shorter than five characters is shown whole; a missing time gives '' |
| AnnouncementCard.FormatTimeIdempotent | src/components/announcements/AnnouncementCard.jsx:43-45 | Formatting a formatted time changes nothing |
| AnnouncementCard.Description | src/components/announcements/AnnouncementCard.jsx:84-87 | Up to 100 characters are shown verbatim; a longer text shows its first 100 characters and '...' (103 in all) |
| AnnouncementCard.DescriptionAgreesWithTruncate | src/components/announcements/AnnouncementCard.jsx:84-87 | When the cut has no space at either end, the card agrees with `truncateText(d, 100)` |
| AnnouncementCard.DescriptionKeepsTrailingSpace | src/components/announcements/AnnouncementCard.jsx:84-87 | When the 100th character is a space, the card differs from `truncateText`, which trims |
| AnnouncementCard.Counter | src/components/announcements/AnnouncementCard.jsx:111 | The counter starts with the participant count (0 without a list) and '/' |
| AnnouncementCard.CounterShowsMax | src/components/announcements/AnnouncementCard.jsx:111 | With a positive maximum m the counter reads 'count/m joueurs' |
| AnnouncementCard.CounterReadsBack | src/components/announcements/AnnouncementCard.jsx:111 | `parseInt` of the counter gives the participant count back |
| AnnouncementCard.CounterDefaultMax | src/components/announcements/AnnouncementCard.jsx:111 | Without a maximum the counter shows '/2 joueurs' |
| AnnouncementCard.AvatarLetter | src/components/announcements/AnnouncementCard.jsx:124 | One character that is not a lower-case letter, or '?' when there is no author name |
| AnnouncementCard.AvatarIsFirstInitial | src/components/announcements/AnnouncementCard.jsx:124 | The letter is the first of the name's `getInitials` |
| AnnouncementCard.AuthorName | src/components/announcements/AnnouncementCard.jsx:128-130 | Never empty; the author's name when there is one |
| AnnouncementCard.SignedOutMatchesParticipantWithoutId | src/components/announcements/AnnouncementCard.jsx:11-13 | Signed out, a participant recorded without an id makes the card start as joined (undefined === undefined) |
| AnnouncementCard.FooterActions | src/components/announcements/AnnouncementCard.jsx:134-150 | No action exactly when signed out or the author. Otherwise the joined indicator exactly when joined, else the button. The button is disabled exactly while loading or when participants ≥ maximum, and its caption follows loading |
| AnnouncementCard.MissingMaxNeverFull | src/components/announcements/AnnouncementCard.jsx:146 | Without a maximum the comparison is false, so the idle button is enabled |
| AnnouncementCard.HandleJoin | src/components/announcements/AnnouncementCard.jsx:47-64 | Signed out: an alert and nothing else. Signed in: loading ends, and the card becomes joined exactly when the join succeeds (or it was already joined) |
| Dashboard.MyAnnouncements | src/pages/Dashboard.jsx:33-35 | Keeps every announcement whose `userId` strictly equals the user's id, as many times as the list holds it, and nothing else |
| Dashboard.Participations | src/pages/Dashboard.jsx:39-41 | Keeps every announcement whose participants include the user's id, as many times as the list holds it, and nothing else |
| Dashboard.NoParticipantsNoParticipation | src/pages/Dashboard.jsx:40 | A record without a participants field is never a participation |
| Dashboard.SublistsAreSubsequences | src/pages/Dashboard.jsx:33-42 | Both sublists keep the hook's order |
| Dashboard.Render | src/pages/Dashboard.jsx:58-114 | Access denied exactly without a user. Otherwise the two lists are exactly the user's announcements and participations, each tab count and stat equals its list's length, and the active count never exceeds the created count |
| Dashboard.ActiveCountsOwnActive | src/pages/Dashboard.jsx:111 | The active stat counts the user's announcements whose status is 'active' |
| Dashboard.StringParticipantsMatchDigits | src/pages/Dashboard.jsx:40 | On a string, `includes` is a substring test: user 1 counts as a participant of '12' |
| Dashboard.DashboardQuery | src/pages/Dashboard.jsx:24 | The dashboard's request is '/announcements?userId=1' for user 1 |
| Forms.Report | src/pages/Register.jsx:44-85 | Adding one check's verdict reports that field exactly when it failed, keeps every other entry, and leaves the map empty only when nothing failed |
| Forms.Gate | src/pages/Register.jsx:87-90 | The submission goes through exactly when the error map is empty, carrying the form unchanged |
| Forms.Change | src/pages/Login.jsx:15-28 | Sets the named field. It keeps the other fields and errors and clears only that field's error |
| Forms.ChangeIdempotent | src/pages/Login.jsx:15-28 | Repeating the same change changes nothing more |
| Forms.ChangesCommute | src/pages/Login.jsx:15-28 | Changes to two different fields commute |
| Forms.StrictEmailIsLoose | src/components/announcements/AnnouncementForm.jsx:117 | Every address `isValidEmail` accepts passes the form test `\S+@\S+\.\S+` |
| Forms.LooseEmailAcceptsSpace | src/components/announcements/AnnouncementForm.jsx:117 | The form test is strictly weaker: 'a b@c.d' passes it but not `isValidEmail` |
| Forms.LooseEmailNeedsFive | src/components/announcements/AnnouncementForm.jsx:117 | Fewer than five characters never pass the form test |
| Forms.EmailError | src/pages/Login.jsx:33-37 | No error exactly when the form test passes; 'required' exactly for an empty email; otherwise 'invalid' |
| Forms.PasswordError | src/pages/Login.jsx:39-43 | No error exactly from six characters on; 'required' exactly for an empty password; otherwise 'too short' |
| Forms.ConfirmError | src/pages/Register.jsx:65-69 | No error exactly for a non-empty confirmation equal to the password; an empty one is 'required', any other one a mismatch |
| LoginPage.Validate | src/pages/Login.jsx:30-47 | Reports the email exactly when it fails the form test and the password exactly when it is shorter than six, both at once; empty exactly when both pass |
| LoginPage.Submit | src/pages/Login.jsx:49-56 | Login is attempted exactly when the form is valid, with the typed email and password |
| LoginPage.InitialReportsBoth | src/pages/Login.jsx:30-52 | The empty form is blocked with both 'required' errors |
| LoginPage.HandleChange | src/pages/Login.jsx:15-28 | Typing in one field leaves the other field's verdict as it was |
| LoginForm.Validate | src/components/auth/LoginForm.jsx:30-47 | Same verdicts as the login page: email by the form test, password from six characters |
| LoginForm.AgreesWithLoginPage | src/components/auth/LoginForm.jsx:30-47 | The modal's validator equals the page's |
| LoginForm.Submit | src/components/auth/LoginForm.jsx:49-56 | Login is attempted exactly when both checks pass |
| LoginForm.HandleChange | src/components/auth/LoginForm.jsx:15-28 | Stores the typed value in the named field and clears that field's error; every other field and every other error is unchanged |
| RegisterPage.NameError | src/pages/Register.jsx:47-51 | No error exactly when the trimmed name has two characters or more; 'required' exactly for a blank name |
| RegisterPage.AccountErrors | src/pages/Register.jsx:47-69 | Name, email, password and confirmation are each reported exactly when their check fails; other entries are kept |
| RegisterPage.ProfileErrors | src/pages/Register.jsx:71-81 | Level (unchosen), city (blank) and terms (unchecked) are each reported exactly when their check fails |
| RegisterPage.Validate | src/pages/Register.jsx:44-85 | Reports each of name, email, password and confirmation exactly when its check fails |
| RegisterPage.ProfileFieldsReported | src/pages/Register.jsx:71-81 | Reports level, city and terms exactly when their checks fail |
| RegisterPage.ValidIff | src/pages/Register.jsx:44-85 | The form is valid exactly when all seven checks pass |
| RegisterPage.Submit | src/pages/Register.jsx:87-94 | Registration is called exactly when the form is valid, with the whole form |
| RegisterPage.OnlyTermsMissing | src/pages/Register.jsx:79-81 | A form complete but for the terms is blocked with the terms error alone |
| RegisterPage.SixCharactersSuffice | src/pages/Register.jsx:61 | A six-character password is accepted |
| RegisterPage.HandleChange | src/pages/Register.jsx:29-42 | A checkbox stores `checked`, anything else `value`. Only that field changes, and only its error is cleared |
| RegisterPage.ChangeKeepsWellFormed | src/pages/Register.jsx:29-42 | Typing into the fields keeps the form's shape (text fields, a boolean terms box) |
| RegisterForm.NameError | src/components/auth/RegisterForm.jsx:35-39 | No error exactly when the untrimmed name has two characters or more |
| RegisterForm.Validate | src/components/auth/RegisterForm.jsx:32-61 | Reports name, email, password and confirmation each exactly when its check fails; valid exactly when all pass |
| RegisterForm.Submit | src/components/auth/RegisterForm.jsx:63-70 | Registration is called exactly when valid, with name, email and password |
| RegisterForm.PageNameAcceptedHere | src/components/auth/RegisterForm.jsx:35-39 | Every name the register page accepts is accepted here |
| RegisterForm.PaddedNameAcceptedOnlyHere | src/components/auth/RegisterForm.jsx:37 | '  a' passes here but is 'too short' on the register page |
| RegisterForm.HandleChange | src/components/auth/RegisterForm.jsx:17-30 | Stores the typed value in the named field and clears that field's error; every other field and every other error is unchanged |
| AnnouncementForm.ParseIsoDate | src/components/announcements/AnnouncementForm.jsx:98 | A text read as a date names a valid calendar day and is exactly that day's 'YYYY-MM-DD' form |
| AnnouncementForm.ParseFormat | src/components/announcements/AnnouncementForm.jsx:98 | Reading back a formatted 'YYYY-MM-DD' date gives the date |
| AnnouncementForm.TodayIsNotPast | src/components/announcements/AnnouncementForm.jsx:95-105 | As intended: today is never refused as past, and the day before always is |
| AnnouncementForm.TodayRefusedWestOfUtc | src/components/announcements/AnnouncementForm.jsx:98-102 | As written, with a negative UTC offset, today's own date is refused as past |
| AnnouncementForm.DateErrorAsWritten | src/components/announcements/AnnouncementForm.jsx:95-105 | As written: 'required' exactly when empty; otherwise 'past' exactly when the UTC-midnight reading is before local midnight today |
| AnnouncementForm.DateErrorsOnToday | src/components/announcements/AnnouncementForm.jsx:98-102 | On today's own date the corrected check reports nothing; as written it reports 'past' west of Greenwich and nothing east of it |
| AnnouncementForm.TodayAcceptedEastOfUtc | src/components/announcements/AnnouncementForm.jsx:98-102 | As written, with an offset ≥ 0, today's date is accepted |
| AnnouncementForm.NewYorkExample | src/components/announcements/AnnouncementForm.jsx:98-102 | In New York (UTC−5) on 2025-06-15, '2025-06-15' is refused as written and accepted as intended |
| AnnouncementForm.Sync | src/components/announcements/AnnouncementForm.jsx:35-54 | Editing an announcement takes each field or ''. `maxParticipants` defaults to 2; the contact defaults to the user's email, then ''. Without one, only the contact is set from the user |
| AnnouncementForm.SyncDefaults | src/components/announcements/AnnouncementForm.jsx:45-46 | An announcement without a count or contact gets 2 and the user's email |
| AnnouncementForm.InitialWellFormed | src/components/announcements/AnnouncementForm.jsx:8-18 | The initial form has every field with the expected shape |
| AnnouncementForm.NonNumericCountPasses | src/components/announcements/AnnouncementForm.jsx:111 | Both comparisons are false for NaN, so a participant count such as "abc" (a lower-case letter first, no trailing space) passes |
| AnnouncementForm.DateError | src/components/announcements/AnnouncementForm.jsx:95-105 | At most one message: 'required' exactly when empty, else 'past' when before today |
| AnnouncementForm.ContactError | src/components/announcements/AnnouncementForm.jsx:115-119 | 'Required' exactly when blank; otherwise an error exactly when the form email test fails |
| AnnouncementForm.HeadingErrors | src/components/announcements/AnnouncementForm.jsx:75-81 | Title and description are each reported exactly when blank; other entries are kept |
| AnnouncementForm.PlaceErrors | src/components/announcements/AnnouncementForm.jsx:83-93 | Type, level and location are each reported exactly when missing; other entries are kept |
| AnnouncementForm.ScheduleErrors | src/components/announcements/AnnouncementForm.jsx:95-119 | Date, time, count and contact are each reported exactly when their check fails; other entries are kept |
| AnnouncementForm.General | src/components/announcements/AnnouncementForm.jsx:75-93 | Reports the title and location exactly when blank, and none of the schedule fields |
| AnnouncementForm.Validate | src/components/announcements/AnnouncementForm.jsx:72-123 | Only the nine form fields can be reported. Title, description and location are reported exactly when blank after trimming; type and level exactly when empty |
| AnnouncementForm.ScheduleFieldsReported | src/components/announcements/AnnouncementForm.jsx:95-119 | Reports the date when empty or past, the time when empty, and the count when it is falsy or a number outside 2..10 (non-numeric text passes). The contact is reported when blank or failing the email test |
| AnnouncementForm.ValidIff | src/components/announcements/AnnouncementForm.jsx:72-123 | The form is valid exactly when all nine checks pass |
| AnnouncementForm.Submit | src/components/announcements/AnnouncementForm.jsx:125-133 | `onSubmit` receives the form exactly when no field is reported |
| AnnouncementForm.SubmittedFormIsComplete | src/components/announcements/AnnouncementForm.jsx:72-133 | A submitted form has a title, description and location that are not blank, a type, a level, a date not in the past, a time, a valid count and a contact passing the email test; every such form is submitted unchanged |
| AnnouncementForm.InitialRefused | src/components/announcements/AnnouncementForm.jsx:125-133 | The blank form is never submitted |
| AnnouncementForm.HandleChange | src/components/announcements/AnnouncementForm.jsx:56-70 | Stores the typed value in the named field and clears that field's error; every other field and every other error is unchanged |
| AnnouncementForm.OptionValuesAreLowerCase | src/components/announcements/AnnouncementForm.jsx:22-33 | The option values are 'simple', 'double', 'mixte' and 'débutant' … 'expert' |
| ProfileForm.FromUser | src/components/profile/ProfileForm.jsx:41-55 | Copies the nine fields with '' for missing ones, except the level, which defaults to 'NC' |
| ProfileForm.LevelDefaultsToNC | src/components/profile/ProfileForm.jsx:50 | A user without a level gets 'NC'; one with a level keeps it |
| ProfileForm.AgeError | src/components/profile/ProfileForm.jsx:86-88 | The single age message appears exactly when the age is given and is non-numeric or outside 13..100 |
| ProfileForm.EmailError | src/components/profile/ProfileForm.jsx:80-84 | 'Required' exactly when blank; otherwise an error exactly when the form test fails |
| ProfileForm.Validate | src/components/profile/ProfileForm.jsx:73-92 | Reports the name when blank, the email when blank or invalid, and the age when bad; valid exactly when all pass |
| ProfileForm.ValidAgeParses | src/components/profile/ProfileForm.jsx:86-106 | An age the check accepts always reads as a number through `parseInt`. For a number or a plain integer literal it is the number the check read; an exponent literal is not covered |
| ProfileForm.SubmittedAge | src/components/profile/ProfileForm.jsx:106 | An empty age is sent as null and a given one as what `parseInt` reads. A number or a plain integer literal is sent as the checked number, within 13..100 |
| ProfileForm.CheckedAge | src/components/profile/ProfileForm.jsx:86-106 | As intended: the age sent is the number the check accepted, within 13..100, and it agrees with `parseInt` on numbers and plain integer literals |
| ProfileForm.ExponentAgeSentOutOfRange | src/components/profile/ProfileForm.jsx:86-106 | As written, the age '2e1' passes the check as 20 and is sent as 2 |
| Numbers.ParseIntAgreesWithToNumber | src/components/profile/ProfileForm.jsx:86-106 | Text that `Number()` reads as a number, and that is not all whitespace, also reads through `parseInt`. For an integer literal the two give the same number; for an exponent literal `parseInt` gives the signed mantissa |
| Numbers.ExponentExample | src/components/profile/ProfileForm.jsx:86-106 | `Number('2e1')` is 20 while `parseInt('2e1')` is 2 |
| ProfileForm.Submit | src/components/profile/ProfileForm.jsx:94-109 | `updateProfile` is called exactly when valid. Every field but the age is passed unchanged |
| ProfileForm.EmptyAgeSentAsNull | src/components/profile/ProfileForm.jsx:104-107 | A valid form with an empty age is sent with age null |
| ProfileForm.HandleInputChange | src/components/profile/ProfileForm.jsx:57-71 | Stores the typed value in the named field and clears that field's error; every other field and every other error is unchanged |
| PhotoUpload.CheckFile | src/components/profile/PhotoUpload.jsx:19-27 | Accepted exactly when the type starts with 'image/' and the size is at most 5·1024·1024; the type is checked first |
| PhotoUpload.Begin | src/components/profile/PhotoUpload.jsx:15-30 | No file changes nothing; a refused file sets only the error; an accepted one clears the error and starts uploading |
| PhotoUpload.Settle | src/components/profile/PhotoUpload.jsx:32-52 | Uploading ends. A success shows the data URL and passes the photo URL to the parent; a failure sets the error and goes back to the current photo |
| PhotoUpload.HandleFileChange | src/components/profile/PhotoUpload.jsx:14-53 | The parent hears of a photo exactly for an accepted file whose upload succeeded, and then hears its URL; no file changes nothing |
| PhotoUpload.RefusedFileKeepsPreview | src/components/profile/PhotoUpload.jsx:19-27 | A refused file changes only the error, and nothing is uploaded |
| PhotoUpload.TypeCheckedFirst | src/components/profile/PhotoUpload.jsx:19-27 | A large non-image reports the type error |
| PhotoUpload.SizeLimitInclusive | src/components/profile/PhotoUpload.jsx:24 | Exactly 5 MiB passes; one byte more is refused |
| PhotoUpload.AcceptedFileClearsError | src/components/profile/PhotoUpload.jsx:29-36 | A successful upload clears an earlier error |
| PhotoUpload.RemovePhoto | src/components/profile/PhotoUpload.jsx:55-61 | The preview becomes null and the parent receives null; nothing else changes |
| PhotoUpload.RemoveIdempotent | src/components/profile/PhotoUpload.jsx:55-61 | Removing twice leaves the same state as removing once |
| ProfileCard.BadmintonEmoji | src/components/profile/ProfileCard.jsx:5-13 | Case-insensitively, 'intermédiaire', 'avancé' and 'expert' give two, three and four shuttlecocks, each exactly for that level; 'débutant', any other level and no level give one |
| ProfileCard.EmojiIgnoresCase | src/components/profile/ProfileCard.jsx:12 | The lookup ignores case |
| ProfileCard.EmojiOfEachLevel | src/components/profile/ProfileCard.jsx:5-13 | Débutant, Intermédiaire, Avancé and Expert show 1, 2, 3 and 4 shuttlecocks |
| ProfileCard.ShortLevelOneShuttle | src/components/profile/ProfileCard.jsx:12 | A level shorter than six characters matches no key and shows one shuttlecock |
| ProfileCard.ProfileLevelsShowOneShuttle | src/components/profile/ProfileForm.jsx:25-39 | Every level the profile form offers (N1 … NC) shows a single shuttlecock |
| ProfileCard.Avatar | src/components/profile/ProfileCard.jsx:47 | One character, never a lower-case letter; '?' without a name |
| ProfileCard.AvatarIsCapitalInitial | src/components/profile/ProfileCard.jsx:47 | The letter is the first letter of `capitalize(name)` |
| ProfileCard.AvatarIgnoresCase | src/components/profile/ProfileCard.jsx:47 | The letter does not depend on the name's case |
| ProfileCard.TextOr | src/components/profile/ProfileCard.jsx:52-54 | A non-empty text is shown as it is; otherwise the fallback |
| ProfileCard.NameAndLocationShown | src/components/profile/ProfileCard.jsx:52-54 | The name and location lines are never empty |
| ProfileCard.LevelView | src/components/profile/ProfileCard.jsx:82-95 | The emoji and badge exactly for a non-empty level, 'Niveau non renseigné' otherwise |
| ProfileCard.ActionsView | src/components/profile/ProfileCard.jsx:106-121 | Actions exactly for someone else's profile when signed in; the caption follows the toggle; contact details exactly when toggled and there is an email, the phone only when given |
| Button.VariantClass | src/components/ui/Button.jsx:15-31 | A known variant gives 'btn-' + variant; any other gives 'btn-primary' |
| Button.SizeClass | src/components/ui/Button.jsx:23-32 | 'btn-sm' exactly for small, 'btn-lg' exactly for large, nothing otherwise |
| Button.Render | src/components/ui/Button.jsx:36-49 | Disabled exactly when disabled or loading; the spinner exactly while loading |
| Button.ClassTokens | src/components/ui/Button.jsx:14-34 | The class list starts with 'btn' and the variant's class, holds the size class when there is one, and has no empty token |
| Button.LoadingDisables | src/components/ui/Button.jsx:40-48 | A loading button is disabled and shows only the spinner; an idle one is disabled exactly when asked |
| ClassNames.SplitClassName | src/components/ui/Button.jsx:29-34 | Splitting the built attribute at spaces gives back the non-empty parts, in order |
| ClassNames.TokenIffPart | src/components/ui/Input.jsx:14-19 | A non-empty class is in the list exactly when it is one of the parts |
| Input.Render | src/components/ui/Input.jsx:21-46 | A label exactly for a truthy label, carrying the required flag; the error message exactly for a truthy error |
| Input.MarkerNeedsLabel | src/components/ui/Input.jsx:23-28 | The '*' marker shows exactly when a label is rendered and the input is required |
| Input.ClassTokens | src/components/ui/Input.jsx:14-19 | The class list starts with 'input' and has no empty token |
| Input.StateClasses | src/components/ui/Input.jsx:16-17 | 'input-error' is present exactly for a truthy error and 'input-disabled' exactly when disabled, unless the caller's own class is that name |
| Input.ErrorStyleMatchesMessage | src/components/ui/Input.jsx:16-45 | The error class and the error message appear together |

## Left out

- Timers and delays (`delay`, the simulated `setTimeout` waits, `debounce`, `throttle`): every operation is one synchronous step.
- Network I/O: `src/services/api.js`, the non-mock branches of `src/services/auth.js`, and the hook's HTTP calls. A request's outcome is a parameter.
- Browser state: `localStorage`, React context, `navigator.geolocation`, `FileReader`, `URL.createObjectURL`, `alert`, `window.confirm`, scrolling and the clipboard.
- Floating point: `formatFileSize` and the geolocation distance helpers.
- Randomness: `generateId` and `generateRandomColor`.
- `isValidUrl`: depends on the `URL` constructor.
- Locale formatting (`toLocaleDateString` in `formatDate`, `formatDateTime` and the card's date): the formatted date is a parameter of `Helpers.GetRelativeTime`.
- `removeAccents` (`normalize('NFD')`): a function parameter of `Helpers.FuzzySearch`.
- Case mapping is concrete and one-to-one over ASCII and Latin-1. Characters whose case change alters the length ('ß' → 'SS') or lies outside Latin-1 are mapped to themselves.
- Strings are sequences of code points, while JavaScript counts UTF-16 code units. Lengths and slices differ for characters outside the Basic Multilingual Plane, such as emoji.
- `Number()` and `isNaN` are modelled on optionally signed decimal or hexadecimal integer text with surrounding whitespace, and on decimal integer text followed by a non-negative exponent ('2e1', '3E+2'). Fractions and negative exponents ('1.5', '2e-1') read as NaN, while JavaScript would read them as numbers. An exponent beyond the double range gives an unbounded integer instead of Infinity; both fall outside every range the forms check.
- ProfileForm.ValidAgeParses, ProfileForm.SubmittedAge: the age sent equals the age checked only when the age is a number or a plain integer literal. For an exponent literal `parseInt` stops at the 'e', so the two differ; see the finding below. ProfileForm.CheckedAge states the intended agreement for every accepted age.
- Values are strings or integers; floating-point numbers do not occur.
- Json.StrictEquals: an array or object is never identical to anything, since two separately built ones never are. The case of one array or object compared with itself, the same reference, is not modelled. The dashboard's `userId` and `participants` tests, the hook's id match and the mock store's email test may meet such values, and then never match.
- UseAnnouncements.EncodeComponent: its own contract states only length and alphabet. The mapping itself is stated by EncodeSpace, EncodeAccent, EncodeUnreserved and EncodeAppend.
- `getAllAnnouncements` returns the store unchanged. It needs no model beyond the store value.
- AnnouncementService.Create: the input is a record of the announcement fields plus an optional id. Unknown extra keys of the spread are not represented.
- AnnouncementService.Update: the patch has an optional slot for each known field. Unknown extra keys are not represented.
- Dashboard.Render: requires every `participants` value to be an array, a string or nullish. On anything else `includes` throws, and the page would crash.
- AuthService.RequestPasswordReset: always succeeds with the fixed message. It has no partner property.
- Button and Input handle only string class names. The variant lookup does not model inherited object keys: a variant named 'constructor' would pick an object property.
- AnnouncementCard.TypeEmoji, AnnouncementCard.LevelColor, Helpers.GetLevelColor and the other lookup tables of the card and the helpers are modelled as plain maps. A key naming an inherited object property, such as 'constructor', would pick that property in JavaScript.
- ProfileCard: the skeleton shown while the user is missing is left out, as are the age, bio and availability lines. Each is a plain truthiness test.
- ProfileCard.Avatar and AnnouncementCard.AvatarLetter take names as strings. A non-string name would make `charAt` throw.
- The profile-card toggle (`setShowContact(!showContact)`) is the `showContact` parameter of ProfileCard.ActionsView.
- AnnouncementForm.DateError: states the intended check, under which today's date is never past. The form's validation (AnnouncementForm.Validate, ScheduleFieldsReported, ValidIff, Submit and SubmittedFormIsComplete) uses it. The check as written, which reads the date as UTC midnight and refuses today's date west of Greenwich, is AnnouncementForm.DateErrorAsWritten; see the finding below.
- Helpers.CalculateAge: takes the birth date as the local calendar date the getters report. `new Date('YYYY-MM-DD')` parses such text as UTC midnight (src/utils/helpers.js:217), which west of Greenwich the local getters report as the day before. That shift, under which the age goes up one day early, is not modelled.
- The dates the announcement form accepts are 'YYYY-MM-DD' text. Any other text reads as an invalid date, which is never in the past, as for `new Date` on unparsable text.
- Rendering markup, routing, `App.jsx`, the common layout components, `AuthModal`, `ThemeToggle`, `AnnouncementList`, and the pages not listed above.

## Findings

| source | as written | input that shows it | evidently intended | confidence | as-written member | corrected member |
|---|---|---|---|---|---|---|
| src/components/announcements/AnnouncementForm.jsx:98-102 | `new Date('YYYY-MM-DD')` is read as UTC midnight, but `today` is local midnight after `setHours(0, 0, 0, 0)`. West of Greenwich, local midnight is later than UTC midnight, so today's date compares as before today | A browser at UTC−5 on 2025-06-15 with the date '2025-06-15': the form reports 'La date ne peut pas être dans le passé' | Today's date is accepted, and only earlier calendar dates are refused | high; not executed | AnnouncementForm.TodayRefusedWestOfUtc | AnnouncementForm.TodayIsNotPast |
| src/components/profile/ProfileForm.jsx:86-106 | The check reads the age with `Number()`, but the submit sends `parseInt(age)`. `Number('2e1')` is 20 and passes the 13..100 check, while `parseInt('2e1')` stops at the 'e' and gives 2 | The age field holding '2e1', which a number input accepts: the profile is saved with age 2 | The age sent is the number the check accepted | medium; not executed | ProfileForm.ExponentAgeSentOutOfRange | ProfileForm.CheckedAge |

=== FILE: announcement_card.dfy ===
/** What an announcement card displays and when it offers to join
    (`src/components/announcements/AnnouncementCard.jsx`). The card reads
    the client-side record shape (`participants`, `maxParticipants`,
    `author`), not the service's. */
module AnnouncementCard {
  import opened Wrappers
  import Text
  import Numbers
  import Json
  import Helpers

  /** `announcement.author`, when present. */
  datatype Author = Author(id: Json.Value, name: Option<string>, avatar: Option<string>)

  /** The fields of the record the card reads. */
  datatype Card = Card(
    id: Json.Value,
    kind: Option<string>,
    level: Option<string>,
    description: string,
    time: Option<string>,
    participants: Option<seq<Json.Value>>,
    maxParticipants: Json.Value,
    author: Option<Author>)

  // ---------------------------------------------------------------------
  // Lookups

  const Shuttle := "🏸"

  /** `getBadmintonTypeEmoji`: keyed by the lower-cased type. */
  function TypeEmoji(kind: Option<string>): (r: string)
    ensures r in {Shuttle, "🏸🏸", "🏸👫"}
    ensures kind.Some? && Text.Lower(kind.value) == "double" ==> r == "🏸🏸"
    ensures kind.Some? && Text.Lower(kind.value) == "mixte" ==> r == "🏸👫"
    ensures kind.None? ==> r == Shuttle
    ensures kind.Some? && Text.Lower(kind.value) != "double" && Text.Lower(kind.value) != "mixte" ==> r == Shuttle
  {
    if kind.None? then Shuttle
    else
      var key := Text.Lower(kind.value);
      if key == "double" then "🏸🏸"
      else if key == "mixte" then "🏸👫"
      else Shuttle
  }

  /** `getLevelColor` of the card, keyed by the lower-cased level. */
  function LevelColor(level: Option<string>): (r: string)
    ensures r in {"#22c55e", "#f59e0b", "#ef4444", "#8b5cf6", "#6b7280"}
    ensures level.None? ==> r == "#6b7280"
    ensures r == "#22c55e" <==> level.Some? && Text.Lower(level.value) == "débutant"
    ensures r == "#f59e0b" <==> level.Some? && Text.Lower(level.value) == "intermédiaire"
    ensures r == "#ef4444" <==> level.Some? && Text.Lower(level.value) == "avancé"
    ensures r == "#8b5cf6" <==> level.Some? && Text.Lower(level.value) == "expert"
  {
    if level.None? then "#6b7280"
    else
      var key := Text.Lower(level.value);
      if key == "débutant" then "#22c55e"
      else if key == "intermédiaire" then "#f59e0b"
      else if key == "avancé" then "#ef4444"
      else if key == "expert" then "#8b5cf6"
      else "#6b7280"
  }

  /** The four level names as the forms write them get their colours:
      green, amber, red and violet. */
  lemma CardLevelColors()
    ensures LevelColor(Some("Débutant")) == "#22c55e"
    ensures LevelColor(Some("Intermédiaire")) == "#f59e0b"
    ensures LevelColor(Some("Avancé")) == "#ef4444"
    ensures LevelColor(Some("Expert")) == "#8b5cf6"
  {
    Text.LowerIs("Débutant", "débutant");
    Text.LowerIs("Intermédiaire", "intermédiaire");
    Text.LowerIs("Avancé", "avancé");
    Text.LowerIs("Expert", "expert");
  }

  /** Both lookups ignore case. */
  lemma LookupsIgnoreCase(s: string)
    ensures TypeEmoji(Some(Text.Lower(s))) == TypeEmoji(Some(s))
    ensures LevelColor(Some(Text.Lower(s))) == LevelColor(Some(s))
  {
    Text.LowerIdempotent(s);
  }

  /** A level the card colours is one the shared level table knows too. */
  lemma CardLevelsAreSkillLevels(level: string)
    requires LevelColor(Some(level)) != "#6b7280"
    ensures Helpers.GetLevelColor(level) != "gray"
  {
    var key := Text.Lower(level);
    Text.LowerIs("Débutant", "débutant");
    Text.LowerIs("Intermédiaire", "intermédiaire");
    Text.LowerIs("Avancé", "avancé");
    Text.LowerIs("Expert", "expert");
    if key == "débutant" {
      Helpers.LevelColorOfEachLevel(0, level);
    } else if key == "intermédiaire" {
      Helpers.LevelColorOfEachLevel(1, level);
    } else if key == "avancé" {
      Helpers.LevelColorOfEachLevel(2, level);
    } else {
      Helpers.LevelColorOfEachLevel(3, level);
    }
  }

  // ---------------------------------------------------------------------
  // Texts

  /** `formatTime`: the first five characters ('HH:MM'), '' when absent. */
  function FormatTime(time: Option<string>): (r: string)
    ensures |r| <= 5
    ensures time.Some? ==> Text.StartsWith(time.value, r)
    ensures time.Some? && |time.value| >= 5 ==> |r| == 5
    ensures time.None? ==> r == ""
    ensures time.Some? && |time.value| < 5 ==> r == time.value
  {
    match time
    case None => ""
    case Some(t) => if t == "" then "" else t[..if |t| < 5 then |t| else 5]
  }

  /** Formatting a formatted time changes nothing. */
  lemma FormatTimeIdempotent(time: Option<string>)
    ensures FormatTime(Some(FormatTime(time))) == FormatTime(time)
  {
  }

  /** The description paragraph: longer than 100 characters it is cut at
      100 and followed by '...', with no trimming. */
  function Description(d: string): (r: string)
    ensures |d| <= 100 ==> r == d
    ensures |d| > 100 ==> |r| == 103 && Text.StartsWith(d, r[..100]) && r[100..] == "..."
  {
    if |d| > 100 then d[..100] + "..." else d
  }

  /** Where the cut text has no whitespace at its ends, the card agrees
      with the shared `truncateText`. */
  lemma DescriptionAgreesWithTruncate(d: string)
    requires |d| > 100 && !Text.IsSpace(d[0]) && !Text.IsSpace(d[99])
    ensures Description(d) == Helpers.TruncateText(d, 100)
  {
    var cut := d[..100];
    assert !Text.AllSpace(cut) by {
      assert !Text.IsSpace(cut[0]);
    }
    assert Text.TrimStart(cut) == cut;
    assert Text.TrimEnd(cut) == cut;
  }

  /** A cut that ends in whitespace keeps it on the card but not in
      `truncateText`. */
  lemma DescriptionKeepsTrailingSpace(d: string)
    requires |d| > 100 && Text.IsSpace(d[99])
    ensures Description(d) != Helpers.TruncateText(d, 100)
  {
    var cut := d[..100];
    Text.TrimDropsTrailingSpace(cut);
  }

  /** The participant count: the list length, 0 without a list. */
  function Count(card: Card): nat {
    match card.participants
    case None => 0
    case Some(ps) => |ps|
  }

  /** `${participants?.length || 0}/${maxParticipants || 2} joueurs`. */
  function Counter(card: Card): (r: string)
    ensures Text.StartsWith(r, Numbers.NatToString(Count(card)) + "/")
  {
    var max := if Json.Truthy(card.maxParticipants) then Json.ToString(card.maxParticipants) else "2";
    var r := Numbers.NatToString(Count(card)) + "/" + max + " joueurs";
    assert r[..|Numbers.NatToString(Count(card)) + "/"|] == Numbers.NatToString(Count(card)) + "/";
    r
  }

  /** The counter reads back as the number of participants. */
  lemma CounterReadsBack(card: Card)
    ensures Numbers.ParseInt(Counter(card)) == Some(Count(card))
  {
    var digits := Numbers.NatToString(Count(card));
    var r := Counter(card);
    assert r == digits + r[|digits|..];
    Numbers.ParseIntPrefix(Count(card), r[|digits|..]);
  }

  /** With a positive numeric maximum the counter shows it after the '/'. */
  lemma CounterShowsMax(card: Card, m: nat)
    requires card.maxParticipants == Json.Num(m) && m > 0
    ensures Counter(card) == Numbers.NatToString(Count(card)) + "/" + Numbers.NatToString(m) + " joueurs"
  {
  }

  /** Without a maximum the counter shows '/2'. */
  lemma CounterDefaultMax(card: Card)
    requires !Json.Truthy(card.maxParticipants)
    ensures Counter(card) == Numbers.NatToString(Count(card)) + "/2 joueurs"
  {
  }

  /** The avatar placeholder: the author's upper-cased initial, or '?'. */
  function AvatarLetter(author: Option<Author>): (r: string)
    ensures r == "?" || (|r| == 1 && !Text.IsLowerLetter(r[0]))
    ensures author.None? || author.value.name.None? || author.value.name.value == "" ==> r == "?"
  {
    if author.None? || author.value.name.None? || author.value.name.value == "" then "?"
    else Text.Upper([author.value.name.value[0]])
  }

  /** The placeholder letter is the first of the name's initials. */
  lemma AvatarIsFirstInitial(name: string, id: Json.Value, avatar: Option<string>)
    requires name != "" && name[0] != ' '
    ensures AvatarLetter(Some(Author(id, Some(name), avatar))) == Helpers.GetInitials(name)[..1]
  {
    var words := Text.Split(name, ' ');
    Helpers.SplitHead(name, ' ');
    Helpers.SplitHeadExtends([name[0]], name[1..], ' ');
    assert [name[0]] + name[1..] == name;
  }

  /** `author?.name || 'Anonyme'`. */
  function AuthorName(author: Option<Author>): (r: string)
    ensures r != ""
    ensures author.Some? && author.value.name.Some? && author.value.name.value != "" ==>
      r == author.value.name.value
  {
    if author.Some? && author.value.name.Some? && author.value.name.value != "" then author.value.name.value
    else "Anonyme"
  }

  // ---------------------------------------------------------------------
  // Joining

  /** `user?.id`, `announcement.author?.id`. */
  function UserId(user: Json.Value): Json.Value {
    Json.Get(user, "id")
  }

  function AuthorId(card: Card): Json.Value {
    if card.author.Some? then card.author.value.id else Json.Undefined
  }

  /** The initial `hasJoined`: some participant's id is the user's id. */
  predicate InitiallyJoined(card: Card, user: Json.Value) {
    card.participants.Some? &&
    exists k :: 0 <= k < |card.participants.value| &&
      Json.StrictEquals(Json.Get(card.participants.value[k], "id"), UserId(user))
  }

  /** Signed out, `user?.id` is undefined, and so is the id of a
      participant recorded without one: the card then starts as joined. */
  lemma SignedOutMatchesParticipantWithoutId(card: Card, p: Json.Value)
    requires card.participants.Some? && p in card.participants.value
    requires p.Obj? && "id" !in p.fields
    ensures InitiallyJoined(card, Json.Null)
  {
    var k :| 0 <= k < |card.participants.value| && card.participants.value[k] == p;
  }

  /** The action area of the footer. */
  datatype Actions = NoActions | JoinedIndicator | JoinButton(disabled: bool, caption: string)

  /** The footer actions: only a signed-in user who is not the author sees
      anything; the button is disabled while loading or once the list is
      as long as `maxParticipants`. */
  function FooterActions(card: Card, user: Json.Value, hasJoined: bool, loading: bool): (r: Actions)
    ensures r.NoActions? <==> !Json.Truthy(user) || Json.StrictEquals(UserId(user), AuthorId(card))
    ensures r.JoinedIndicator? <==> !r.NoActions? && hasJoined
    ensures r.JoinButton? ==> (r.disabled <==>
      (loading || (card.participants.Some? && Json.AtLeast(|card.participants.value|, card.maxParticipants))))
    ensures r.JoinButton? ==> r.caption == (if loading then "Inscription..." else "Rejoindre")
  {
    if !Json.Truthy(user) || Json.StrictEquals(UserId(user), AuthorId(card)) then NoActions
    else if hasJoined then JoinedIndicator
    else
      var full := card.participants.Some? && Json.AtLeast(|card.participants.value|, card.maxParticipants);
      JoinButton(loading || full, if loading then "Inscription..." else "Rejoindre")
  }

  /** Without `maxParticipants` the counter shows '/2' but the button never
      counts the card as full. */
  lemma MissingMaxNeverFull(card: Card, user: Json.Value)
    requires card.maxParticipants == Json.Undefined
    requires FooterActions(card, user, false, false).JoinButton?
    ensures !FooterActions(card, user, false, false).disabled
  {
  }

  /** The card's own state. */
  datatype CardState = CardState(loading: bool, hasJoined: bool)

  /** What `handleJoin` does besides changing the state. */
  datatype JoinEffect = AlertSignIn | Joined(id: Json.Value) | AlertFailure

  /** `handleJoin`, with the service call's outcome as a parameter: only a
      successful join marks the card as joined. */
  function HandleJoin(s: CardState, card: Card, user: Json.Value, outcome: Result<()>): (r: (CardState, JoinEffect))
    ensures !Json.Truthy(user) ==> r == (s, AlertSignIn)
    ensures Json.Truthy(user) ==> !r.0.loading
    ensures r.0.hasJoined <==> s.hasJoined || (Json.Truthy(user) && outcome.Ok?)
    ensures Json.Truthy(user) && outcome.Ok? ==> r.1 == Joined(card.id)
  {
    if !Json.Truthy(user) then (s, AlertSignIn)
    else match outcome
      case Ok(_) => (CardState(false, true), Joined(card.id))
      case Err(_) => (CardState(false, s.hasJoined), AlertFailure)
  }
}

=== FILE: announcement_form.dfy ===
/** The announcement editor of
    `src/components/announcements/AnnouncementForm.jsx`: the record seeded
    from an announcement or the user, the nine checks, the date-in-the-past
    test, the option values and the submit gate. */
module AnnouncementForm {
  import opened Wrappers
  import Text
  import Numbers
  import Json
  import Forms
  import FilterBar
  import Helpers

  // ---------------------------------------------------------------------
  // Dates as the date input writes them

  /** The last `w` decimal digits of `n`, zero-padded. */
  function Digits(n: nat, w: nat): (r: string)
    ensures |r| == w && Numbers.AllDigitsIn(r, 10)
  {
    if w == 0 then "" else Digits(n / 10, w - 1) + [Numbers.DigitChar(n % 10)]
  }

  /** Padded digits read back as the number they pad. */
  lemma {:induction false} DigitsRoundTrip(n: nat, w: nat)
    requires n < Numbers.Pow10(w)
    ensures Numbers.ValueOf(Digits(n, w), 10) == n
  {
    if w > 0 {
      DigitsRoundTrip(n / 10, w - 1);
      var s := Digits(n, w);
      assert s[..w - 1] == Digits(n / 10, w - 1);
    }
  }

  /** A digit string is the padding of its own value. */
  lemma {:induction false} ValueRoundTrip(s: string)
    requires Numbers.AllDigitsIn(s, 10)
    ensures Numbers.ValueOf(s, 10) < Numbers.Pow10(|s|)
    ensures Digits(Numbers.ValueOf(s, 10), |s|) == s
  {
    if |s| > 0 {
      var init := s[..|s| - 1];
      assert Numbers.AllDigitsIn(init, 10);
      ValueRoundTrip(init);
      var v := Numbers.ValueOf(s, 10);
      var c := s[|s| - 1];
      assert v == Numbers.ValueOf(init, 10) * 10 + Numbers.DigitValue(c, 10);
      assert v / 10 == Numbers.ValueOf(init, 10) && v % 10 == Numbers.DigitValue(c, 10);
      assert Numbers.DigitChar(v % 10) == c;
      assert s == init + [c];
    }
  }

  /** A calendar date the date input can hold. */
  predicate ValidDate(d: Helpers.CivilDate) {
    0 <= d.year <= 9999 && 1 <= d.month <= 12 && 1 <= d.day <= 31
  }

  /** The input's value for a date: "YYYY-MM-DD". */
  function FormatIsoDate(d: Helpers.CivilDate): (r: string)
    requires ValidDate(d)
    ensures |r| == 10 && r[4] == '-' && r[7] == '-'
  {
    Digits(d.year, 4) + "-" + Digits(d.month, 2) + "-" + Digits(d.day, 2)
  }

  /** The date a "YYYY-MM-DD" text denotes; `None` for any other text
      (which `new Date` turns into an invalid date). */
  function ParseIsoDate(s: string): (r: Option<Helpers.CivilDate>)
    ensures r.Some? ==> ValidDate(r.value) && FormatIsoDate(r.value) == s
  {
    if |s| == 10 && s[4] == '-' && s[7] == '-'
       && Numbers.AllDigitsIn(s[..4], 10) && Numbers.AllDigitsIn(s[5..7], 10) && Numbers.AllDigitsIn(s[8..], 10)
    then
      var d := Helpers.CivilDate(Numbers.ValueOf(s[..4], 10), Numbers.ValueOf(s[5..7], 10), Numbers.ValueOf(s[8..], 10));
      if ValidDate(d) then
        FormatParsed(s, d);
        Some(d)
      else None
    else None
  }

  /** A "YYYY-MM-DD" text is the format of the date its three digit runs
      denote. */
  lemma FormatParsed(s: string, d: Helpers.CivilDate)
    requires |s| == 10 && s[4] == '-' && s[7] == '-'
    requires Numbers.AllDigitsIn(s[..4], 10) && Numbers.AllDigitsIn(s[5..7], 10) && Numbers.AllDigitsIn(s[8..], 10)
    requires d == Helpers.CivilDate(Numbers.ValueOf(s[..4], 10), Numbers.ValueOf(s[5..7], 10), Numbers.ValueOf(s[8..], 10))
    requires ValidDate(d)
    ensures FormatIsoDate(d) == s
  {
    ValueRoundTrip(s[..4]);
    ValueRoundTrip(s[5..7]);
    ValueRoundTrip(s[8..]);
    assert s == s[..4] + "-" + s[5..7] + "-" + s[8..];
  }

  /** Reading the text of a date gives the date back. */
  lemma ParseFormat(d: Helpers.CivilDate)
    requires ValidDate(d)
    ensures ParseIsoDate(FormatIsoDate(d)) == Some(d)
  {
    var s := FormatIsoDate(d);
    assert s[..4] == Digits(d.year, 4);
    assert s[5..7] == Digits(d.month, 2);
    assert s[8..] == Digits(d.day, 2);
    DigitsRoundTrip(d.year, 4);
    DigitsRoundTrip(d.month, 2);
    DigitsRoundTrip(d.day, 2);
  }

  /** Days since 1970-01-01 of a proleptic Gregorian date. */
  function DayNumber(d: Helpers.CivilDate): int {
    var y := if d.month <= 2 then d.year - 1 else d.year;
    var era := y / 400;
    var yoe := y - era * 400;
    var mp := (d.month + 9) % 12;
    var doy := (153 * mp + 2) / 5 + d.day - 1;
    var doe := yoe * 365 + yoe / 4 - yoe / 100 + doy;
    era * 146097 + doe - 719468
  }

  const MsPerDay := 86400000
  const MsPerMinute := 60000

  /** The browser's clock: today's local calendar date and the local
      offset from UTC in minutes (positive east of Greenwich). */
  datatype Clock = Clock(today: Helpers.CivilDate, offsetMinutes: int)

  /** `new Date(date) < today` after `today.setHours(0, 0, 0, 0)`, as
      written: a date-only text is read as UTC midnight, while `today` is
      local midnight, which is `offsetMinutes` earlier in UTC. */
  predicate PastDateAsWritten(date: string, clock: Clock) {
    match ParseIsoDate(date)
    case None => false
    case Some(d) =>
      DayNumber(d) * MsPerDay < DayNumber(clock.today) * MsPerDay - clock.offsetMinutes * MsPerMinute
  }

  /** The test as intended: the date falls strictly before today's
      calendar date. */
  predicate PastDate(date: string, today: Helpers.CivilDate) {
    match ParseIsoDate(date)
    case None => false
    case Some(d) => !Helpers.OnOrBefore(today, d)
  }

  /** Today itself is never in the past; the day before always is. */
  lemma TodayIsNotPast(today: Helpers.CivilDate)
    requires ValidDate(today)
    ensures !PastDate(FormatIsoDate(today), today)
    ensures today.day > 1 ==> PastDate(FormatIsoDate(Helpers.CivilDate(today.year, today.month, today.day - 1)), today)
  {
    ParseFormat(today);
    if today.day > 1 {
      ParseFormat(Helpers.CivilDate(today.year, today.month, today.day - 1));
    }
  }

  /** As written, west of Greenwich (negative offset), today's date is
      refused as past, unlike the intended test. */
  lemma TodayRefusedWestOfUtc(clock: Clock)
    requires ValidDate(clock.today) && clock.offsetMinutes < 0
    ensures PastDateAsWritten(FormatIsoDate(clock.today), clock)
    ensures !PastDate(FormatIsoDate(clock.today), clock.today)
  {
    ParseFormat(clock.today);
  }

  /** East of Greenwich, or on it, today's date is accepted as written. */
  lemma TodayAcceptedEastOfUtc(clock: Clock)
    requires ValidDate(clock.today) && clock.offsetMinutes >= 0
    ensures !PastDateAsWritten(FormatIsoDate(clock.today), clock)
  {
    ParseFormat(clock.today);
  }

  /** A browser in New York (UTC-5) on 15 June 2025 refuses "2025-06-15". */
  lemma NewYorkExample()
    ensures PastDateAsWritten("2025-06-15", Clock(Helpers.CivilDate(2025, 6, 15), -300))
    ensures !PastDate("2025-06-15", Helpers.CivilDate(2025, 6, 15))
  {
    var d := Helpers.CivilDate(2025, 6, 15);
    FormatExample();
    TodayRefusedWestOfUtc(Clock(d, -300));
  }

  lemma FormatExample()
    ensures FormatIsoDate(Helpers.CivilDate(2025, 6, 15)) == "2025-06-15"
  {
    assert Digits(2, 1) == "2" && Digits(20, 2) == "20" && Digits(202, 3) == "202";
    assert Digits(2025, 4) == "2025";
    assert Digits(0, 1) == "0" && Digits(6, 2) == "06";
    assert Digits(1, 1) == "1" && Digits(15, 2) == "15";
  }

  // ---------------------------------------------------------------------
  // The form record

  const TitleRequired := "Le titre est requis"
  const DescriptionRequired := "La description est requise"
  const TypeRequired := "Le type de jeu est requis"
  const LevelRequired := "Le niveau est requis"
  const LocationRequired := "La localisation est requise"
  const DateRequired := "La date est requise"
  const DateInPast := "La date ne peut pas être dans le passé"
  const TimeRequired := "L&apos;heure est requise"
  const ParticipantsRange := "Le nombre de participants doit être entre 2 et 10"
  const ContactRequired := "Le contact est requis"
  const ContactInvalid := "L&apos;email de contact n&apos;est pas valide"

  /** The initial `formData`. */
  const Initial: Forms.Values := map[
    "title" := Json.Str(""), "description" := Json.Str(""), "type" := Json.Str(""),
    "level" := Json.Str(""), "location" := Json.Str(""), "date" := Json.Str(""),
    "time" := Json.Str(""), "maxParticipants" := Json.Num(2), "contact" := Json.Str("")]

  /** The seven text fields of the record, all but the participant count
      and the contact. */
  const TextKeys: set<string> := {"title", "description", "type", "level", "location", "date", "time"}

  lemma InitialKeys()
    ensures Initial.Keys == TextKeys + {"maxParticipants", "contact"}
    ensures "maxParticipants" !in TextKeys && "contact" !in TextKeys
  {
  }

  /** The `useEffect`: an announcement being edited replaces the record
      field by field ('' when missing, 2 participants, the user's email as
      contact); otherwise a signed-in user's email becomes the contact. */
  function Sync(prev: Forms.Values, announcement: Json.Value, user: Json.Value): (r: Forms.Values)
    ensures Json.Truthy(announcement) ==>
      && r.Keys == Initial.Keys && "maxParticipants" in r && "contact" in r
      && (forall k :: k in r && k != "maxParticipants" && k != "contact" ==>
            r[k] == Json.Or(Json.Get(announcement, k), Json.Str("")))
      && r["maxParticipants"] == Json.Or(Json.Get(announcement, "maxParticipants"), Json.Num(2))
      && r["contact"] == Json.Or(Json.Get(announcement, "contact"), Json.Or(Json.Get(user, "email"), Json.Str("")))
    ensures !Json.Truthy(announcement) && Json.Truthy(user) ==>
      r == prev["contact" := Json.Or(Json.Get(user, "email"), Json.Str(""))]
    ensures !Json.Truthy(announcement) && !Json.Truthy(user) ==> r == prev
  {
    if Json.Truthy(announcement) then
      InitialKeys();
      var texts := map k | k in TextKeys :: Json.Or(Json.Get(announcement, k), Json.Str(""));
      texts["maxParticipants" := Json.Or(Json.Get(announcement, "maxParticipants"), Json.Num(2))]
           ["contact" := Json.Or(Json.Get(announcement, "contact"), Json.Or(Json.Get(user, "email"), Json.Str("")))]
    else if Json.Truthy(user) then
      prev["contact" := Json.Or(Json.Get(user, "email"), Json.Str(""))]
    else prev
  }

  /** An announcement without a participant count or contact is edited
      with 2 participants and the signed-in user's email. */
  lemma SyncDefaults(a: map<string, Json.Value>, email: string)
    requires "maxParticipants" !in a && "contact" !in a && email != ""
    ensures Sync(Initial, Json.Obj(a), Json.Obj(map["email" := Json.Str(email)]))["maxParticipants"] == Json.Num(2)
    ensures Sync(Initial, Json.Obj(a), Json.Obj(map["email" := Json.Str(email)]))["contact"] == Json.Str(email)
  {
  }

  /** The record the checks can read: every field but the participant
      count is a string. */
  predicate WellFormed(v: Forms.Values) {
    && "title" in v && v["title"].Str?
    && "description" in v && v["description"].Str?
    && "type" in v && v["type"].Str?
    && "level" in v && v["level"].Str?
    && "location" in v && v["location"].Str?
    && "date" in v && v["date"].Str?
    && "time" in v && v["time"].Str?
    && "maxParticipants" in v
    && "contact" in v && v["contact"].Str?
  }

  lemma InitialWellFormed()
    ensures WellFormed(Initial)
  {
  }

  // ---------------------------------------------------------------------
  // Checks

  /** `!m || m < 2 || m > 10`: a participant count is required and, when it
      is a number, from 2 to 10. */
  predicate ParticipantsOk(m: Json.Value) {
    Json.Truthy(m) && (Json.ToNumeric(m).None? || 2 <= Json.ToNumeric(m).value <= 10)
  }

  /** Both comparisons are false for NaN, so a non-numeric count such as
      "abc" passes. */
  lemma NonNumericCountPasses(s: string)
    requires s != [] && 'a' <= s[0] <= 'z' && !Text.IsSpace(s[|s| - 1])
    ensures ParticipantsOk(Json.Str(s))
  {
    Numbers.LetterIsNaN(s);
    assert Json.ToNumeric(Json.Str(s)) == Numbers.ToNumber(s);
  }

  /** The date check: required, then not in the past. */
  function DateError(date: string, today: Helpers.CivilDate): (r: Option<string>)
    ensures r.None? <==> date != "" && !PastDate(date, today)
    ensures r == Some(DateRequired) <==> date == ""
    ensures r.Some? ==> r.value in {DateRequired, DateInPast}
  {
    if date == "" then Some(DateRequired)
    else if PastDate(date, today) then Some(DateInPast)
    else None
  }

  /** The date check as the source writes it, on the browser's clock. */
  function DateErrorAsWritten(date: string, clock: Clock): (r: Option<string>)
    ensures r.None? <==> date != "" && !PastDateAsWritten(date, clock)
    ensures r == Some(DateRequired) <==> date == ""
    ensures r.Some? ==> r.value in {DateRequired, DateInPast}
  {
    if date == "" then Some(DateRequired)
    else if PastDateAsWritten(date, clock) then Some(DateInPast)
    else None
  }

  /** The two checks part on today's own date west of Greenwich: as
      written it is reported as past, the corrected check lets it through;
      east of Greenwich both let it through. */
  lemma DateErrorsOnToday(clock: Clock)
    requires ValidDate(clock.today)
    ensures DateError(FormatIsoDate(clock.today), clock.today).None?
    ensures clock.offsetMinutes < 0 ==> DateErrorAsWritten(FormatIsoDate(clock.today), clock) == Some(DateInPast)
    ensures clock.offsetMinutes >= 0 ==> DateErrorAsWritten(FormatIsoDate(clock.today), clock).None?
  {
    TodayIsNotPast(clock.today);
    if clock.offsetMinutes < 0 {
      TodayRefusedWestOfUtc(clock);
    } else {
      TodayAcceptedEastOfUtc(clock);
    }
  }

  /** The contact check: required after trimming, then the email test. */
  function ContactError(contact: string): (r: Option<string>)
    ensures r.None? <==> !Text.AllSpace(contact) && Forms.LooseEmail(contact)
    ensures r == Some(ContactRequired) <==> Text.AllSpace(contact)
  {
    if Text.AllSpace(contact) then Some(ContactRequired)
    else if !Forms.LooseEmail(contact) then Some(ContactInvalid)
    else None
  }

  // The three lemmas below state only that field names differ. They exist
  // to spare the solver from comparing the name strings itself.

  /** The names of the general fields differ pairwise. */
  lemma GeneralNamesDiffer()
    ensures "title" != "description" && "title" != "type" && "title" != "level"
    ensures "title" != "location" && "description" != "type" && "description" != "level"
    ensures "description" != "location" && "type" != "level" && "type" != "location"
    ensures "level" != "location"
  {
    assert "title"[0] == 't' && "description"[0] == 'd' && "type"[1] == 'y' && "level"[1] == 'e';
    assert "location"[1] == 'o' && "title"[1] == 'i' && "type"[0] == 't' && "level"[0] == 'l';
  }

  /** The names of the schedule fields differ pairwise. */
  lemma ScheduleNamesDiffer()
    ensures "date" != "time" && "date" != "maxParticipants" && "date" != "contact"
    ensures "time" != "maxParticipants" && "time" != "contact" && "maxParticipants" != "contact"
  {
    assert "date"[0] == 'd' && "time"[0] == 't' && "maxParticipants"[0] == 'm' && "contact"[0] == 'c';
  }

  /** No general field shares its name with a schedule field. */
  lemma CrossNamesDiffer()
    ensures "title" != "date" && "title" != "time" && "title" != "maxParticipants"
    ensures "title" != "contact" && "description" != "date" && "description" != "time"
    ensures "description" != "maxParticipants" && "description" != "contact" && "type" != "date"
    ensures "type" != "time" && "type" != "maxParticipants" && "type" != "contact"
    ensures "level" != "date" && "level" != "time" && "level" != "maxParticipants"
    ensures "level" != "contact" && "location" != "date" && "location" != "time"
    ensures "location" != "maxParticipants" && "location" != "contact"
  {
    assert "title"[0] == 't' && "description"[0] == 'd' && "type"[0] == 't' && "level"[0] == 'l';
    assert "location"[0] == 'l' && "date"[0] == 'd' && "time"[0] == 't' && "maxParticipants"[0] == 'm';
    assert "contact"[0] == 'c' && "title"[2] == 't' && "type"[2] == 'p' && "time"[2] == 'm';
    assert "description"[1] == 'e' && "date"[1] == 'a';
  }

  /** The first five chains (title, description, type, level, location)
      run on `errors`, given which of those fields are blank: each is
      reported exactly when it is blank, and every other entry is kept. */
  function GeneralErrors(errors: Forms.Errors, titleBlank: bool, descriptionBlank: bool, kindBlank: bool,
                         levelBlank: bool, locationBlank: bool): (r: Forms.Errors)
    ensures "title" in r <==> titleBlank || "title" in errors
    ensures "description" in r <==> descriptionBlank || "description" in errors
    ensures "type" in r <==> kindBlank || "type" in errors
    ensures "level" in r <==> levelBlank || "level" in errors
    ensures "location" in r <==> locationBlank || "location" in errors
    ensures forall f :: f != "title" && f != "description" && f != "type" && f != "level" && f != "location" ==>
      (f in r <==> f in errors)
  {
    GeneralNamesDiffer();
    PlaceErrors(HeadingErrors(errors, titleBlank, descriptionBlank), kindBlank, levelBlank, locationBlank)
  }

  /** The type, level and location chains. */
  function PlaceErrors(errors: Forms.Errors, kindBlank: bool, levelBlank: bool, locationBlank: bool): (r: Forms.Errors)
    ensures "type" in r <==> kindBlank || "type" in errors
    ensures "level" in r <==> levelBlank || "level" in errors
    ensures "location" in r <==> locationBlank || "location" in errors
    ensures forall f :: f != "type" && f != "level" && f != "location" ==> (f in r <==> f in errors)
  {
    GeneralNamesDiffer();
    var r1 := Forms.Report(errors, "type", if kindBlank then Some(TypeRequired) else None);
    var r2 := Forms.Report(r1, "level", if levelBlank then Some(LevelRequired) else None);
    Forms.Report(r2, "location", if locationBlank then Some(LocationRequired) else None)
  }

  /** The title and description chains. */
  function HeadingErrors(errors: Forms.Errors, titleBlank: bool, descriptionBlank: bool): (r: Forms.Errors)
    ensures "title" in r <==> titleBlank || "title" in errors
    ensures "description" in r <==> descriptionBlank || "description" in errors
    ensures forall f :: f != "title" && f != "description" ==> (f in r <==> f in errors)
  {
    GeneralNamesDiffer();
    var r1 := Forms.Report(errors, "title", if titleBlank then Some(TitleRequired) else None);
    Forms.Report(r1, "description", if descriptionBlank then Some(DescriptionRequired) else None)
  }

  /** The last four chains (date, time, participants, contact), given the
      date and contact verdicts and whether the time is blank and the count
      acceptable; likewise. */
  function ScheduleErrors(errors: Forms.Errors, dateError: Option<string>, timeBlank: bool,
                          participantsOk: bool, contactError: Option<string>): (r: Forms.Errors)
    ensures "date" in r <==> dateError.Some? || "date" in errors
    ensures "time" in r <==> timeBlank || "time" in errors
    ensures "maxParticipants" in r <==> !participantsOk || "maxParticipants" in errors
    ensures "contact" in r <==> contactError.Some? || "contact" in errors
    ensures forall f :: f != "date" && f != "time" && f != "maxParticipants" && f != "contact" ==>
      (f in r <==> f in errors)
  {
    ScheduleNamesDiffer();
    var r1 := Forms.Report(errors, "date", dateError);
    var r2 := Forms.Report(r1, "time", if timeBlank then Some(TimeRequired) else None);
    var r3 := Forms.Report(r2, "maxParticipants", if participantsOk then None else Some(ParticipantsRange));
    Forms.Report(r3, "contact", contactError)
  }

  /** The general chains run on an empty error map. */
  function General(v: Forms.Values): (r: Forms.Errors)
    requires WellFormed(v)
    ensures "title" in r <==> Text.AllSpace(v["title"].s)
    ensures "location" in r <==> Text.AllSpace(v["location"].s)
    ensures "date" !in r && "time" !in r && "maxParticipants" !in r && "contact" !in r
  {
    CrossNamesDiffer();
    GeneralErrors(map[], Text.AllSpace(v["title"].s), Text.AllSpace(v["description"].s), v["type"].s == "",
                  v["level"].s == "", Text.AllSpace(v["location"].s))
  }

  /** The nine fields `validateForm` may report. */
  const Fields: set<string> :=
    {"title", "description", "type", "level", "location", "date", "time", "maxParticipants", "contact"}

  /** `validateForm` on the day `today`: each field appears exactly when its
      own check fails, all at once (the date with at most one message), and
      nothing else is reported. */
  function Validate(v: Forms.Values, today: Helpers.CivilDate): (r: Forms.Errors)
    requires WellFormed(v)
    ensures r.Keys <= Fields
    ensures "title" in r <==> Text.AllSpace(v["title"].s)
    ensures "description" in r <==> Text.AllSpace(v["description"].s)
    ensures "type" in r <==> v["type"].s == ""
    ensures "level" in r <==> v["level"].s == ""
    ensures "location" in r <==> Text.AllSpace(v["location"].s)
  {
    CrossNamesDiffer();
    ScheduleErrors(General(v), DateError(v["date"].s, today), v["time"].s == "",
                   ParticipantsOk(v["maxParticipants"]), ContactError(v["contact"].s))
  }

  /** The schedule and contact fields of `validateForm`. */
  lemma ScheduleFieldsReported(v: Forms.Values, today: Helpers.CivilDate)
    requires WellFormed(v)
    ensures "date" in Validate(v, today) <==> v["date"].s == "" || PastDate(v["date"].s, today)
    ensures "time" in Validate(v, today) <==> v["time"].s == ""
    ensures "maxParticipants" in Validate(v, today) <==> !ParticipantsOk(v["maxParticipants"])
    ensures "contact" in Validate(v, today) <==> !(!Text.AllSpace(v["contact"].s) && Forms.LooseEmail(v["contact"].s))
  {
    CrossNamesDiffer();
    var g := General(v);
    assert "date" !in g && "time" !in g && "maxParticipants" !in g && "contact" !in g;
  }

  /** `handleSubmit`: `onSubmit(formData)` only for a valid form. */
  function Submit(v: Forms.Values, today: Helpers.CivilDate): (r: Forms.Submission<Forms.Values>)
    requires WellFormed(v)
    ensures r.Sent? <==> |Validate(v, today)| == 0
    ensures r.Sent? ==> r.payload == v
  {
    Forms.Gate(Validate(v, today), v)
  }

  /** Every check of `validateForm` passes. */
  predicate ChecksPass(v: Forms.Values, today: Helpers.CivilDate)
    requires WellFormed(v)
  {
    && !Text.AllSpace(v["title"].s) && !Text.AllSpace(v["description"].s)
    && v["type"].s != "" && v["level"].s != "" && !Text.AllSpace(v["location"].s)
    && v["date"].s != "" && !PastDate(v["date"].s, today) && v["time"].s != ""
    && ParticipantsOk(v["maxParticipants"])
    && !Text.AllSpace(v["contact"].s) && Forms.LooseEmail(v["contact"].s)
  }

  /** The form is valid exactly when all nine checks pass. */
  lemma ValidIff(v: Forms.Values, today: Helpers.CivilDate)
    requires WellFormed(v)
    ensures |Validate(v, today)| == 0 <==> ChecksPass(v, today)
  {
    var r := Validate(v, today);
    ScheduleFieldsReported(v, today);
    if |r| == 0 {
      assert "title" !in r && "description" !in r && "type" !in r && "level" !in r && "location" !in r;
      assert "date" !in r && "time" !in r && "maxParticipants" !in r && "contact" !in r;
    } else {
      var f :| f in r;
      assert f in Fields;
    }
  }

  /** A submitted form had a title, a description and a location that are
      not blank, a type and a level, a date not before today, a time, a
      participant count that is not a number outside 2..10, and a contact
      that passes the email test; and every such form is submitted. */
  lemma SubmittedFormIsComplete(v: Forms.Values, today: Helpers.CivilDate)
    requires WellFormed(v)
    ensures Submit(v, today).Sent? ==>
      && !Text.AllSpace(v["title"].s) && !Text.AllSpace(v["description"].s)
      && v["type"].s != "" && v["level"].s != "" && !Text.AllSpace(v["location"].s)
      && v["date"].s != "" && !PastDate(v["date"].s, today) && v["time"].s != ""
      && ParticipantsOk(v["maxParticipants"])
      && Forms.LooseEmail(v["contact"].s)
    ensures ChecksPass(v, today) ==> Submit(v, today).Sent? && Submit(v, today).payload == v
  {
    ValidIff(v, today);
  }

  /** The blank form is refused. */
  lemma InitialRefused(today: Helpers.CivilDate)
    ensures WellFormed(Initial) && Submit(Initial, today).Blocked?
  {
    assert "title" in Validate(Initial, today);
  }

  /** `handleChange`: only the named field changes and only its error is
      cleared; a text edit keeps the record readable. */
  function HandleChange(st: Forms.FormState, name: string, value: string): (r: Forms.FormState)
    requires WellFormed(st.values)
    ensures WellFormed(r.values)
    ensures name in r.values && r.values[name] == Json.Str(value)
    ensures forall k :: k in st.values && k != name ==> k in r.values && r.values[k] == st.values[k]
    ensures forall k :: k in st.errors && k != name ==> k in r.errors && r.errors[k] == st.errors[k]
    ensures name in r.errors ==> r.errors[name] == ""
  {
    Forms.Change(st, name, Json.Str(value))
  }

  // ---------------------------------------------------------------------
  // Options

  const BadmintonTypes: seq<string> := ["Simple", "Double", "Mixte"]
  const Levels: seq<string> := ["Débutant", "Intermédiaire", "Avancé", "Expert"]

  /** The type and level selectors offer the lower-cased names as values. */
  lemma OptionValuesAreLowerCase()
    ensures FilterBar.OptionValues(BadmintonTypes) == ["simple", "double", "mixte"]
    ensures FilterBar.OptionValues(Levels) == ["débutant", "intermédiaire", "avancé", "expert"]
  {
    Text.LowerIs("Simple", "simple");
    Text.LowerIs("Double", "double");
    Text.LowerIs("Mixte", "mixte");
    assert Levels == FilterBar.Levels;
    FilterBar.LevelOptionValues();
  }
}

=== FILE: announcement_service.dfy ===
/** The in-memory announcement store of `src/services/announcementService.js`.
    The module-level array becomes an explicit `seq<Announcement>` passed in
    and returned; the simulated network delay is left out and the clock
    (`new Date().toISOString()`) is the parameter `now`. */
module AnnouncementService {
  import opened Wrappers
  import Seqs
  import Text
  import Numbers

  datatype Organizer = Organizer(id: int, name: string, level: string)

  /** One announcement. The source's `type` field is called `kind` here
      (`type` is a Dafny keyword). */
  datatype Announcement = Announcement(
    id: int,
    title: string,
    description: string,
    location: string,
    date: string,
    time: string,
    level: string,
    kind: string,
    gameType: string,
    maxPlayers: int,
    currentPlayers: int,
    price: int,
    organizer: Organizer,
    createdAt: string,
    updatedAt: string)

  /** What `createAnnouncement` receives. Only `id` can survive the spread:
      the other bookkeeping fields are overwritten after it. */
  datatype Draft = Draft(
    id: Option<int>,
    title: string,
    description: string,
    location: string,
    date: string,
    time: string,
    level: string,
    kind: string,
    gameType: string,
    maxPlayers: int,
    price: int)

  /** What `updateAnnouncement` spreads over a stored announcement: any
      field may be present, including `id`, `currentPlayers`, `organizer`
      and `createdAt`. A present `updatedAt` is overwritten anyway. */
  datatype Patch = Patch(
    id: Option<int>,
    title: Option<string>,
    description: Option<string>,
    location: Option<string>,
    date: Option<string>,
    time: Option<string>,
    level: Option<string>,
    kind: Option<string>,
    gameType: Option<string>,
    maxPlayers: Option<int>,
    currentPlayers: Option<int>,
    price: Option<int>,
    organizer: Option<Organizer>,
    createdAt: Option<string>)

  /** The new store together with the announcement an operation returns. */
  datatype Step = Step(store: seq<Announcement>, value: Announcement)

  const NotFound := "Annonce non trouvée"
  const Full := "Cette annonce est complète"
  const CannotLeave := "Impossible de quitter cette annonce"

  /** The four demonstration announcements the store starts with. */
  const MockAnnouncements: seq<Announcement> := [
    Announcement(1, "Partie de badminton en double",
      "Recherche 2 joueurs pour une partie de double mixte. Niveau intermédiaire souhaité.",
      "Gymnase Municipal, Paris 15e", "2024-02-15", "19:00", "Intermédiaire", "Double", "Mixte",
      4, 2, 15, Organizer(1, "Marie Dubois", "Intermédiaire"),
      "2024-02-10T10:00:00Z", "2024-02-10T10:00:00Z"),
    Announcement(2, "Tournoi de badminton amateur",
      "Tournoi amical ouvert à tous les niveaux. Inscription gratuite, lots à gagner !",
      "Club de Badminton de Versailles", "2024-02-20", "14:00", "Débutant", "Simple", "Homme",
      16, 8, 0, Organizer(2, "Jean Martin", "Avancé"),
      "2024-02-08T15:30:00Z", "2024-02-08T15:30:00Z"),
    Announcement(3, "Séance d&apos;entraînement badminton",
      "Entraînement technique et tactique pour joueurs avancés. Coaching professionnel.",
      "Centre Sportif Léo Lagrange, Lyon", "2024-02-18", "18:30", "Avancé", "Double", "Femme",
      8, 6, 25, Organizer(3, "Sophie Laurent", "Expert"),
      "2024-02-09T12:00:00Z", "2024-02-09T12:00:00Z"),
    Announcement(4, "Match de badminton décontracté",
      "Partie amicale pour passer un bon moment. Tous niveaux bienvenus !",
      "Gymnase Saint-Exupéry, Toulouse", "2024-02-22", "20:00", "Débutant", "Simple", "Mixte",
      6, 3, 10, Organizer(4, "Pierre Durand", "Intermédiaire"),
      "2024-02-11T09:15:00Z", "2024-02-11T09:15:00Z")
  ]

  // ---------------------------------------------------------------------
  // Lookup

  /** `ann.id === parseInt(id)`: a request id that does not parse (NaN)
      matches nothing. */
  predicate HasId(a: Announcement, id: string) {
    var n := Numbers.ParseInt(id);
    n.Some? && a.id == n.value
  }

  /** `findIndex`: the first position whose announcement has the id. */
  function FindIndex(store: seq<Announcement>, id: string): (r: Option<nat>)
    ensures r.None? <==> forall i :: 0 <= i < |store| ==> !HasId(store[i], id)
    ensures r.Some? ==> r.value < |store| && HasId(store[r.value], id)
    ensures r.Some? ==> forall i :: 0 <= i < r.value ==> !HasId(store[i], id)
  {
    if |store| == 0 then None
    else if HasId(store[0], id) then Some(0)
    else match FindIndex(store[1..], id)
      case None => None
      case Some(i) => Some(i + 1)
  }

  /** Position `i` holds the first announcement with the id. */
  predicate FirstWithId(store: seq<Announcement>, id: string, i: int) {
    0 <= i < |store| && HasId(store[i], id) && forall j :: 0 <= j < i ==> !HasId(store[j], id)
  }

  /** `findIndex` returns the first position with the id. */
  lemma FindIndexIsFirst(store: seq<Announcement>, id: string)
    ensures forall i :: FirstWithId(store, id, i) ==> FindIndex(store, id) == Some(i)
  {
    forall i | FirstWithId(store, id, i) ensures FindIndex(store, id) == Some(i) {
      var j := FindIndex(store, id).value;
      assert !HasId(store[j], id) || j >= i;
      assert !HasId(store[i], id) || i >= j;
    }
  }

  /** `getAnnouncementById`: the first announcement with the id, or the
      not-found error. */
  function GetById(store: seq<Announcement>, id: string): (r: Result<Announcement>)
    ensures r.Err? <==> forall i :: 0 <= i < |store| ==> !HasId(store[i], id)
    ensures r.Err? ==> r.message == NotFound
    ensures r.Ok? ==> r.value in store && HasId(r.value, id)
    ensures r.Ok? ==> forall i :: FirstWithId(store, id, i) ==> r.value == store[i]
  {
    FindIndexIsFirst(store, id);
    match FindIndex(store, id)
    case None => Err(NotFound)
    case Some(i) => Ok(store[i])
  }

  // ---------------------------------------------------------------------
  // Create, update, delete

  /** `createAnnouncement`: id `|store| + 1` unless the draft carries one,
      one player, both timestamps `now`, and the signed-in user (id 1,
      'Utilisateur') as organizer at the announcement's level; appended. */
  function Create(store: seq<Announcement>, data: Draft, now: string): (r: Step)
    ensures r.store == store + [r.value]
    ensures r.value.id == data.id.GetOr(|store| + 1)
    ensures r.value.currentPlayers == 1
    ensures r.value.organizer == Organizer(1, "Utilisateur", data.level)
    ensures r.value.createdAt == now && r.value.updatedAt == now
    ensures (r.value.title, r.value.description, r.value.location, r.value.date, r.value.time)
         == (data.title, data.description, data.location, data.date, data.time)
    ensures (r.value.level, r.value.kind, r.value.gameType, r.value.maxPlayers, r.value.price)
         == (data.level, data.kind, data.gameType, data.maxPlayers, data.price)
  {
    var a := Announcement(
      data.id.GetOr(|store| + 1), data.title, data.description, data.location, data.date,
      data.time, data.level, data.kind, data.gameType, data.maxPlayers, 1, data.price,
      Organizer(1, "Utilisateur", data.level), now, now);
    Step(store + [a], a)
  }

  /** `{...a, ...data, updatedAt: now}`. */
  function ApplyPatch(a: Announcement, data: Patch, now: string): (r: Announcement)
    ensures r.updatedAt == now
    ensures r.id == data.id.GetOr(a.id)
    ensures r.currentPlayers == data.currentPlayers.GetOr(a.currentPlayers)
    ensures r.maxPlayers == data.maxPlayers.GetOr(a.maxPlayers)
    ensures r.organizer == data.organizer.GetOr(a.organizer)
    ensures r.createdAt == data.createdAt.GetOr(a.createdAt)
    ensures (r.title, r.description, r.location, r.date, r.time)
         == (data.title.GetOr(a.title), data.description.GetOr(a.description), data.location.GetOr(a.location),
             data.date.GetOr(a.date), data.time.GetOr(a.time))
    ensures (r.level, r.kind, r.gameType, r.price)
         == (data.level.GetOr(a.level), data.kind.GetOr(a.kind), data.gameType.GetOr(a.gameType), data.price.GetOr(a.price))
  {
    Announcement(
      data.id.GetOr(a.id), data.title.GetOr(a.title), data.description.GetOr(a.description),
      data.location.GetOr(a.location), data.date.GetOr(a.date), data.time.GetOr(a.time),
      data.level.GetOr(a.level), data.kind.GetOr(a.kind), data.gameType.GetOr(a.gameType),
      data.maxPlayers.GetOr(a.maxPlayers), data.currentPlayers.GetOr(a.currentPlayers),
      data.price.GetOr(a.price), data.organizer.GetOr(a.organizer),
      data.createdAt.GetOr(a.createdAt), now)
  }

  /** The empty patch. */
  const NoChange := Patch(None, None, None, None, None, None, None, None, None, None, None, None, None, None)

  /** An empty patch only refreshes the timestamp. */
  lemma EmptyPatchTouchesOnlyTimestamp(a: Announcement, now: string)
    ensures ApplyPatch(a, NoChange, now) == a.(updatedAt := now)
  {
  }

  /** The patch that writes back every field of `a`. */
  function FullPatch(a: Announcement): Patch {
    Patch(Some(a.id), Some(a.title), Some(a.description), Some(a.location), Some(a.date),
      Some(a.time), Some(a.level), Some(a.kind), Some(a.gameType), Some(a.maxPlayers),
      Some(a.currentPlayers), Some(a.price), Some(a.organizer), Some(a.createdAt))
  }

  /** No field is protected: a full patch replaces the record entirely,
      id, organizer, player count and creation date included. */
  lemma FullPatchReplaces(a: Announcement, b: Announcement, now: string)
    ensures ApplyPatch(a, FullPatch(b), now) == b.(updatedAt := now)
  {
  }

  /** Applying the same patch twice is applying it once (with the later
      timestamp). */
  lemma PatchIdempotent(a: Announcement, data: Patch, t1: string, t2: string)
    ensures ApplyPatch(ApplyPatch(a, data, t1), data, t2) == ApplyPatch(a, data, t2)
  {
  }

  /** `updateAnnouncement`: the first announcement with the id is replaced
      by the patched one, in place; not found leaves the store as it is. */
  function Update(store: seq<Announcement>, id: string, data: Patch, now: string): (r: Result<Step>)
    ensures r.Err? <==> forall i :: 0 <= i < |store| ==> !HasId(store[i], id)
    ensures r.Err? ==> r.message == NotFound
    ensures r.Ok? ==> forall i :: FirstWithId(store, id, i) ==>
      r.value.store == store[i := r.value.value] && r.value.value == ApplyPatch(store[i], data, now)
  {
    FindIndexIsFirst(store, id);
    match FindIndex(store, id)
    case None => Err(NotFound)
    case Some(i) =>
      var a := ApplyPatch(store[i], data, now);
      Ok(Step(store[i := a], a))
  }

  /** `deleteAnnouncement`: the first announcement with the id is spliced
      out. */
  function Delete(store: seq<Announcement>, id: string): (r: Result<seq<Announcement>>)
    ensures r.Err? <==> forall i :: 0 <= i < |store| ==> !HasId(store[i], id)
    ensures r.Err? ==> r.message == NotFound
    ensures r.Ok? ==> |r.value| == |store| - 1
    ensures r.Ok? ==> forall i :: FirstWithId(store, id, i) ==> r.value == store[..i] + store[i + 1..]
  {
    FindIndexIsFirst(store, id);
    match FindIndex(store, id)
    case None => Err(NotFound)
    case Some(i) => Ok(store[..i] + store[i + 1..])
  }

  // ---------------------------------------------------------------------
  // Joining and leaving

  /** The record after a join: one more player, stamped `now`. */
  function OneMore(a: Announcement, now: string): Announcement {
    a.(currentPlayers := a.currentPlayers + 1, updatedAt := now)
  }

  /** The record after a leave: one player fewer, stamped `now`. */
  function OneLess(a: Announcement, now: string): Announcement {
    a.(currentPlayers := a.currentPlayers - 1, updatedAt := now)
  }

  /** `joinAnnouncement`: one more player unless the announcement is full. */
  function Join(store: seq<Announcement>, id: string, now: string): (r: Result<Step>)
    ensures r.Err? ==> r.message == NotFound || r.message == Full
    ensures r.Err? && r.message == NotFound <==> forall i :: 0 <= i < |store| ==> !HasId(store[i], id)
    ensures r.Ok? ==> FindIndex(store, id).Some? && var i := FindIndex(store, id).value;
      && store[i].currentPlayers < store[i].maxPlayers
      && r.value.value == OneMore(store[i], now)
      && r.value.store == store[i := r.value.value]
  {
    match FindIndex(store, id)
    case None => Err(NotFound)
    case Some(i) =>
      var a := store[i];
      if a.currentPlayers >= a.maxPlayers then Err(Full)
      else
        var b := OneMore(a, now);
        Ok(Step(store[i := b], b))
  }

  /** `leaveAnnouncement`: one player fewer, but never below one (the
      organizer stays). */
  function Leave(store: seq<Announcement>, id: string, now: string): (r: Result<Step>)
    ensures r.Err? ==> r.message == NotFound || r.message == CannotLeave
    ensures r.Err? && r.message == NotFound <==> forall i :: 0 <= i < |store| ==> !HasId(store[i], id)
    ensures r.Ok? ==> FindIndex(store, id).Some? && var i := FindIndex(store, id).value;
      && store[i].currentPlayers > 1
      && r.value.value == OneLess(store[i], now)
      && r.value.store == store[i := r.value.value]
  {
    match FindIndex(store, id)
    case None => Err(NotFound)
    case Some(i) =>
      var a := store[i];
      if a.currentPlayers <= 1 then Err(CannotLeave)
      else
        var b := OneLess(a, now);
        Ok(Step(store[i := b], b))
  }

  /** Every announcement has between one and `maxPlayers` players. */
  predicate PlayerCountsValid(store: seq<Announcement>) {
    forall i :: 0 <= i < |store| ==> 1 <= store[i].currentPlayers <= store[i].maxPlayers
  }

  /** Joining and leaving keep the player counts valid. */
  lemma JoinLeavePreserveCounts(store: seq<Announcement>, id: string, now: string)
    requires PlayerCountsValid(store)
    ensures Join(store, id, now).Ok? ==> PlayerCountsValid(Join(store, id, now).value.store)
    ensures Leave(store, id, now).Ok? ==> PlayerCountsValid(Leave(store, id, now).value.store)
  {
    if FindIndex(store, id).Some? {
      var i := FindIndex(store, id).value;
      var a := store[i];
      if a.currentPlayers < a.maxPlayers {
        JoinAt(store, id, now, i);
        CountsAfterReplace(store, i, OneMore(a, now));
      }
      if a.currentPlayers > 1 {
        LeaveAt(store, id, now, i);
        CountsAfterReplace(store, i, OneLess(a, now));
      }
    }
  }

  /** Replacing one announcement by one with a valid count keeps the
      counts valid. */
  lemma CountsAfterReplace(store: seq<Announcement>, i: nat, b: Announcement)
    requires PlayerCountsValid(store) && i < |store| && 1 <= b.currentPlayers <= b.maxPlayers
    ensures PlayerCountsValid(store[i := b])
  {
  }

  /** Creating keeps the counts valid when the draft allows at least one
      player. */
  lemma CreatePreservesCounts(store: seq<Announcement>, data: Draft, now: string)
    requires PlayerCountsValid(store) && data.maxPlayers >= 1
    ensures PlayerCountsValid(Create(store, data, now).store)
  {
    var r := Create(store, data, now);
    assert forall i :: 0 <= i < |store| ==> r.store[i] == store[i];
  }

  /** There is no per-user check: the same caller can join twice while
      two places remain. */
  lemma JoinTwice(store: seq<Announcement>, id: string, i: nat, t1: string, t2: string)
    requires FindIndex(store, id) == Some(i) && store[i].currentPlayers + 2 <= store[i].maxPlayers
    ensures Join(store, id, t1).Ok?
    ensures Join(Join(store, id, t1).value.store, id, t2).Ok?
    ensures Join(Join(store, id, t1).value.store, id, t2).value.value.currentPlayers
         == store[i].currentPlayers + 2
  {
    var a := store[i];
    var b := OneMore(a, t1);
    JoinAt(store, id, t1, i);
    SameIdsSameIndex(store, store[i := b], id);
    JoinAt(store[i := b], id, t2, i);
  }

  /** Joining then leaving the same announcement gives back the store as
      it was, up to the timestamp. */
  lemma JoinThenLeave(store: seq<Announcement>, id: string, i: nat, t1: string, t2: string)
    requires FindIndex(store, id) == Some(i) && 1 <= store[i].currentPlayers < store[i].maxPlayers
    ensures Join(store, id, t1).Ok?
    ensures Leave(Join(store, id, t1).value.store, id, t2) == Ok(Step(store[i := store[i].(updatedAt := t2)], store[i].(updatedAt := t2)))
  {
    var a := store[i];
    var b := OneMore(a, t1);
    var joined := store[i := b];
    JoinAt(store, id, t1, i);
    SameIdsSameIndex(store, joined, id);
    assert joined[i] == b;
    LeaveAt(joined, id, t2, i);
    var c := OneLess(b, t2);
    assert c == a.(updatedAt := t2);
    assert joined[i := c] == store[i := c];
  }

  lemma {:induction false} JoinAt(store: seq<Announcement>, id: string, now: string, i: nat)
    requires FindIndex(store, id) == Some(i) && store[i].currentPlayers < store[i].maxPlayers
    ensures Join(store, id, now) == Ok(Step(store[i := OneMore(store[i], now)], OneMore(store[i], now)))
  {
  }

  lemma {:induction false} LeaveAt(store: seq<Announcement>, id: string, now: string, i: nat)
    requires FindIndex(store, id) == Some(i) && store[i].currentPlayers > 1
    ensures Leave(store, id, now) == Ok(Step(store[i := OneLess(store[i], now)], OneLess(store[i], now)))
  {
  }

  /** Changing fields other than ids does not move the lookup. */
  lemma SameIdsSameIndex(a: seq<Announcement>, b: seq<Announcement>, id: string)
    requires |a| == |b| && forall i :: 0 <= i < |a| ==> a[i].id == b[i].id
    ensures FindIndex(a, id) == FindIndex(b, id)
  {
    var ra, rb := FindIndex(a, id), FindIndex(b, id);
    assert forall i :: 0 <= i < |a| ==> (HasId(a[i], id) <==> HasId(b[i], id));
  }

  // ---------------------------------------------------------------------
  // Identity

  /** No two announcements share an id. */
  predicate UniqueIds(store: seq<Announcement>) {
    forall i, j :: 0 <= i < j < |store| ==> store[i].id != store[j].id
  }

  /** The ids are exactly 1..n in order, as in the seed data. */
  predicate DenseIds(store: seq<Announcement>) {
    forall i :: 0 <= i < |store| ==> store[i].id == i + 1
  }

  /** On a densely numbered store, the length-based id is fresh. */
  lemma CreateOnDenseIsFresh(store: seq<Announcement>, data: Draft, now: string)
    requires DenseIds(store) && data.id.None?
    ensures var r := Create(store, data, now); UniqueIds(r.store) && DenseIds(r.store)
  {
    var r := Create(store, data, now);
    assert forall i :: 0 <= i < |store| ==> r.store[i] == store[i];
  }

  /** The seed is numbered 1..4 and its player counts are valid. */
  lemma SeedInvariants()
    ensures |MockAnnouncements| == 4
    ensures DenseIds(MockAnnouncements) && UniqueIds(MockAnnouncements)
    ensures PlayerCountsValid(MockAnnouncements)
  {
    var s := MockAnnouncements;
    SeedFields(s);
    assert forall i :: 0 <= i < |s| ==> s[i].id == i + 1;
  }

  /** The seeded ids and player counts, entry by entry. */
  lemma SeedFields(s: seq<Announcement>)
    requires s == MockAnnouncements
    ensures |s| == 4
    ensures s[0].id == 1 && s[1].id == 2 && s[2].id == 3 && s[3].id == 4
    ensures PlayerCountsValid(s)
  {
    assert 1 <= s[0].currentPlayers <= s[0].maxPlayers;
    assert 1 <= s[1].currentPlayers <= s[1].maxPlayers;
    assert 1 <= s[2].currentPlayers <= s[2].maxPlayers;
    assert 1 <= s[3].currentPlayers <= s[3].maxPlayers;
  }

  /** Deleting with unique ids removes the only match: a second delete of
      the same id fails. */
  lemma DeleteTwiceFails(store: seq<Announcement>, id: string)
    requires UniqueIds(store) && Delete(store, id).Ok?
    ensures Delete(Delete(store, id).value, id) == Err(NotFound)
  {
    var i := FindIndex(store, id).value;
    var rest := store[..i] + store[i + 1..];
    forall j | 0 <= j < |rest| ensures !HasId(rest[j], id) {
      if j < i {
        assert rest[j] == store[j];
      } else {
        assert rest[j] == store[j + 1];
      }
    }
  }

  /** A rendered id selects exactly the announcements carrying it. */
  lemma HasRenderedId(a: Announcement, n: nat)
    ensures HasId(a, Numbers.NatToString(n)) <==> a.id == n
  {
    Numbers.ParseIntOfNatString(n);
  }

  /** Because ids come from the length, deleting any announcement but the
      last from a densely numbered store and then creating one hands out
      the last id a second time; lookups of that id keep finding the older
      announcement. */
  lemma CreateAfterDeleteReusesId(store: seq<Announcement>, k: nat, data: Draft, now: string)
    requires DenseIds(store) && 1 <= k < |store| && data.id.None?
    ensures var afterDelete := Delete(store, Numbers.NatToString(k));
      && afterDelete.Ok?
      && var r := Create(afterDelete.value, data, now);
         && r.value.id == |store|
         && !UniqueIds(r.store)
         && GetById(r.store, Numbers.NatToString(|store|)) == Ok(store[|store| - 1])
  {
    DeleteFromDense(store, k);
    var rest := store[..k - 1] + store[k..];
    var r := Create(rest, data, now);
    assert r.store[|store| - 2] == store[|store| - 1];
    forall i | 0 <= i < |store| - 2 ensures r.store[i].id != |store| {
      if i < k - 1 {
        assert r.store[i] == store[i];
      } else {
        assert r.store[i] == store[i + 1];
      }
    }
    FirstWithRenderedId(r.store, |store|, |store| - 2);
    assert r.store[|store| - 2].id == r.store[|store| - 1].id;
  }

  /** Deleting id `k` from a densely numbered store removes position `k - 1`. */
  lemma DeleteFromDense(store: seq<Announcement>, k: nat)
    requires DenseIds(store) && 1 <= k <= |store|
    ensures Delete(store, Numbers.NatToString(k)) == Ok(store[..k - 1] + store[k..])
  {
    var key := Numbers.NatToString(k);
    forall i | 0 <= i < |store| ensures HasId(store[i], key) <==> i == k - 1 {
      HasRenderedId(store[i], k);
    }
    assert HasId(store[k - 1], key);
    assert FindIndex(store, key) == Some(k - 1);
  }

  /** The lookup of a rendered id finds its first holder. */
  lemma FirstWithRenderedId(store: seq<Announcement>, n: nat, j: nat)
    requires j < |store| && store[j].id == n
    requires forall i :: 0 <= i < j ==> store[i].id != n
    ensures GetById(store, Numbers.NatToString(n)) == Ok(store[j])
  {
    var key := Numbers.NatToString(n);
    forall i | 0 <= i <= j ensures HasId(store[i], key) <==> i == j {
      HasRenderedId(store[i], n);
    }
    assert FindIndex(store, key) == Some(j);
  }

  // ---------------------------------------------------------------------
  // Queries

  /** `getUserAnnouncements`: the announcements organised by the user, each
      as often as in the store, in store order. */
  function UserAnnouncements(store: seq<Announcement>, userId: string): (r: seq<Announcement>)
    ensures forall k :: 0 <= k < |r| ==> r[k] in store && Numbers.ParseInt(userId) == Some(r[k].organizer.id)
    ensures forall k :: 0 <= k < |store| && Numbers.ParseInt(userId) == Some(store[k].organizer.id) ==> store[k] in r
    ensures forall a :: multiset(r)[a] == if Numbers.ParseInt(userId) == Some(a.organizer.id) then multiset(store)[a] else 0
    ensures Seqs.IsSubsequence(r, store)
  {
    var p := (a: Announcement) => Numbers.ParseInt(userId) == Some(a.organizer.id);
    Seqs.FilterCount(store, p);
    Seqs.FilterIsSubsequence(store, p);
    Seqs.Filter(store, p)
  }

  /** Every seeded announcement is organised by a different user, so user
      1 sees exactly the first. */
  lemma SeedUserOne()
    ensures UserAnnouncements(MockAnnouncements, "1") == [MockAnnouncements[0]]
  {
    SeedOrganizers();
    UserOneOfNumbered(MockAnnouncements);
  }

  /** When the organizers are users 1, 2, … in store order, user 1 sees
      exactly the first announcement. */
  lemma UserOneOfNumbered(s: seq<Announcement>)
    requires |s| >= 1
    requires forall k :: 0 <= k < |s| ==> s[k].organizer.id == k + 1
    ensures UserAnnouncements(s, "1") == [s[0]]
  {
    Numbers.ParseUnsignedDecimal("1", 1);
    SoleOrganizer(s, "1", 1);
  }

  /** The seed announcements are organised by users 1 to 4, in order. */
  lemma SeedOrganizers()
    ensures |MockAnnouncements| == 4
    ensures forall k :: 0 <= k < |MockAnnouncements| ==> MockAnnouncements[k].organizer.id == k + 1
  {
    var s := MockAnnouncements;
    assert s[0].organizer.id == 1 && s[1].organizer.id == 2;
    assert s[2].organizer.id == 3 && s[3].organizer.id == 4;
  }

  /** A user who organises only the first announcement of a store sees
      exactly that one. */
  lemma SoleOrganizer(s: seq<Announcement>, userId: string, n: int)
    requires Numbers.ParseInt(userId) == Some(n)
    requires |s| >= 1 && s[0].organizer.id == n
    requires forall k :: 1 <= k < |s| ==> s[k].organizer.id != n
    ensures UserAnnouncements(s, userId) == [s[0]]
  {
    var p := (a: Announcement) => Numbers.ParseInt(userId) == Some(a.organizer.id);
    Seqs.FilterNone(s[1..], p);
  }

  /** The search criteria; an empty string is an absent (falsy) filter. */
  datatype Filters = Filters(location: string, level: string, kind: string, gameType: string,
                             date: string, maxPrice: string)

  const NoFilters := Filters("", "", "", "", "", "")

  predicate LocationMatches(a: Announcement, location: string) {
    Text.Contains(Text.Lower(a.location), Text.Lower(location))
  }

  /** `ann.price <= parseInt(maxPrice)`: false for every price when the
      bound is not a number. */
  predicate PriceWithin(a: Announcement, maxPrice: string) {
    var n := Numbers.ParseInt(maxPrice);
    n.Some? && a.price <= n.value
  }

  predicate LocationOk(f: Filters, a: Announcement) { f.location == "" || LocationMatches(a, f.location) }
  predicate LevelOk(f: Filters, a: Announcement) { f.level == "" || a.level == f.level }
  predicate KindOk(f: Filters, a: Announcement) { f.kind == "" || a.kind == f.kind }
  predicate GameTypeOk(f: Filters, a: Announcement) { f.gameType == "" || a.gameType == f.gameType }
  predicate DateOk(f: Filters, a: Announcement) { f.date == "" || a.date == f.date }
  predicate PriceOk(f: Filters, a: Announcement) { f.maxPrice == "" || PriceWithin(a, f.maxPrice) }

  /** An announcement passes every active filter. */
  predicate Matches(a: Announcement, f: Filters) {
    LocationOk(f, a) && LevelOk(f, a) && KindOk(f, a) && GameTypeOk(f, a) && DateOk(f, a) && PriceOk(f, a)
  }

  /** One `if (filters.x) filtered = filtered.filter(...)` stage. */
  function Stage(s: seq<Announcement>, active: bool, p: Announcement -> bool): seq<Announcement> {
    if active then Seqs.Filter(s, p) else s
  }

  /** The location, level and type stages. */
  function FirstStages(store: seq<Announcement>, f: Filters): seq<Announcement> {
    var s1 := Stage(store, f.location != "", (a: Announcement) => LocationMatches(a, f.location));
    var s2 := Stage(s1, f.level != "", (a: Announcement) => a.level == f.level);
    Stage(s2, f.kind != "", (a: Announcement) => a.kind == f.kind)
  }

  /** `searchAnnouncements`: the six stages in the source's order. */
  function SearchStaged(store: seq<Announcement>, f: Filters): seq<Announcement> {
    var s3 := FirstStages(store, f);
    var s4 := Stage(s3, f.gameType != "", (a: Announcement) => a.gameType == f.gameType);
    var s5 := Stage(s4, f.date != "", (a: Announcement) => a.date == f.date);
    Stage(s5, f.maxPrice != "", (a: Announcement) => PriceWithin(a, f.maxPrice))
  }

  /** The search result: the matching announcements, in store order. */
  function Search(store: seq<Announcement>, f: Filters): (r: seq<Announcement>)
    ensures forall k :: 0 <= k < |r| ==> r[k] in store && Matches(r[k], f)
    ensures forall k :: 0 <= k < |store| && Matches(store[k], f) ==> store[k] in r
    ensures Seqs.IsSubsequence(r, store)
    ensures forall a :: multiset(r)[a] == if Matches(a, f) then multiset(store)[a] else 0
  {
    SearchIsSinglePass(store, f);
    Seqs.FilterIsSubsequence(store, (a: Announcement) => Matches(a, f));
    Seqs.FilterCount(store, (a: Announcement) => Matches(a, f));
    SearchStaged(store, f)
  }

  /** A stage is a filter by "inactive, or the criterion holds". */
  lemma StageIs(s: seq<Announcement>, active: bool, p: Announcement -> bool, q: Announcement -> bool)
    requires forall a :: q(a) == (!active || p(a))
    ensures Stage(s, active, p) == Seqs.Filter(s, q)
  {
    if active {
      Seqs.FilterSamePredicate(s, p, q);
    } else {
      Seqs.FilterKeepsAll(s, q);
    }
  }

  /** Three successive stages are one filter by the conjunction. */
  lemma ThreeStages(s: seq<Announcement>,
                    a1: bool, p1: Announcement -> bool, q1: Announcement -> bool,
                    a2: bool, p2: Announcement -> bool, q2: Announcement -> bool,
                    a3: bool, p3: Announcement -> bool, q3: Announcement -> bool,
                    q: Announcement -> bool)
    requires forall a :: q1(a) == (!a1 || p1(a))
    requires forall a :: q2(a) == (!a2 || p2(a))
    requires forall a :: q3(a) == (!a3 || p3(a))
    requires forall a :: q(a) == (q1(a) && q2(a) && q3(a))
    ensures Stage(Stage(Stage(s, a1, p1), a2, p2), a3, p3) == Seqs.Filter(s, q)
  {
    var q12 := (a: Announcement) => q1(a) && q2(a);
    StageIs(s, a1, p1, q1);
    StageIs(Seqs.Filter(s, q1), a2, p2, q2);
    Seqs.FilterFusion(s, q1, q2, q12);
    StageIs(Seqs.Filter(s, q12), a3, p3, q3);
    Seqs.FilterFusion(s, q12, q3, q);
  }

  /** The six successive stages select the same announcements as one pass
      testing all criteria at once. */
  lemma SearchIsSinglePass(store: seq<Announcement>, f: Filters)
    ensures SearchStaged(store, f) == Seqs.Filter(store, (a: Announcement) => Matches(a, f))
  {
    var first := (a: Announcement) => LocationOk(f, a) && LevelOk(f, a) && KindOk(f, a);
    var last := (a: Announcement) => GameTypeOk(f, a) && DateOk(f, a) && PriceOk(f, a);
    ThreeStages(store,
      f.location != "", (a: Announcement) => LocationMatches(a, f.location), (a: Announcement) => LocationOk(f, a),
      f.level != "", (a: Announcement) => a.level == f.level, (a: Announcement) => LevelOk(f, a),
      f.kind != "", (a: Announcement) => a.kind == f.kind, (a: Announcement) => KindOk(f, a),
      first);
    var s3 := FirstStages(store, f);
    ThreeStages(s3,
      f.gameType != "", (a: Announcement) => a.gameType == f.gameType, (a: Announcement) => GameTypeOk(f, a),
      f.date != "", (a: Announcement) => a.date == f.date, (a: Announcement) => DateOk(f, a),
      f.maxPrice != "", (a: Announcement) => PriceWithin(a, f.maxPrice), (a: Announcement) => PriceOk(f, a),
      last);
    Seqs.FilterFusion(store, first, last, (a: Announcement) => Matches(a, f));
  }

  /** Without filters the search returns the whole store. */
  lemma SearchWithoutFilters(store: seq<Announcement>)
    ensures Search(store, NoFilters) == store
  {
  }

  /** A maximum price that is not a number (parseInt gives NaN) empties
      the result. */
  lemma NonNumericMaxPriceFindsNothing(store: seq<Announcement>, f: Filters)
    requires f.maxPrice != "" && Numbers.ParseInt(f.maxPrice).None?
    ensures Search(store, f) == []
  {
    SearchIsSinglePass(store, f);
    Seqs.FilterNone(store, (a: Announcement) => Matches(a, f));
  }

  /** Locations match whatever their case: "paris" finds the Paris game. */
  lemma SearchParis()
    ensures MockAnnouncements[0] in Search(MockAnnouncements, NoFilters.(location := "paris"))
  {
    var loc := Text.Lower(MockAnnouncements[0].location);
    assert loc[19..24] == "paris";
    assert Text.OccursAt(loc, "paris", 19);
    assert Text.Lower("paris") == "paris";
    assert LocationMatches(MockAnnouncements[0], "paris");
  }
}

=== FILE: announcements_page.dfy ===
/** The client-side filter of the announcements page
    (`src/pages/Announcements.jsx`): the filter object the page starts
    with and the list `handleFilterChange` displays. */
module AnnouncementsPage {
  import Seqs
  import Text
  import FilterBar
  import Service = AnnouncementService

  type Announcement = Service.Announcement

  /** The page's initial filter object: its third key is 'badminton', not
      the 'type' the filter bar writes. */
  const InitialFilters: FilterBar.FilterState :=
    map["location" := "", "level" := "", "badminton" := "", "date" := ""]

  /** `filters.key`, with a missing key read as '' (both are falsy). */
  function Lookup(filters: FilterBar.FilterState, key: string): string {
    if key in filters then filters[key] else ""
  }

  /** `handleFilterChange(newFilters)`: location, level and date stages
      over the fetched list, in that order. */
  function Displayed(announcements: seq<Announcement>, filters: FilterBar.FilterState): seq<Announcement> {
    var location := Lookup(filters, "location");
    var level := Lookup(filters, "level");
    var date := Lookup(filters, "date");
    var s1 := Service.Stage(announcements, location != "", (a: Announcement) => Service.LocationMatches(a, location));
    var s2 := Service.Stage(s1, level != "", (a: Announcement) => a.level == level);
    Service.Stage(s2, date != "", (a: Announcement) => a.date == date)
  }

  /** An announcement passes the page's three criteria. */
  predicate Shown(a: Announcement, filters: FilterBar.FilterState) {
    var location := Lookup(filters, "location");
    var level := Lookup(filters, "level");
    var date := Lookup(filters, "date");
    && (location == "" || Service.LocationMatches(a, location))
    && (level == "" || a.level == level)
    && (date == "" || a.date == date)
  }

  /** The three stages are one conjunctive filter. */
  lemma DisplayedIsOneFilter(announcements: seq<Announcement>, filters: FilterBar.FilterState)
    ensures Displayed(announcements, filters) == Seqs.Filter(announcements, (a: Announcement) => Shown(a, filters))
  {
    var location := Lookup(filters, "location");
    var level := Lookup(filters, "level");
    var date := Lookup(filters, "date");
    Service.ThreeStages(announcements,
      location != "", (a: Announcement) => Service.LocationMatches(a, location),
      (a: Announcement) => location == "" || Service.LocationMatches(a, location),
      level != "", (a: Announcement) => a.level == level, (a: Announcement) => level == "" || a.level == level,
      date != "", (a: Announcement) => a.date == date, (a: Announcement) => date == "" || a.date == date,
      (a: Announcement) => Shown(a, filters));
  }

  /** The displayed list: exactly the fetched announcements passing every
      active criterion, in their original order. */
  function HandleFilterChange(announcements: seq<Announcement>, newFilters: FilterBar.FilterState)
    : (r: seq<Announcement>)
    ensures forall k :: 0 <= k < |r| ==> r[k] in announcements && Shown(r[k], newFilters)
    ensures forall k :: 0 <= k < |announcements| && Shown(announcements[k], newFilters) ==> announcements[k] in r
    ensures Seqs.IsSubsequence(r, announcements)
    ensures forall a :: multiset(r)[a] == if Shown(a, newFilters) then multiset(announcements)[a] else 0
  {
    DisplayedIsOneFilter(announcements, newFilters);
    Seqs.FilterIsSubsequence(announcements, (a: Announcement) => Shown(a, newFilters));
    Seqs.FilterCount(announcements, (a: Announcement) => Shown(a, newFilters));
    Displayed(announcements, newFilters)
  }

  /** With every filter empty the whole list is shown, in order. */
  lemma EmptyFiltersShowAll(announcements: seq<Announcement>)
    ensures HandleFilterChange(announcements, FilterBar.EmptyFilters) == announcements
    ensures HandleFilterChange(announcements, InitialFilters) == announcements
  {
    NoCriterionShowsAll(announcements, FilterBar.EmptyFilters);
    NoCriterionShowsAll(announcements, InitialFilters);
  }

  lemma NoCriterionShowsAll(announcements: seq<Announcement>, filters: FilterBar.FilterState)
    requires Lookup(filters, "location") == "" && Lookup(filters, "level") == "" && Lookup(filters, "date") == ""
    ensures HandleFilterChange(announcements, filters) == announcements
  {
  }

  /** The stages commute: date, then level, then location selects the same
      list. */
  lemma StagesCommute(announcements: seq<Announcement>, filters: FilterBar.FilterState)
    ensures var location := Lookup(filters, "location");
      var level := Lookup(filters, "level");
      var date := Lookup(filters, "date");
      var t1 := Service.Stage(announcements, date != "", (a: Announcement) => a.date == date);
      var t2 := Service.Stage(t1, level != "", (a: Announcement) => a.level == level);
      Service.Stage(t2, location != "", (a: Announcement) => Service.LocationMatches(a, location))
        == HandleFilterChange(announcements, filters)
  {
    var location := Lookup(filters, "location");
    var level := Lookup(filters, "level");
    var date := Lookup(filters, "date");
    DisplayedIsOneFilter(announcements, filters);
    Service.ThreeStages(announcements,
      date != "", (a: Announcement) => a.date == date, (a: Announcement) => date == "" || a.date == date,
      level != "", (a: Announcement) => a.level == level, (a: Announcement) => level == "" || a.level == level,
      location != "", (a: Announcement) => Service.LocationMatches(a, location),
      (a: Announcement) => location == "" || Service.LocationMatches(a, location),
      (a: Announcement) => Shown(a, filters));
  }

  /** The page filter is the service search restricted to location, level
      and date. */
  lemma PageAgreesWithSearch(announcements: seq<Announcement>, filters: FilterBar.FilterState)
    ensures HandleFilterChange(announcements, filters)
         == Service.Search(announcements, Service.NoFilters.(location := Lookup(filters, "location"),
              level := Lookup(filters, "level"), date := Lookup(filters, "date")))
  {
    var f := Service.NoFilters.(location := Lookup(filters, "location"),
      level := Lookup(filters, "level"), date := Lookup(filters, "date"));
    DisplayedIsOneFilter(announcements, filters);
    Service.SearchIsSinglePass(announcements, f);
    Seqs.FilterSamePredicate(announcements, (a: Announcement) => Shown(a, filters),
      (a: Announcement) => Service.Matches(a, f));
  }

  /** The type filter has no effect: any key other than location, level
      and date can be set to anything. */
  lemma OtherKeysIgnored(announcements: seq<Announcement>, filters: FilterBar.FilterState,
                         key: string, value: string)
    requires key != "location" && key != "level" && key != "date"
    ensures HandleFilterChange(announcements, filters[key := value])
         == HandleFilterChange(announcements, filters)
  {
    assert forall k :: k != key ==> Lookup(filters[key := value], k) == Lookup(filters, k);
  }

  /** The type choice of the filter bar in particular is ignored. */
  lemma TypeFilterIgnored(announcements: seq<Announcement>, filters: FilterBar.FilterState, value: string)
    ensures HandleFilterChange(announcements, FilterBar.SetFilter(filters, "type", value).notified)
         == HandleFilterChange(announcements, filters)
  {
    OtherKeysIgnored(announcements, filters, "type", value);
  }

  /** A level chosen in the filter bar is lower-cased, while every stored
      level is capitalised: choosing any level hides every seeded
      announcement. */
  lemma LevelOptionHidesSeed(filters: FilterBar.FilterState, k: nat)
    requires k < |FilterBar.Levels|
    ensures var choice := FilterBar.OptionValues(FilterBar.Levels)[k];
      HandleFilterChange(Service.MockAnnouncements, FilterBar.SetFilter(filters, "level", choice).notified) == []
  {
    var choice := FilterBar.OptionValues(FilterBar.Levels)[k];
    var f := FilterBar.SetFilter(filters, "level", choice).notified;
    var seed := Service.MockAnnouncements;
    forall i | 0 <= i < |seed| ensures !Shown(seed[i], f) {
      assert Text.IsUpperLetter(seed[i].level[0]);
      FilterBar.OptionValueNotCapitalised(FilterBar.Levels, k, seed[i].level);
    }
    DisplayedIsOneFilter(seed, f);
    Seqs.FilterNone(seed, (a: Announcement) => Shown(a, f));
  }
}

=== FILE: auth_service.dfy ===
/** The mock authentication store of `src/services/auth.js` (the
    `mockAuth` object used while the mock mode is on). Users are open
    records, since registration and profile updates spread whatever
    object they receive. */
module AuthService {
  import opened Wrappers
  import Json

  type Record = map<string, Json.Value>

  const MockToken := "mock-jwt-token"
  const BadCredentials := "Email ou mot de passe incorrect"
  const DuplicateEmail := "Un compte existe déjà avec cet email"
  const InvalidToken := "Token invalide"
  const ResetSent := "Email de récupération envoyé"

  /** The single demonstration user. */
  const MockUsers: seq<Record> := [
    map["id" := Json.Num(1), "name" := Json.Str("Marie Dubois"), "email" := Json.Str("marie@example.com"),
        "level" := Json.Str("Intermédiaire"), "city" := Json.Str("Paris"), "phone" := Json.Str("0123456789")]
  ]

  /** `{ user, token }`. */
  datatype Session = Session(user: Json.Value, token: string)

  /** `mockUsers[0]`, undefined for an empty list. */
  function First(users: seq<Record>): (r: Json.Value)
    ensures |users| > 0 ==> r == Json.Obj(users[0])
    ensures |users| == 0 ==> r == Json.Undefined
  {
    if |users| > 0 then Json.Obj(users[0]) else Json.Undefined
  }

  /** `login`: one fixed pair of credentials, answered with the first
      user, whoever registered. */
  function Login(users: seq<Record>, email: string, password: string): (r: Result<Session>)
    ensures r.Ok? <==> email == "test@example.com" && password == "password"
    ensures r.Ok? ==> r.value == Session(First(users), MockToken)
    ensures r.Err? ==> r.message == BadCredentials
  {
    if email == "test@example.com" && password == "password" then Ok(Session(First(users), MockToken))
    else Err(BadCredentials)
  }

  /** `user.email === userData.email`, an absent email reading as
      undefined. */
  predicate SameEmail(user: Record, data: Record) {
    Json.StrictEquals(Json.Field(user, "email"), Json.Field(data, "email"))
  }

  /** `register`: rejected when some user has the same email; otherwise
      `{ id: length + 1, ...userData }` is appended. */
  function Register(users: seq<Record>, data: Record): (r: Result<(seq<Record>, Session)>)
    ensures r.Err? <==> exists k :: 0 <= k < |users| && SameEmail(users[k], data)
    ensures r.Err? ==> r.message == DuplicateEmail
    ensures r.Ok? ==> |r.value.0| == |users| + 1 && var newUser := r.value.0[|users|];
      && r.value.0 == users + [newUser]
      && r.value.1 == Session(Json.Obj(newUser), MockToken)
      && newUser.Keys == data.Keys + {"id"}
      && (forall key :: key in data ==> newUser[key] == data[key])
      && ("id" !in data ==> newUser["id"] == Json.Num(|users| + 1))
  {
    if exists k :: 0 <= k < |users| && SameEmail(users[k], data) then Err(DuplicateEmail)
    else
      var newUser := map["id" := Json.Num(|users| + 1)] + data;
      Ok((users + [newUser], Session(Json.Obj(newUser), MockToken)))
  }

  /** An email `===` can compare with itself: not an array or record. */
  predicate PrimitiveEmail(data: Record) {
    var e := Json.Field(data, "email");
    !e.Arr? && !e.Obj?
  }

  /** Registering the same data twice fails the second time, even without
      an email (undefined equals undefined). */
  lemma RegisterTwiceFails(users: seq<Record>, data: Record)
    requires Register(users, data).Ok? && PrimitiveEmail(data)
    ensures Register(Register(users, data).value.0, data) == Err(DuplicateEmail)
  {
    var next := Register(users, data).value.0;
    assert SameEmail(next[|users|], data);
  }

  /** `verifyToken`: the mock token stands for the first user. */
  function VerifyToken(users: seq<Record>, token: string): (r: Result<Json.Value>)
    ensures r.Ok? <==> token == MockToken
    ensures r.Ok? ==> r.value == First(users)
    ensures r.Err? ==> r.message == InvalidToken
  {
    if token == MockToken then Ok(First(users)) else Err(InvalidToken)
  }

  /** `updateProfile`: `{...mockUsers[0], ...profileData}` stored at index
      0 (which creates it in an empty list). */
  function UpdateProfile(users: seq<Record>, patch: Record): (r: (seq<Record>, Record))
    ensures |r.0| == if |users| == 0 then 1 else |users|
    ensures r.0[0] == r.1
    ensures forall k :: 1 <= k < |users| ==> r.0[k] == users[k]
    ensures forall key :: key in patch ==> key in r.1 && r.1[key] == patch[key]
    ensures |users| > 0 ==> forall key :: key in users[0] && key !in patch ==> key in r.1 && r.1[key] == users[0][key]
    ensures r.1.Keys == patch.Keys + (if |users| > 0 then users[0].Keys else {})
  {
    var base: Record := if |users| > 0 then users[0] else map[];
    var updated := base + patch;
    (if |users| > 0 then users[0 := updated] else [updated], updated)
  }

  /** After an update, signing in or verifying the token answers with the
      updated user. */
  lemma UpdateThenVerify(users: seq<Record>, patch: Record)
    ensures VerifyToken(UpdateProfile(users, patch).0, MockToken)
         == Ok(Json.Obj(UpdateProfile(users, patch).1))
  {
  }

  /** Updating with the same patch twice is updating once. */
  lemma UpdateProfileIdempotent(users: seq<Record>, patch: Record)
    ensures UpdateProfile(UpdateProfile(users, patch).0, patch) == UpdateProfile(users, patch)
  {
    var (next, updated) := UpdateProfile(users, patch);
    assert (updated + patch).Keys == updated.Keys;
    assert forall key :: key in updated ==> (updated + patch)[key] == updated[key];
    assert updated + patch == updated;
    assert next[0 := updated] == next;
  }

  /** `requestPasswordReset` always succeeds with the same message. */
  function RequestPasswordReset(email: string): (r: string)
    ensures r == ResetSent
  {
    ResetSent
  }
}

=== FILE: button.dfy ===
/** The shared button of `src/components/ui/Button.jsx`: its class list,
    its disabled flag and the spinner that replaces the label while
    loading. */
module Button {
  import opened Wrappers
  import Text
  import ClassNames

  /** The variants with a class of their own. */
  const Variants: seq<string> := ["primary", "secondary", "outline", "ghost", "danger"]

  /** `variantClasses[variant] || variantClasses.primary`. */
  function VariantClass(variant: string): (r: string)
    ensures variant in Variants ==> r == "btn-" + variant
    ensures variant !in Variants ==> r == "btn-primary"
    ensures r != "" && ' ' !in r
  {
    if variant == "secondary" then "btn-secondary"
    else if variant == "outline" then "btn-outline"
    else if variant == "ghost" then "btn-ghost"
    else if variant == "danger" then "btn-danger"
    else "btn-primary"
  }

  /** `sizeClasses[size] || ''`: only the small and large sizes add a
      class. */
  function SizeClass(size: string): (r: string)
    ensures r == "btn-sm" <==> size == "small"
    ensures r == "btn-lg" <==> size == "large"
    ensures r == "" <==> size != "small" && size != "large"
    ensures ' ' !in r
  {
    if size == "small" then "btn-sm"
    else if size == "large" then "btn-lg"
    else ""
  }

  /** The props the component reads; `None` is a prop left out, which
      takes its default ('primary', 'medium', '' and false). */
  datatype Props = Props(variant: Option<string>, size: Option<string>, disabled: bool,
                         loading: bool, className: Option<string>)

  datatype Content = Spinner | Children

  datatype Rendered = Rendered(className: string, disabled: bool, content: Content)

  function Variant(p: Props): string { p.variant.GetOr("primary") }
  function Size(p: Props): string { p.size.GetOr("medium") }
  function Extra(p: Props): string { p.className.GetOr("") }

  /** The four candidate classes, before `filter(Boolean)`. */
  function Parts(p: Props): seq<string> {
    ["btn", VariantClass(Variant(p)), SizeClass(Size(p)), Extra(p)]
  }

  /** The rendered `<button>`: disabled while loading as well, and showing
      the spinner instead of its children while loading. */
  function Render(p: Props): (r: Rendered)
    ensures r.disabled <==> p.disabled || p.loading
    ensures r.content == Spinner <==> p.loading
  {
    Rendered(ClassNames.ClassName(Parts(p)), p.disabled || p.loading,
             if p.loading then Spinner else Children)
  }

  /** The class list read back from the attribute starts with 'btn' and
      the variant's class (the primary one for an unknown variant), holds
      'btn-sm' or 'btn-lg' for those sizes, and has no empty token. */
  lemma ClassTokens(p: Props)
    requires ' ' !in Extra(p)
    ensures var t := Text.Split(Render(p).className, ' ');
      && |t| >= 2 && t[0] == "btn"
      && t[1] == VariantClass(Variant(p))
      && (SizeClass(Size(p)) != "" ==> SizeClass(Size(p)) in t)
      && (forall k :: 0 <= k < |t| ==> t[k] != "")
  {
    var parts := Parts(p);
    ClassNames.LeadingTokens(parts);
    assert ' ' !in parts[0] && ' ' !in parts[1] && ' ' !in parts[2] && ' ' !in parts[3];
    ClassNames.SplitClassName(parts);
  }

  /** A loading button cannot be pressed and shows only the spinner; an
      idle one is disabled exactly when asked to be. */
  lemma LoadingDisables(p: Props)
    ensures p.loading ==> Render(p).disabled && Render(p).content == Spinner
    ensures !p.loading ==> (Render(p).disabled <==> p.disabled) && Render(p).content == Children
  {
  }
}

=== FILE: class_names.dfy ===
/** The `[...].filter(Boolean).join(' ')` idiom the UI components use to
    build a `className` attribute from optional parts. */
module ClassNames {
  import Seqs
  import Text

  predicate NonEmpty(s: string) {
    s != ""
  }

  /** `filter(Boolean)` on strings: the non-empty parts, in order. */
  function Tokens(parts: seq<string>): (r: seq<string>)
    ensures forall k :: 0 <= k < |r| ==> r[k] != "" && r[k] in parts
    ensures forall k :: 0 <= k < |parts| && parts[k] != "" ==> parts[k] in r
  {
    Seqs.Filter(parts, NonEmpty)
  }

  /** The attribute: the tokens joined by single spaces. */
  function ClassName(parts: seq<string>): string {
    Text.Join(Tokens(parts), " ")
  }

  /** An empty part contributes nothing. */
  lemma TokensCons(head: string, rest: seq<string>)
    ensures Tokens([head] + rest) == (if head != "" then [head] else []) + Tokens(rest)
  {
    assert ([head] + rest)[1..] == rest;
  }

  /** A leading non-empty part is the first token. */
  lemma FirstToken(parts: seq<string>)
    requires |parts| >= 1 && parts[0] != ""
    ensures |Tokens(parts)| >= 1 && Tokens(parts)[0] == parts[0]
  {
    TokensCons(parts[0], parts[1..]);
    assert parts == [parts[0]] + parts[1..];
  }

  /** Two leading non-empty parts are the first two tokens. */
  lemma LeadingTokens(parts: seq<string>)
    requires |parts| >= 2 && parts[0] != "" && parts[1] != ""
    ensures var t := Tokens(parts); |t| >= 2 && t[0] == parts[0] && t[1] == parts[1]
  {
    TokensCons(parts[0], parts[1..]);
    TokensCons(parts[1], parts[2..]);
    assert parts == [parts[0]] + parts[1..];
    assert parts[1..] == [parts[1]] + parts[2..];
  }

  /** A non-empty class is a token exactly when it is one of the parts. */
  lemma TokenIffPart(parts: seq<string>, x: string)
    requires x != ""
    ensures x in Tokens(parts) <==> x in parts
  {
    if x in parts {
      var k :| 0 <= k < |parts| && parts[k] == x;
    }
  }

  /** Splitting the attribute at spaces gives the tokens back, as the
      browser's class list reads it, when no part holds a space and some
      part is non-empty. */
  lemma SplitClassName(parts: seq<string>)
    requires forall k :: 0 <= k < |parts| ==> ' ' !in parts[k]
    requires |Tokens(parts)| >= 1
    ensures Text.Split(ClassName(parts), ' ') == Tokens(parts)
  {
    var t := Tokens(parts);
    forall k | 0 <= k < |t| ensures ' ' !in t[k] {
      var j :| 0 <= j < |parts| && parts[j] == t[k];
    }
    assert " " == [' '];
    Text.SplitJoin(t, ' ');
  }
}

=== FILE: dashboard.dfy ===
/** The user's dashboard (`src/pages/Dashboard.jsx`): the two sublists it
    derives from the hook's announcements, the tab counts and the
    statistics. Records are the loosely shaped client-side ones. */
module Dashboard {
  import Seqs
  import Text
  import Json
  import UseAnnouncements

  /** `announcement.userId === user.id`. */
  predicate OwnedBy(a: Json.Value, user: Json.Value) {
    Json.StrictEquals(Json.Get(a, "userId"), Json.Get(user, "id"))
  }

  /** `announcement.participants?.includes(user.id)`: array membership;
      on a string, `includes` looks for the id's text as a substring. */
  predicate Includes(participants: Json.Value, id: Json.Value) {
    match participants
    case Arr(xs) => exists k :: 0 <= k < |xs| && Json.StrictEquals(xs[k], id)
    case Str(s) => Text.Contains(s, Json.ToString(id))
    case _ => false
  }

  predicate JoinedBy(a: Json.Value, user: Json.Value) {
    Includes(Json.Get(a, "participants"), Json.Get(user, "id"))
  }

  /** `participants?.includes` can only be called on arrays and strings
      (and is skipped on nullish values); anything else throws. */
  predicate ParticipantsCallable(announcements: seq<Json.Value>) {
    forall k :: 0 <= k < |announcements| ==>
      var p := Json.Get(announcements[k], "participants");
      p.Arr? || p.Str? || Json.IsNullish(p)
  }

  function MyAnnouncements(announcements: seq<Json.Value>, user: Json.Value): (r: seq<Json.Value>)
    ensures forall k :: 0 <= k < |r| ==> r[k] in announcements && OwnedBy(r[k], user)
    ensures forall k :: 0 <= k < |announcements| && OwnedBy(announcements[k], user) ==> announcements[k] in r
    ensures forall a :: multiset(r)[a] == if OwnedBy(a, user) then multiset(announcements)[a] else 0
  {
    Seqs.FilterCount(announcements, (a: Json.Value) => OwnedBy(a, user));
    Seqs.Filter(announcements, (a: Json.Value) => OwnedBy(a, user))
  }

  function Participations(announcements: seq<Json.Value>, user: Json.Value): (r: seq<Json.Value>)
    ensures forall k :: 0 <= k < |r| ==> r[k] in announcements && JoinedBy(r[k], user)
    ensures forall k :: 0 <= k < |announcements| && JoinedBy(announcements[k], user) ==> announcements[k] in r
    ensures forall a :: multiset(r)[a] == if JoinedBy(a, user) then multiset(announcements)[a] else 0
  {
    Seqs.FilterCount(announcements, (a: Json.Value) => JoinedBy(a, user));
    Seqs.Filter(announcements, (a: Json.Value) => JoinedBy(a, user))
  }

  /** Records without a participants list never count as participations. */
  lemma NoParticipantsNoParticipation(a: Json.Value, user: Json.Value)
    requires a.Obj? && "participants" !in a.fields
    ensures a !in Participations([a], user)
  {
  }

  /** Both sublists keep the hook's order. */
  lemma SublistsAreSubsequences(announcements: seq<Json.Value>, user: Json.Value)
    ensures Seqs.IsSubsequence(MyAnnouncements(announcements, user), announcements)
    ensures Seqs.IsSubsequence(Participations(announcements, user), announcements)
  {
    Seqs.FilterIsSubsequence(announcements, (a: Json.Value) => OwnedBy(a, user));
    Seqs.FilterIsSubsequence(announcements, (a: Json.Value) => JoinedBy(a, user));
  }

  predicate IsActive(a: Json.Value) {
    Json.StrictEquals(Json.Get(a, "status"), Json.Str("active"))
  }

  datatype Tab = Tab(id: string, caption: string, count: nat)

  datatype Stats = Stats(created: nat, participations: nat, active: nat)

  /** What the page shows. */
  datatype View = AccessDenied | Board(tabs: seq<Tab>, stats: Stats, mine: seq<Json.Value>, joined: seq<Json.Value>)

  /** The page for a user (or none) and the hook's announcements. */
  function Render(announcements: seq<Json.Value>, user: Json.Value): (r: View)
    requires ParticipantsCallable(announcements)
    ensures r.AccessDenied? <==> !Json.Truthy(user)
    ensures r.Board? ==> |r.tabs| == 2 && r.tabs[0].count == |r.mine| && r.tabs[1].count == |r.joined|
    ensures r.Board? ==> r.stats.created == |r.mine| && r.stats.participations == |r.joined|
    ensures r.Board? ==> r.stats.active <= r.stats.created
    ensures r.Board? ==> r.mine == MyAnnouncements(announcements, user)
    ensures r.Board? ==> r.joined == Participations(announcements, user)
  {
    if !Json.Truthy(user) then AccessDenied
    else
      var mine := MyAnnouncements(announcements, user);
      var joined := Participations(announcements, user);
      var active := Seqs.Filter(mine, IsActive);
      Board(
        [Tab("my-announcements", "Mes annonces", |mine|), Tab("participations", "Mes participations", |joined|)],
        Stats(|mine|, |joined|, |active|),
        mine, joined)
  }

  /** The active count is the number of the user's announcements whose
      status is 'active'. */
  lemma ActiveCountsOwnActive(announcements: seq<Json.Value>, user: Json.Value)
    requires ParticipantsCallable(announcements) && Json.Truthy(user)
    ensures Render(announcements, user).stats.active
         == |Seqs.Filter(announcements, (a: Json.Value) => OwnedBy(a, user) && IsActive(a))|
  {
    Seqs.FilterFusion(announcements, (a: Json.Value) => OwnedBy(a, user), IsActive,
      (a: Json.Value) => OwnedBy(a, user) && IsActive(a));
  }

  /** A numeric id that appears as digits inside a participants string
      matches: user 1 counts as a participant of '12'. */
  lemma StringParticipantsMatchDigits()
    ensures Includes(Json.Str("12"), Json.Num(1))
  {
    assert Json.ToString(Json.Num(1)) == "1";
    assert Text.OccursAt("12", "1", 0);
  }

  /** The dashboard asks the hook for the user's announcements with the
      query 'userId=<id>'. */
  lemma DashboardQuery()
    ensures UseAnnouncements.Endpoint([("userId", Json.Num(1))]) == "/announcements?userId=1"
  {
    var entries: UseAnnouncements.Entries := [("userId", Json.Num(1))];
    UserIdKept(entries);
    UserIdPair();
    assert UseAnnouncements.Pairs(entries) == ["userId=1"];
  }

  /** The one entry of the query is truthy, so it is kept. */
  lemma UserIdKept(entries: UseAnnouncements.Entries)
    requires entries == [("userId", Json.Num(1))]
    ensures UseAnnouncements.KeptEntries(entries) == entries
  {
    Seqs.FilterKeepsAll(entries, UseAnnouncements.Kept);
  }

  /** Both halves of the pair are plain ASCII and pass unencoded. */
  lemma UserIdPair()
    ensures UseAnnouncements.Pair(("userId", Json.Num(1))) == "userId=1"
  {
    UseAnnouncements.EncodeUnreserved("userId");
    assert Json.ToString(Json.Num(1)) == "1";
    UseAnnouncements.EncodeUnreserved("1");
  }
}

=== FILE: filter_bar.dfy ===
/** The filter bar of the announcements page
    (`src/components/announcements/FilterBar.jsx`): its local filter
    state, the updates it makes and reports to its parent, and the values
    of its drop-down options. */
module FilterBar {
  import Text

  /** A filter object: field name to the text chosen for it. */
  type FilterState = map<string, string>

  /** The state the bar starts from and clears back to. */
  const EmptyFilters: FilterState := map["location" := "", "level" := "", "type" := "", "date" := ""]

  /** The new local state together with the object passed to
      `onFilterChange`. */
  datatype Change = Change(local: FilterState, notified: FilterState)

  /** `handleFilterChange(field, value)`: `{...localFilters, [field]: value}`,
      kept and reported. */
  function SetFilter(local: FilterState, field: string, value: string): (r: Change)
    ensures r.notified == r.local
    ensures field in r.local && r.local[field] == value
    ensures r.local.Keys == local.Keys + {field}
    ensures forall k :: k in local && k != field ==> r.local[k] == local[k]
  {
    var next := local[field := value];
    Change(next, next)
  }

  /** Setting a field to the value it already has changes nothing. */
  lemma SetSameValue(local: FilterState, field: string)
    requires field in local
    ensures SetFilter(local, field, local[field]).local == local
  {
  }

  /** Two settings of different fields commute. */
  lemma SetFiltersCommute(local: FilterState, f1: string, v1: string, f2: string, v2: string)
    requires f1 != f2
    ensures SetFilter(SetFilter(local, f1, v1).local, f2, v2).local
         == SetFilter(SetFilter(local, f2, v2).local, f1, v1).local
  {
  }

  /** `clearFilters`: every field the bar shows reset to '', reported. */
  function Clear(local: FilterState): (r: Change)
    ensures r.notified == r.local
    ensures r.local.Keys == {"location", "level", "type", "date"}
    ensures forall k :: k in r.local ==> r.local[k] == ""
  {
    Change(EmptyFilters, EmptyFilters)
  }

  /** Clearing twice is clearing once. */
  lemma ClearIdempotent(local: FilterState)
    ensures Clear(Clear(local).local) == Clear(local)
  {
  }

  /** The effect on a new `filters` prop: it replaces the local state
      wholesale, keys the bar does not know included. */
  function Sync(local: FilterState, filters: FilterState): (r: FilterState)
    ensures r.Keys == filters.Keys && forall k :: k in r ==> r[k] == filters[k]
  {
    filters
  }

  /** After a new prop the earlier local state is forgotten: the next edit
      reports the prop's filters with just that field changed. */
  lemma SyncThenSet(local: FilterState, filters: FilterState, field: string, value: string)
    ensures SetFilter(Sync(local, filters), field, value).notified == filters[field := value]
  {
  }

  /** The display names of the two drop-downs. */
  const BadmintonTypes: seq<string> := ["Simple", "Double", "Mixte"]
  const Levels: seq<string> := ["Débutant", "Intermédiaire", "Avancé", "Expert"]

  /** `names.map(n => <option value={n.toLowerCase()}>)`: the option values. */
  function OptionValues(names: seq<string>): (r: seq<string>)
    ensures |r| == |names|
    ensures forall k :: 0 <= k < |r| ==> r[k] == Text.Lower(names[k])
  {
    seq(|names|, k requires 0 <= k < |names| => Text.Lower(names[k]))
  }

  /** Option values are already lower case, so lower-casing them again, as
      the pages do with the texts they compare, leaves them as they are. */
  lemma OptionValuesLowerCase(names: seq<string>, k: nat)
    requires k < |names|
    ensures Text.Lower(OptionValues(names)[k]) == OptionValues(names)[k]
  {
    Text.LowerIdempotent(names[k]);
  }

  /** No option value starts with a capital letter, so none equals a
      capitalised name. */
  lemma OptionValueNotCapitalised(names: seq<string>, k: nat, s: string)
    requires k < |names| && s != "" && Text.IsUpperLetter(s[0])
    ensures OptionValues(names)[k] != s
  {
    var v := OptionValues(names)[k];
    if |v| > 0 {
      assert v[0] == Text.LowerChar(names[k][0]);
    }
  }

  /** The level option values are 'débutant', 'intermédiaire', 'avancé'
      and 'expert'. */
  lemma LevelOptionValues()
    ensures OptionValues(Levels) == ["débutant", "intermédiaire", "avancé", "expert"]
  {
    Text.LowerIs("Débutant", "débutant");
    Text.LowerIs("Intermédiaire", "intermédiaire");
    Text.LowerIs("Avancé", "avancé");
    Text.LowerIs("Expert", "expert");
  }

}

=== FILE: forms.dfy ===
/** What every form of the application shares: a record of field values,
    a field-to-message error map built by checking every field, submission
    gated on an empty map, the `handleChange` update that clears the edited
    field's error, and the unanchored email test `/\S+@\S+\.\S+/`. */
module Forms {
  import opened Wrappers
  import Text
  import Json
  import Helpers

  /** The `formData` record. */
  type Values = map<string, Json.Value>

  /** The `errors` record: field name to message. */
  type Errors = map<string, string>

  /** The named fields hold strings, as text inputs deliver them. */
  predicate TextFields(v: Values, keys: set<string>) {
    forall k :: k in keys ==> k in v && v[k].Str?
  }

  /** One field's `if / else if` chain has run: its message, when it
      produced one, is in the map; nothing else changes. */
  function Report(errors: Errors, field: string, error: Option<string>): (r: Errors)
    ensures field in r <==> error.Some? || field in errors
    ensures error.Some? ==> r[field] == error.value
    ensures forall f :: f != field ==> (f in r <==> f in errors)
    ensures forall f :: f in errors && f != field ==> r[f] == errors[f]
    ensures |r| == 0 <==> error.None? && |errors| == 0
  {
    if error.Some? then errors[field := error.value] else errors
  }

  /** `handleSubmit`: the request goes out only when validation reported
      nothing; otherwise the errors are shown. */
  datatype Submission<T> = Blocked(errors: Errors) | Sent(payload: T)

  function Gate<T>(errors: Errors, payload: T): (r: Submission<T>)
    ensures r.Sent? <==> |errors| == 0
    ensures r.Sent? ==> r.payload == payload
    ensures r.Blocked? ==> r.errors == errors && |r.errors| > 0
  {
    if |errors| == 0 then Sent(payload) else Blocked(errors)
  }

  /** The component state a change handler touches. */
  datatype FormState = FormState(values: Values, errors: Errors)

  /** `handleChange`: `[name]: value` in the record, and the field's error,
      when truthy, replaced by ''. */
  function Change(st: FormState, name: string, value: Json.Value): (r: FormState)
    ensures name in r.values && r.values[name] == value
    ensures r.values.Keys == st.values.Keys + {name}
    ensures forall k :: k in st.values && k != name ==> r.values[k] == st.values[k]
    ensures r.errors.Keys == st.errors.Keys
    ensures forall k :: k in st.errors && k != name ==> r.errors[k] == st.errors[k]
    ensures name in r.errors ==> r.errors[name] == ""
  {
    var errors := if name in st.errors && st.errors[name] != "" then st.errors[name := ""] else st.errors;
    FormState(st.values[name := value], errors)
  }

  /** Typing the same value twice is typing it once. */
  lemma ChangeIdempotent(st: FormState, name: string, value: Json.Value)
    ensures Change(Change(st, name, value), name, value) == Change(st, name, value)
  {
  }

  /** Edits of different fields commute. */
  lemma ChangesCommute(st: FormState, a: string, x: Json.Value, b: string, y: Json.Value)
    requires a != b
    ensures Change(Change(st, a, x), b, y) == Change(Change(st, b, y), a, x)
  {
    var l := Change(Change(st, a, x), b, y);
    var r := Change(Change(st, b, y), a, x);
    assert l.values == r.values;
    assert l.errors == r.errors;
  }

  /** A text edit keeps every text field a string. */
  lemma ChangeKeepsText(st: FormState, keys: set<string>, name: string, s: string)
    requires TextFields(st.values, keys)
    ensures TextFields(Change(st, name, Json.Str(s)).values, keys)
  {
  }

  // ---------------------------------------------------------------------
  // The email test shared by the forms

  /** No whitespace in `s[i..j]`. */
  predicate NoSpace(s: string, i: int, j: int)
    requires 0 <= i <= j <= |s|
  {
    forall k :: i <= k < j ==> !Text.IsSpace(s[k])
  }

  /** `/\S+@\S+\.\S+/.test(s)`, unanchored: some '@' at `p` with a
      non-space just before it, then a run of non-spaces up to a '.' at `q`,
      and a non-space just after it (a `\S+` may shrink to one character). */
  predicate LooseEmail(s: string) {
    exists p, q :: 0 < p && p + 1 < q < |s| - 1 && s[p] == '@' && s[q] == '.'
      && !Text.IsSpace(s[p - 1]) && NoSpace(s, p + 1, q) && !Text.IsSpace(s[q + 1])
  }

  /** Every address `isValidEmail` accepts passes the forms' test. */
  lemma StrictEmailIsLoose(s: string)
    requires Helpers.IsValidEmail(s)
    ensures LooseEmail(s)
  {
    Helpers.IsValidEmailMatchesPattern(s);
    var p, q :| 0 < p < q < |s| - 1 && s[p] == '@' && s[q] == '.'
      && Helpers.AtomRange(s, 0, p) && Helpers.AtomRange(s, p + 1, q) && Helpers.AtomRange(s, q + 1, |s|);
    assert Helpers.AtomChar(s[p - 1]);
    assert Helpers.AtomChar(s[q + 1]);
    assert NoSpace(s, p + 1, q) by {
      forall k | p + 1 <= k < q ensures !Text.IsSpace(s[k]) {
        assert Helpers.AtomChar(s[k]);
      }
    }
    LooseEmailAt(s, p, q);
  }

  /** The test holds once its '@' and '.' are found. */
  lemma LooseEmailAt(s: string, p: int, q: int)
    requires 0 < p && p + 1 < q < |s| - 1 && s[p] == '@' && s[q] == '.'
    requires !Text.IsSpace(s[p - 1]) && NoSpace(s, p + 1, q) && !Text.IsSpace(s[q + 1])
    ensures LooseEmail(s)
  {
  }

  /** The converse fails: the forms accept an address with a space in it,
      which `isValidEmail` rejects. */
  lemma LooseEmailAcceptsSpace(s: string)
    requires s == "a b@c.d"
    ensures LooseEmail(s) && !Helpers.IsValidEmail(s)
  {
    SpacedAddressIsLoose(s);
    SpaceBreaksStrict(s, 1);
  }

  /** `isValidEmail` refuses any text holding whitespace. */
  lemma SpaceBreaksStrict(s: string, i: int)
    requires 0 <= i < |s| && Text.IsSpace(s[i])
    ensures !Helpers.IsValidEmail(s)
  {
  }

  /** The forms' test finds "b@c.d" inside "a b@c.d". */
  lemma SpacedAddressIsLoose(s: string)
    requires s == "a b@c.d"
    ensures LooseEmail(s)
  {
    assert s[2] == 'b' && s[3] == '@' && s[4] == 'c' && s[5] == '.' && s[6] == 'd';
    assert NoSpace(s, 4, 5);
    LooseEmailAt(s, 3, 5);
  }

  /** Neither the empty string nor anything too short to hold `x@y.z`
      passes. */
  lemma LooseEmailNeedsFive(s: string)
    requires |s| < 5
    ensures !LooseEmail(s)
  {
  }

  // ---------------------------------------------------------------------
  // Checks shared by several forms

  const EmailRequired := "L'email est requis"
  const EmailInvalid := "L'email n'est pas valide"
  const PasswordRequired := "Le mot de passe est requis"
  const PasswordShort := "Le mot de passe doit contenir au moins 6 caractères"
  const PasswordMismatch := "Les mots de passe ne correspondent pas"

  /** `if (!email) … else if (!/\S+@\S+\.\S+/.test(email)) …`. */
  function EmailError(email: string): (r: Option<string>)
    ensures r.None? <==> LooseEmail(email)
    ensures r == Some(EmailRequired) <==> email == ""
    ensures r.Some? ==> r.value in {EmailRequired, EmailInvalid}
  {
    if email == "" then Some(EmailRequired)
    else if !LooseEmail(email) then Some(EmailInvalid)
    else None
  }

  /** `if (!password) … else if (password.length < 6) …`: at least six
      characters are needed, and six suffice. */
  function PasswordError(password: string): (r: Option<string>)
    ensures r.None? <==> |password| >= 6
    ensures r == Some(PasswordRequired) <==> password == ""
    ensures r.Some? ==> r.value in {PasswordRequired, PasswordShort}
  {
    if password == "" then Some(PasswordRequired)
    else if |password| < 6 then Some(PasswordShort)
    else None
  }

  /** `if (!confirm) … else if (password !== confirm) …`. */
  function ConfirmError(password: string, confirm: string, required: string): (r: Option<string>)
    ensures r.None? <==> confirm != "" && confirm == password
    ensures r == Some(required) <== confirm == ""
    ensures r.Some? && confirm != "" ==> r.value == PasswordMismatch
  {
    if confirm == "" then Some(required)
    else if password != confirm then Some(PasswordMismatch)
    else None
  }
}

=== FILE: helpers.dfy ===
/** The pure helpers of `src/utils/helpers.js`. Clocks are parameters:
    "now" is a millisecond timestamp and "today" a calendar date. */
module Helpers {
  import opened Wrappers
  import Seqs
  import Text
  import Numbers
  import Json

  // ---------------------------------------------------------------------
  // Relative time

  /** The bucket `getRelativeTime` chooses for an elapsed time. */
  datatype Elapsed = JustNow | MinutesAgo(n: int) | HoursAgo(n: int) | DaysAgo(n: int) | OnDate

  const MinuteMs := 60000
  const HourMs := 3600000
  const DayMs := 86400000

  /** Successive floor divisions: seconds, minutes, hours, days. A future
      target (negative elapsed time) falls in the first bucket. */
  function Classify(nowMs: int, targetMs: int): (e: Elapsed)
    ensures e.JustNow? <==> nowMs - targetMs < MinuteMs
    ensures e.MinutesAgo? ==>
      1 <= e.n < 60 && e.n * MinuteMs <= nowMs - targetMs < (e.n + 1) * MinuteMs
    ensures e.HoursAgo? ==>
      1 <= e.n < 24 && e.n * HourMs <= nowMs - targetMs < (e.n + 1) * HourMs
    ensures e.DaysAgo? ==>
      1 <= e.n < 7 && e.n * DayMs <= nowMs - targetMs < (e.n + 1) * DayMs
    ensures e.OnDate? <==> nowMs - targetMs >= 7 * DayMs
  {
    var diffMs := nowMs - targetMs;
    var seconds := diffMs / 1000;
    var minutes := seconds / 60;
    var hours := minutes / 60;
    var days := hours / 24;
    FloorBounds(diffMs, 1000);
    FloorChain(diffMs, seconds, 1000, 60);
    FloorChain(diffMs, minutes, MinuteMs, 60);
    FloorChain(diffMs, hours, HourMs, 24);
    if seconds < 60 then JustNow
    else if minutes < 60 then MinutesAgo(minutes)
    else if hours < 24 then HoursAgo(hours)
    else if days < 7 then DaysAgo(days)
    else OnDate
  }

  lemma FloorBounds(x: int, unit: int)
    requires unit > 0
    ensures (x / unit) * unit <= x < (x / unit + 1) * unit
  {
  }

  /** Dividing a floor quotient again is the floor quotient by the product. */
  lemma FloorChain(x: int, q: int, unit: int, k: int)
    requires unit > 0 && k > 0
    requires q * unit <= x < (q + 1) * unit
    ensures (q / k) * (unit * k) <= x < (q / k + 1) * (unit * k)
  {
    var p := q / k;
    assert p * k <= q < p * k + k;
    assert p * (unit * k) == (p * k) * unit;
    assert (p * k) * unit <= q * unit by {
      MulMonotone(p * k, q, unit);
    }
    assert (q + 1) * unit <= (p * k + k) * unit by {
      MulMonotone(q + 1, p * k + k, unit);
    }
    assert (p + 1) * (unit * k) == (p * k + k) * unit;
  }

  lemma MulMonotone(a: int, b: int, c: int)
    requires a <= b && c >= 0
    ensures a * c <= b * c
  {
  }

  /** The plural suffix: "s" exactly when the count exceeds one. */
  function Plural(n: int): string {
    if n > 1 then "s" else ""
  }

  /** The French label for a bucket; `formattedDate` is what `formatDate`
      prints for the target (locale formatting is outside the model). */
  function RelativeLabel(e: Elapsed, formattedDate: string): string {
    match e
    case JustNow => "À l'instant"
    case MinutesAgo(n) => "Il y a " + Numbers.IntToString(n) + " minute" + Plural(n)
    case HoursAgo(n) => "Il y a " + Numbers.IntToString(n) + " heure" + Plural(n)
    case DaysAgo(n) => "Il y a " + Numbers.IntToString(n) + " jour" + Plural(n)
    case OnDate => formattedDate
  }

  /** `getRelativeTime(date)` with the current time passed in: n whole
      minutes under an hour, n whole hours under a day and n whole days
      under a week are counted in the text, with 's' from two on. */
  function GetRelativeTime(nowMs: int, targetMs: int, formattedDate: string): (r: string)
    ensures nowMs - targetMs < MinuteMs ==> r == "À l'instant"
    ensures forall n: nat :: 1 <= n < 60 && n * MinuteMs <= nowMs - targetMs < (n + 1) * MinuteMs ==>
      r == "Il y a " + Numbers.NatToString(n) + " minute" + (if n > 1 then "s" else "")
    ensures forall n: nat :: 1 <= n < 24 && n * HourMs <= nowMs - targetMs < (n + 1) * HourMs ==>
      r == "Il y a " + Numbers.NatToString(n) + " heure" + (if n > 1 then "s" else "")
    ensures forall n: nat :: 1 <= n < 7 && n * DayMs <= nowMs - targetMs < (n + 1) * DayMs ==>
      r == "Il y a " + Numbers.NatToString(n) + " jour" + (if n > 1 then "s" else "")
    ensures nowMs - targetMs >= 7 * DayMs ==> r == formattedDate
  {
    CountedLabels(nowMs, targetMs, formattedDate);
    RelativeLabel(Classify(nowMs, targetMs), formattedDate)
  }

  /** The label of an elapsed time in `[n·unit, (n+1)·unit)` counts n
      units. */
  lemma CountedLabels(nowMs: int, targetMs: int, formattedDate: string)
    ensures forall n: nat :: 1 <= n < 60 && n * MinuteMs <= nowMs - targetMs < (n + 1) * MinuteMs ==>
      RelativeLabel(Classify(nowMs, targetMs), formattedDate)
        == "Il y a " + Numbers.NatToString(n) + " minute" + (if n > 1 then "s" else "")
    ensures forall n: nat :: 1 <= n < 24 && n * HourMs <= nowMs - targetMs < (n + 1) * HourMs ==>
      RelativeLabel(Classify(nowMs, targetMs), formattedDate)
        == "Il y a " + Numbers.NatToString(n) + " heure" + (if n > 1 then "s" else "")
    ensures forall n: nat :: 1 <= n < 7 && n * DayMs <= nowMs - targetMs < (n + 1) * DayMs ==>
      RelativeLabel(Classify(nowMs, targetMs), formattedDate)
        == "Il y a " + Numbers.NatToString(n) + " jour" + (if n > 1 then "s" else "")
  {
    var e := Classify(nowMs, targetMs);
    if e.MinutesAgo? || e.HoursAgo? || e.DaysAgo? {
      assert Numbers.IntToString(e.n) == Numbers.NatToString(e.n);
    }
  }

  /** A counted label ends in 's' exactly when its count is greater than
      one: "Il y a 1 minute", "Il y a 2 minutes". */
  lemma PluralOnlyAboveOne(nowMs: int, targetMs: int, formattedDate: string)
    requires var e := Classify(nowMs, targetMs); e.MinutesAgo? || e.HoursAgo? || e.DaysAgo?
    ensures var r := GetRelativeTime(nowMs, targetMs, formattedDate);
      |r| > 0 && (r[|r| - 1] == 's' <==> Classify(nowMs, targetMs).n > 1)
  {
    var e := Classify(nowMs, targetMs);
    var r := GetRelativeTime(nowMs, targetMs, formattedDate);
    var unit := if e.MinutesAgo? then " minute" else if e.HoursAgo? then " heure" else " jour";
    assert r == ("Il y a " + Numbers.IntToString(e.n) + unit) + Plural(e.n);
  }

  // ---------------------------------------------------------------------
  // Table lookups on constants.js

  /** A row of a constants table: identifier, display name, and the
      looked-up payload (a colour or an emoji). */
  datatype Entry = Entry(id: string, name: string, payload: string)

  const SkillLevels: seq<Entry> := [
    Entry("debutant", "Débutant", "green"),
    Entry("intermediaire", "Intermédiaire", "orange"),
    Entry("avance", "Avancé", "red"),
    Entry("expert", "Expert", "purple")
  ]

  const Sports: seq<Entry> := [
    Entry("tennis", "Tennis", "\U{1F3BE}"),
    Entry("football", "Football", "\U{26BD}"),
    Entry("basketball", "Basketball", "\U{1F3C0}"),
    Entry("running", "Running", "\U{1F3C3}\U{200D}\U{2642}\U{FE0F}"),
    Entry("musculation", "Musculation", "\U{1F4AA}"),
    Entry("natation", "Natation", "\U{1F3CA}\U{200D}\U{2642}\U{FE0F}"),
    Entry("cyclisme", "Cyclisme", "\U{1F6B4}\U{200D}\U{2642}\U{FE0F}"),
    Entry("badminton", "Badminton", "\U{1F3F8}"),
    Entry("volleyball", "Volleyball", "\U{1F3D0}"),
    Entry("ping-pong", "Ping-pong", "\U{1F3D3}")
  ]

  /** The entry is selected by `key`, compared case-insensitively with its
      name or its identifier. */
  predicate Selects(e: Entry, key: string) {
    Text.Lower(e.name) == Text.Lower(key) || Text.Lower(e.id) == Text.Lower(key)
  }

  /** `table.find(...)`: the first selected entry. */
  function FindEntry(table: seq<Entry>, key: string): (r: Option<Entry>)
    ensures r.None? <==> forall i :: 0 <= i < |table| ==> !Selects(table[i], key)
    ensures r.Some? ==> r.value in table && Selects(r.value, key)
  {
    if |table| == 0 then None
    else if Selects(table[0], key) then Some(table[0])
    else FindEntry(table[1..], key)
  }

  /** `getLevelColor`: the colour of the level named (or identified) by
      `levelName`, 'gray' for an unknown level. */
  function GetLevelColor(levelName: string): (r: string)
    ensures r in ["green", "orange", "red", "purple", "gray"]
    ensures r == "gray" <==> FindEntry(SkillLevels, levelName).None?
  {
    match FindEntry(SkillLevels, levelName)
    case Some(e) => e.payload
    case None => "gray"
  }

  /** `getSportEmoji`: the emoji of the sport, a runner for an unknown one. */
  function GetSportEmoji(sportName: string): (r: string)
    ensures FindEntry(Sports, sportName).None? ==> r == "\U{1F3C3}\U{200D}\U{2642}\U{FE0F}"
    ensures FindEntry(Sports, sportName).Some? ==> exists i :: 0 <= i < |Sports| && r == Sports[i].payload
  {
    match FindEntry(Sports, sportName)
    case Some(e) => e.payload
    case None => "\U{1F3C3}\U{200D}\U{2642}\U{FE0F}"
  }

  /** The lookups only see the lower-cased key. */
  lemma LookupIgnoresCase(table: seq<Entry>, key: string)
    ensures FindEntry(table, Text.Lower(key)) == FindEntry(table, key)
  {
    Text.LowerIdempotent(key);
    SelectsIgnoresCase(table, key);
  }

  lemma {:induction false} SelectsIgnoresCase(table: seq<Entry>, key: string)
    requires Text.Lower(Text.Lower(key)) == Text.Lower(key)
    ensures FindEntry(table, Text.Lower(key)) == FindEntry(table, key)
  {
    if |table| > 0 {
      SelectsIgnoresCase(table[1..], key);
    }
  }

  /** `find` returns the first selected entry. */
  lemma {:induction false} FindEntryAt(table: seq<Entry>, key: string, i: nat)
    requires i < |table| && Selects(table[i], key)
    requires forall j :: 0 <= j < i ==> !Selects(table[j], key)
    ensures FindEntry(table, key) == Some(table[i])
  {
    if i > 0 {
      FindEntryAt(table[1..], key, i - 1);
    }
  }

  /** Strings whose first characters lower-case differently stay different
      once lower-cased. */
  lemma FirstCharsDiffer(a: string, b: string)
    requires a != "" && b != "" && Text.LowerChar(a[0]) != Text.LowerChar(b[0])
    ensures Text.Lower(a) != Text.Lower(b)
  {
    assert Text.Lower(a)[0] != Text.Lower(b)[0];
  }

  /** Every level is found by its display name and by its identifier,
      whatever their case: the four levels start with different letters. */
  lemma LevelColorOfEachLevel(i: nat, key: string)
    requires i < |SkillLevels|
    requires Text.Lower(key) == Text.Lower(SkillLevels[i].name)
          || Text.Lower(key) == Text.Lower(SkillLevels[i].id)
    ensures GetLevelColor(key) == SkillLevels[i].payload
  {
    assert Text.Lower(SkillLevels[i].name)[0] == Text.Lower(SkillLevels[i].id)[0];
    forall j | 0 <= j < i ensures !Selects(SkillLevels[j], key) {
      FirstCharsDiffer(SkillLevels[j].name, SkillLevels[i].name);
      FirstCharsDiffer(SkillLevels[j].id, SkillLevels[i].name);
      assert Text.Lower(SkillLevels[j].name)[0] == Text.Lower(SkillLevels[j].id)[0];
    }
    FindEntryAt(SkillLevels, key, i);
  }

  /** A level outside the table is gray. */
  lemma UnknownLevelIsGray()
    ensures GetLevelColor("Confirmé") == "gray"
  {
    var key := "Confirmé";
    forall j | 0 <= j < |SkillLevels| ensures !Selects(SkillLevels[j], key) {
      if j == 0 {
        FirstCharsDiffer(SkillLevels[j].name, key);
        FirstCharsDiffer(SkillLevels[j].id, key);
      } else {
        assert |Text.Lower(SkillLevels[j].name)| != |Text.Lower(key)|;
        assert |Text.Lower(SkillLevels[j].id)| != |Text.Lower(key)|;
      }
    }
  }

  /** Badminton, by name or identifier, gets the shuttlecock. */
  lemma BadmintonEmoji(key: string)
    requires Text.Lower(key) == "badminton"
    ensures GetSportEmoji(key) == "\U{1F3F8}"
  {
    assert Text.Lower(Sports[7].id) == "badminton";
    forall j | 0 <= j < 7 ensures !Selects(Sports[j], key) {
      assert |Text.Lower(Sports[j].name)| != 9;
      assert |Text.Lower(Sports[j].id)| != 9;
    }
    FindEntryAt(Sports, key, 7);
  }

  // ---------------------------------------------------------------------
  // Email

  /** A character of `[^\s@]`. */
  predicate AtomChar(c: char) {
    !Text.IsSpace(c) && c != '@'
  }

  /** `s[i..j]` is a nonempty run of `[^\s@]`. */
  predicate AtomRange(s: string, i: int, j: int) {
    0 <= i < j <= |s| && forall k :: i <= k < j ==> AtomChar(s[k])
  }

  /** The regular expression `^[^\s@]+@[^\s@]+\.[^\s@]+$`: an '@' at `p`
      and a '.' at `q` splitting `s` into three nonempty atoms. */
  ghost predicate MatchesEmailPattern(s: string) {
    exists p, q :: 0 < p < q < |s| - 1 && s[p] == '@' && s[q] == '.'
      && AtomRange(s, 0, p) && AtomRange(s, p + 1, q) && AtomRange(s, q + 1, |s|)
  }

  /** `isValidEmail`, computed: no whitespace, exactly one '@' with
      something before it, and after it a '.' that is neither first nor
      last. */
  predicate IsValidEmail(s: string) {
    && (forall i :: 0 <= i < |s| ==> !Text.IsSpace(s[i]))
    && '@' in s
    && var p := Text.IndexOf(s, '@');
      && p > 0
      && '@' !in s[p + 1..]
      && exists q :: p + 1 < q < |s| - 1 && s[q] == '.'
  }

  /** The computed check is exactly the anchored regular expression. */
  lemma IsValidEmailMatchesPattern(s: string)
    ensures IsValidEmail(s) <==> MatchesEmailPattern(s)
  {
    if IsValidEmail(s) {
      EmailCheckSound(s);
    }
    if MatchesEmailPattern(s) {
      var p, q :| 0 < p < q < |s| - 1 && s[p] == '@' && s[q] == '.'
        && AtomRange(s, 0, p) && AtomRange(s, p + 1, q) && AtomRange(s, q + 1, |s|);
      EmailCheckComplete(s, p, q);
    }
  }

  lemma EmailCheckSound(s: string)
    requires IsValidEmail(s)
    ensures MatchesEmailPattern(s)
  {
    var p := Text.IndexOf(s, '@');
    var q :| p + 1 < q < |s| - 1 && s[q] == '.';
    var t := s[p + 1..];
    forall k | 0 <= k < |s| && k != p ensures AtomChar(s[k]) {
      if k > p {
        assert s[k] == t[k - p - 1];
      }
    }
    assert AtomRange(s, 0, p) && AtomRange(s, p + 1, q) && AtomRange(s, q + 1, |s|);
  }

  lemma EmailCheckComplete(s: string, p: int, q: int)
    requires 0 < p < q < |s| - 1 && s[p] == '@' && s[q] == '.'
    requires AtomRange(s, 0, p) && AtomRange(s, p + 1, q) && AtomRange(s, q + 1, |s|)
    ensures IsValidEmail(s)
  {
    forall k | 0 <= k < |s| ensures !Text.IsSpace(s[k]) {
      if k < p {
        assert AtomChar(s[k]);
      } else if k == p {
        assert s[k] == '@';
      } else if k < q {
        assert AtomChar(s[k]);
      } else if k == q {
        assert s[k] == '.';
      } else {
        assert AtomChar(s[k]);
      }
    }
    assert Text.IndexOf(s, '@') == p;
    var t := s[p + 1..];
    forall k | 0 <= k < |t| ensures t[k] != '@' {
      assert t[k] == s[p + 1 + k];
    }
  }

  // ---------------------------------------------------------------------
  // Text helpers

  /** `capitalize`: upper-cased first character, lower-cased rest; the
      empty string gives the empty string. */
  function Capitalize(str: string): (r: string)
    ensures |r| == |str|
    ensures Text.Lower(r) == Text.Lower(str)
    ensures |r| > 0 ==> !Text.IsLowerLetter(r[0])
    ensures forall i :: 1 <= i < |r| ==> !Text.IsUpperLetter(r[i])
  {
    if str == "" then ""
    else [Text.UpperChar(str[0])] + Text.Lower(str[1..])
  }

  /** Capitalising twice is capitalising once. */
  lemma CapitalizeIdempotent(str: string)
    ensures Capitalize(Capitalize(str)) == Capitalize(str)
  {
    if str != "" {
      var r := Capitalize(str);
      assert r[1..] == Text.Lower(str[1..]);
      Text.LowerIdempotent(str[1..]);
    }
  }

  /** The end index `String.prototype.slice(0, end)` stops at: a negative
      `end` counts from the end of the string. */
  function SliceEnd(len: nat, end: int): (r: nat)
    ensures r <= len
    ensures 0 <= end <= len ==> r == end
  {
    if end < 0 then (if len + end < 0 then 0 else len + end)
    else if end > len then len
    else end
  }

  /** `truncateText`: short texts unchanged, longer ones cut at
      `maxLength`, trimmed, and followed by '...'. */
  function TruncateText(text: string, maxLength: int): (r: string)
    ensures text == "" ==> r == ""
    ensures |text| <= maxLength ==> r == text
    ensures text != "" && |text| > maxLength ==>
      && |r| >= 3 && r[|r| - 3..] == "..."
      && Text.Contains(text[..SliceEnd(|text|, maxLength)], r[..|r| - 3])
      && (|r| > 3 ==> !Text.IsSpace(r[0]) && !Text.IsSpace(r[|r| - 4]))
      && Text.IsTrimOf(text[..SliceEnd(|text|, maxLength)], r[..|r| - 3])
    ensures 0 <= maxLength ==> |r| <= maxLength + 3
  {
    if text == "" then ""
    else if |text| <= maxLength then text
    else
      var kept := Text.Trim(text[..SliceEnd(|text|, maxLength)]);
      Text.TrimIsTrimOf(text[..SliceEnd(|text|, maxLength)]);
      assert (kept + "...")[..|kept|] == kept;
      kept + "..."
  }

  /** The characterisation pins the kept piece: it can only be the trimmed
      cut. */
  lemma TruncatedPieceIsTrim(text: string, maxLength: int)
    requires text != "" && |text| > maxLength
    ensures var r := TruncateText(text, maxLength);
      r[..|r| - 3] == Text.Trim(text[..SliceEnd(|text|, maxLength)])
  {
    var r := TruncateText(text, maxLength);
    Text.TrimOfIsTrim(text[..SliceEnd(|text|, maxLength)], r[..|r| - 3]);
  }

  /** The initial of one word: its upper-cased first character. */
  function Initial(word: string): (r: string)
    ensures |r| <= 1
  {
    if word == "" then "" else [Text.UpperChar(word[0])]
  }

  /** `getInitials`: the initials of the first two space-separated words
      (map, then slice(0, 2), then join). */
  function GetInitials(name: string): (r: string)
    ensures |r| <= 2
    ensures forall i :: 0 <= i < |r| ==> !Text.IsLowerLetter(r[i])
    ensures name != "" ==> var words := Text.Split(name, ' ');
      && |r| == (if words[0] != "" then 1 else 0) + (if |words| > 1 && words[1] != "" then 1 else 0)
      && (words[0] != "" ==> r[0] == Text.UpperChar(words[0][0]))
      && (|words| > 1 && words[1] != "" ==> r[|r| - 1] == Text.UpperChar(words[1][0]))
  {
    if name == "" then ""
    else
      var words := Text.Split(name, ' ');
      Initial(words[0]) + (if |words| > 1 then Initial(words[1]) else "")
  }

  /** A single word gives one initial: 'marie' gives 'M'. */
  lemma InitialOfOneWord(word: string)
    requires word != "" && ' ' !in word
    ensures GetInitials(word) == [Text.UpperChar(word[0])]
  {
    assert Text.Split(word, ' ') == [word];
  }

  /** Two words separated by one space give two initials, whatever follows. */
  lemma InitialsOfTwoWords(first: string, second: string, rest: string)
    requires first != "" && second != "" && ' ' !in first && ' ' !in second
    ensures GetInitials(first + " " + second + rest)
         == [Text.UpperChar(first[0]), Text.UpperChar(second[0])]
  {
    var name := first + " " + second + rest;
    assert name == first + [' '] + (second + rest);
    Text.SplitAfterPiece(first, ' ', second + rest);
    var tail := Text.Split(second + rest, ' ');
    assert tail[0] == (second + rest)[..|tail[0]|] by {
      SplitHead(second + rest, ' ');
    }
    SplitHeadExtends(second, rest, ' ');
  }

  /** The first piece of a split is a prefix of the string. */
  lemma SplitHead(s: string, c: char)
    ensures var h := Text.Split(s, c)[0]; |h| <= |s| && h == s[..|h|]
  {
  }

  /** A space-free nonempty prefix keeps its first character as the first
      character of the first piece. */
  lemma SplitHeadExtends(a: string, b: string, c: char)
    requires a != "" && c !in a
    ensures var h := Text.Split(a + b, c)[0]; h != "" && h[0] == a[0]
  {
    var s := a + b;
    assert s[0] == a[0] && s[0] != c;
    if c in s {
      var i := Text.IndexOf(s, c);
      assert i > 0;
    }
  }

  /** Empty words count towards the first two: a name that starts with two
      spaces has no initials at all. */
  lemma LeadingSpacesHideInitials(rest: string)
    ensures GetInitials("  " + rest) == ""
  {
    var name := "  " + rest;
    var tail := " " + rest;
    assert name == "" + [' '] + tail;
    Text.SplitAfterPiece("", ' ', tail);
    assert tail == "" + [' '] + rest;
    Text.SplitAfterPiece("", ' ', rest);
    var words := Text.Split(name, ' ');
    assert words[0] == "" && words[1] == "";
  }

  // ---------------------------------------------------------------------
  // Phone numbers

  predicate IsDigit(c: char) {
    '0' <= c <= '9'
  }

  /** `phone.replace(/\D/g, '')`. */
  function KeepDigits(s: string): (r: string)
    ensures forall i :: 0 <= i < |r| ==> IsDigit(r[i])
  {
    Seqs.Filter(s, IsDigit)
  }

  /** Ten digits as five space-separated pairs. */
  function Pairs(d: string): (r: string)
    requires |d| == 10
    ensures |r| == 14
  {
    d[0..2] + " " + d[2..4] + " " + d[4..6] + " " + d[6..8] + " " + d[8..10]
  }

  /** `formatPhoneNumber`: ten digits (wherever they stand) are regrouped
      in pairs; any other input is returned as it is. */
  function FormatPhoneNumber(phone: string): (r: string)
    ensures phone == "" ==> r == ""
    ensures |KeepDigits(phone)| == 10 ==>
      && |r| == 14
      && KeepDigits(r) == KeepDigits(phone)
      && forall k :: 0 <= k < 4 ==> r[3 * k + 2] == ' '
    ensures |KeepDigits(phone)| != 10 ==> r == phone
  {
    var cleaned := KeepDigits(phone);
    if phone == "" then ""
    else if |cleaned| == 10 then
      PairsKeepDigits(cleaned);
      Pairs(cleaned)
    else phone
  }

  /** Dropping the separators of the pairs gives the digits back. */
  lemma PairsKeepDigits(d: string)
    requires |d| == 10 && forall i :: 0 <= i < 10 ==> IsDigit(d[i])
    ensures KeepDigits(Pairs(d)) == d
  {
    var a, b, c, e, f := d[0..2], d[2..4], d[4..6], d[6..8], d[8..10];
    FiveGroups(a, b, c, e, f);
    DigitsKept(a);
    DigitsKept(b);
    DigitsKept(c);
    DigitsKept(e);
    DigitsKept(f);
    TenIsFivePairs(d);
  }

  lemma TenIsFivePairs(d: string)
    requires |d| == 10
    ensures d == d[0..2] + d[2..4] + d[4..6] + d[6..8] + d[8..10]
  {
  }

  lemma DigitsKept(x: string)
    requires forall i :: 0 <= i < |x| ==> IsDigit(x[i])
    ensures KeepDigits(x) == x
  {
    Seqs.FilterKeepsAll(x, IsDigit);
  }

  lemma FiveGroups(a: string, b: string, c: string, e: string, f: string)
    ensures KeepDigits(a + " " + b + " " + c + " " + e + " " + f)
         == KeepDigits(a) + KeepDigits(b) + KeepDigits(c) + KeepDigits(e) + KeepDigits(f)
  {
    SpaceDropped(a, b);
    SpaceDropped(a + " " + b, c);
    SpaceDropped(a + " " + b + " " + c, e);
    SpaceDropped(a + " " + b + " " + c + " " + e, f);
  }

  lemma SpaceDropped(x: string, y: string)
    ensures KeepDigits(x + " " + y) == KeepDigits(x) + KeepDigits(y)
  {
    Seqs.FilterAppend(x, " ", IsDigit);
    Seqs.FilterAppend(x + " ", y, IsDigit);
    assert KeepDigits(" ") == [];
  }

  /** Formatting a formatted number changes nothing. */
  lemma FormatPhoneIdempotent(phone: string)
    ensures FormatPhoneNumber(FormatPhoneNumber(phone)) == FormatPhoneNumber(phone)
  {
  }

  // ---------------------------------------------------------------------
  // Ages

  /** A calendar date as `getFullYear`, `getMonth`, `getDate` report it. */
  datatype CivilDate = CivilDate(year: int, month: int, day: int)

  /** `a` is on or before `b` in calendar order. */
  predicate OnOrBefore(a: CivilDate, b: CivilDate) {
    || a.year < b.year
    || (a.year == b.year && a.month < b.month)
    || (a.year == b.year && a.month == b.month && a.day <= b.day)
  }

  /** The `years`-th anniversary of `birth`. */
  function Anniversary(birth: CivilDate, years: int): CivilDate {
    CivilDate(birth.year + years, birth.month, birth.day)
  }

  /** `calculateAge`: the number of completed years, i.e. the last
      anniversary reached by `today` (negative for a future birth date). */
  function CalculateAge(today: CivilDate, birth: CivilDate): (age: int)
    ensures OnOrBefore(Anniversary(birth, age), today)
    ensures !OnOrBefore(Anniversary(birth, age + 1), today)
  {
    var age := today.year - birth.year;
    var monthDiff := today.month - birth.month;
    if monthDiff < 0 || (monthDiff == 0 && today.day < birth.day) then age - 1 else age
  }

  // ---------------------------------------------------------------------
  // Objects

  /** `getNestedValue`: `path.split('.').reduce((cur, key) => cur?.[key], obj)`. */
  function GetNestedValue(obj: Json.Value, path: string): Json.Value {
    Walk(obj, Text.Split(path, '.'))
  }

  function Walk(v: Json.Value, keys: seq<string>): Json.Value
    decreases |keys|
  {
    if |keys| == 0 then v else Walk(Json.Get(v, keys[0]), keys[1..])
  }

  /** Once undefined, a path walk stays undefined. */
  lemma {:induction false} WalkFromUndefined(keys: seq<string>)
    ensures Walk(Json.Undefined, keys) == Json.Undefined
  {
    if |keys| > 0 {
      WalkFromUndefined(keys[1..]);
    }
  }

  /** Walking a concatenated path walks the two parts in turn. */
  lemma {:induction false} WalkAppend(v: Json.Value, a: seq<string>, b: seq<string>)
    ensures Walk(v, a + b) == Walk(Walk(v, a), b)
    decreases |a|
  {
    if |a| == 0 {
      assert a + b == b;
    } else {
      assert (a + b)[0] == a[0];
      assert (a + b)[1..] == a[1..] + b;
      WalkAppend(Json.Get(v, a[0]), a[1..], b);
    }
  }

  /** A missing segment anywhere on the path makes the whole value
      undefined. */
  lemma MissingSegment(v: Json.Value, keys: seq<string>, i: nat)
    requires i < |keys|
    requires Json.Get(Walk(v, keys[..i]), keys[i]) == Json.Undefined
    ensures Walk(v, keys) == Json.Undefined
  {
    assert keys == keys[..i] + keys[i..];
    WalkAppend(v, keys[..i], keys[i..]);
    WalkFromUndefined(keys[i + 1..]);
  }

  /** `isEmpty`: nullish values, empty arrays, records without keys and
      blank strings; numbers and booleans are never empty. */
  predicate IsEmpty(v: Json.Value)
    ensures v.Str? ==> (IsEmpty(v) <==> Text.AllSpace(v.s))
  {
    match v
    case Undefined => true
    case Null => true
    case Arr(xs) => |xs| == 0
    case Obj(m) => |m| == 0
    case Str(s) => |Text.Trim(s)| == 0
    case _ => false
  }

  // ---------------------------------------------------------------------
  // Fuzzy search

  /** One searched field matches: its value is truthy and, printed,
      lower-cased and folded, contains the folded query. */
  predicate FieldMatches(item: Json.Value, field: string, foldedQuery: string,
                         removeAccents: string -> string)
  {
    var value := GetNestedValue(item, field);
    Json.Truthy(value) && Text.Contains(removeAccents(Text.Lower(Json.ToString(value))), foldedQuery)
  }

  /** `searchFields.some(...)`. */
  predicate ItemMatches(item: Json.Value, foldedQuery: string, fields: seq<string>,
                        removeAccents: string -> string)
  {
    exists k :: 0 <= k < |fields| && FieldMatches(item, fields[k], foldedQuery, removeAccents)
  }

  /** `fuzzySearch(items, query, fields)`; accent removal (`normalize('NFD')`
      and the combining-mark strip) is the parameter `removeAccents`. */
  function FuzzySearch(items: seq<Json.Value>, query: string, fields: seq<string>,
                       removeAccents: string -> string): (r: seq<Json.Value>)
    ensures query == "" ==> r == items
    ensures query != "" ==>
      var q := removeAccents(Text.Lower(query));
      && (forall k :: 0 <= k < |r| ==> r[k] in items && ItemMatches(r[k], q, fields, removeAccents))
      && (forall k :: 0 <= k < |items| && ItemMatches(items[k], q, fields, removeAccents) ==> items[k] in r)
      && (forall x :: multiset(r)[x] == if ItemMatches(x, q, fields, removeAccents) then multiset(items)[x] else 0)
  {
    if query == "" then items
    else
      var q := removeAccents(Text.Lower(query));
      Seqs.FilterCount(items, item => ItemMatches(item, q, fields, removeAccents));
      Seqs.Filter(items, item => ItemMatches(item, q, fields, removeAccents))
  }

  /** The search keeps the order of the items. */
  lemma FuzzySearchIsSubsequence(items: seq<Json.Value>, query: string, fields: seq<string>,
                                 removeAccents: string -> string)
    ensures Seqs.IsSubsequence(FuzzySearch(items, query, fields, removeAccents), items)
  {
    if query == "" {
      Seqs.FilterKeepsAll(items, _ => true);
      Seqs.FilterIsSubsequence(items, _ => true);
    } else {
      var q := removeAccents(Text.Lower(query));
      Seqs.FilterIsSubsequence(items, item => ItemMatches(item, q, fields, removeAccents));
    }
  }

  /** An item whose searched fields are all falsy (missing, null, '', 0,
      false) is never found. */
  lemma FalsyFieldsNeverMatch(item: Json.Value, query: string, fields: seq<string>,
                              removeAccents: string -> string)
    requires query != ""
    requires forall k :: 0 <= k < |fields| ==> !Json.Truthy(GetNestedValue(item, fields[k]))
    ensures item !in FuzzySearch([item], query, fields, removeAccents)
  {
  }
}

=== FILE: input.dfy ===
/** The shared text input of `src/components/ui/Input.jsx`: its class
    list, its label with the required marker, and its error message. */
module Input {
  import opened Wrappers
  import Text
  import Json
  import ClassNames

  /** The props the component reads; `None` is a class name left out. */
  datatype Props = Props(labelText: Json.Value, error: Json.Value, required: bool, disabled: bool,
                         className: Option<string>)

  /** The `<label>`: its text and whether the '*' marker follows it. */
  datatype Label = Label(text: Json.Value, requiredMarker: bool)

  datatype Rendered = Rendered(className: string, labelTag: Option<Label>, errorMessage: Option<Json.Value>,
                               disabled: bool, required: bool)

  function Extra(p: Props): string { p.className.GetOr("") }

  /** The four candidate classes, before `filter(Boolean)`. */
  function Parts(p: Props): seq<string> {
    ["input", if Json.Truthy(p.error) then "input-error" else "",
     if p.disabled then "input-disabled" else "", Extra(p)]
  }

  /** The rendered group: a label only for a truthy label, the '*' marker
      only inside it and only when required, and the message span only for
      a truthy error. */
  function Render(p: Props): (r: Rendered)
    ensures r.labelTag.Some? <==> Json.Truthy(p.labelText)
    ensures r.labelTag.Some? ==> r.labelTag.value == Label(p.labelText, p.required)
    ensures r.errorMessage.Some? <==> Json.Truthy(p.error)
    ensures r.errorMessage.Some? ==> r.errorMessage.value == p.error
    ensures r.disabled == p.disabled && r.required == p.required
  {
    Rendered(ClassNames.ClassName(Parts(p)),
             if Json.Truthy(p.labelText) then Some(Label(p.labelText, p.required)) else None,
             if Json.Truthy(p.error) then Some(p.error) else None,
             p.disabled, p.required)
  }

  /** The '*' marker shows only on a rendered label of a required input. */
  predicate ShowsMarker(r: Rendered) {
    r.labelTag.Some? && r.labelTag.value.requiredMarker
  }

  lemma MarkerNeedsLabel(p: Props)
    ensures ShowsMarker(Render(p)) <==> Json.Truthy(p.labelText) && p.required
  {
  }

  /** The class list read back from the attribute is the list of
      non-empty parts, starting with 'input'. */
  lemma ClassTokens(p: Props)
    requires ' ' !in Extra(p)
    ensures var t := Text.Split(Render(p).className, ' ');
      && t == ClassNames.Tokens(Parts(p))
      && |t| >= 1 && t[0] == "input"
      && (forall k :: 0 <= k < |t| ==> t[k] != "")
  {
    var parts := Parts(p);
    assert ' ' !in parts[0] && ' ' !in parts[1] && ' ' !in parts[2] && ' ' !in parts[3];
    ClassNames.FirstToken(parts);
    ClassNames.SplitClassName(parts);
  }

  /** 'input-error' is a class exactly when the error is truthy, and
      'input-disabled' exactly when the input is disabled, unless the
      caller's own class is that very name. */
  lemma StateClasses(p: Props)
    ensures var t := ClassNames.Tokens(Parts(p));
      && ("input-error" in t <==> Json.Truthy(p.error) || Extra(p) == "input-error")
      && ("input-disabled" in t <==> p.disabled || Extra(p) == "input-disabled")
  {
    ClassNames.TokenIffPart(Parts(p), "input-error");
    ClassNames.TokenIffPart(Parts(p), "input-disabled");
  }

  /** The red border and the message go together: with a caller class
      other than 'input-error', the class list flags an error exactly when
      the message is shown. */
  lemma ErrorStyleMatchesMessage(p: Props)
    requires ' ' !in Extra(p) && Extra(p) != "input-error"
    ensures "input-error" in Text.Split(Render(p).className, ' ') <==> Render(p).errorMessage.Some?
  {
    ClassTokens(p);
    StateClasses(p);
  }
}

=== FILE: json.dfy ===
/** JavaScript values as the application handles them: truthiness,
    string conversion and property access. Numbers are integers. */
module Json {
  import opened Wrappers
  import Numbers
  import Text

  datatype Value =
    | Undefined
    | Null
    | Bool(b: bool)
    | Num(n: int)
    | Str(s: string)
    | Arr(items: seq<Value>)
    | Obj(fields: map<string, Value>)

  /** The value behaves as true in a condition (`if (v)`, `v || d`). */
  predicate Truthy(v: Value) {
    match v
    case Undefined => false
    case Null => false
    case Bool(b) => b
    case Num(n) => n != 0
    case Str(s) => s != ""
    case Arr(_) => true
    case Obj(_) => true
  }

  /** `x || d`: `x` unless it is falsy. */
  function Or(x: Value, d: Value): (r: Value)
    ensures Truthy(x) ==> r == x
    ensures !Truthy(x) ==> r == d
  {
    if Truthy(x) then x else d
  }

  /** `v == null`: undefined or null. */
  predicate IsNullish(v: Value) {
    v.Undefined? || v.Null?
  }

  /** `String(v)`: arrays print their elements joined by ',', with null and
      undefined elements printed as "". */
  function ToString(v: Value): (r: string)
    ensures v.Str? ==> r == v.s
    decreases v
  {
    match v
    case Undefined => "undefined"
    case Null => "null"
    case Bool(b) => if b then "true" else "false"
    case Num(n) => Numbers.IntToString(n)
    case Str(s) => s
    case Arr(xs) =>
      Text.Join(seq(|xs|, i requires 0 <= i < |xs| =>
        if IsNullish(xs[i]) then "" else ToString(xs[i])), ",")
    case Obj(_) => "[object Object]"
  }

  /** Own property `key` of a record, `undefined` when absent. */
  function Field(m: map<string, Value>, key: string): (r: Value)
    ensures key !in m ==> r == Undefined
    ensures key in m ==> r == m[key]
  {
    if key in m then m[key] else Undefined
  }

  /** The array index a property key denotes: a canonical decimal numeral. */
  function IndexKey(key: string): (r: Option<nat>)
    ensures r.Some? ==> Numbers.NatToString(r.value) == key
  {
    if |key| > 0 && Numbers.AllDigitsIn(key, 10) && (key == "0" || key[0] != '0')
       && Numbers.NatToString(Numbers.ValueOf(key, 10)) == key
    then Some(Numbers.ValueOf(key, 10))
    else None
  }

  /** Optional-chaining property access `v?.[key]`: nullish bases give
      undefined; records, arrays and strings expose their own entries,
      indices and `length`; other properties are undefined. */
  function Get(v: Value, key: string): (r: Value)
    ensures IsNullish(v) ==> r == Undefined
    ensures v.Obj? ==> r == Field(v.fields, key)
  {
    match v
    case Obj(m) => Field(m, key)
    case Arr(xs) =>
      if key == "length" then Num(|xs|)
      else
        var i := IndexKey(key);
        if i.Some? && i.value < |xs| then xs[i.value] else Undefined
    case Str(s) =>
      if key == "length" then Num(|s|)
      else
        var i := IndexKey(key);
        if i.Some? && i.value < |s| then Str([s[i.value]]) else Undefined
    case _ => Undefined
  }

  /** `a === b` on primitives. Arrays and records compare by reference in
      JavaScript; two separately built ones are never identical, and that
      is the only case modelled. */
  predicate StrictEquals(a: Value, b: Value) {
    match (a, b)
    case (Undefined, Undefined) => true
    case (Null, Null) => true
    case (Bool(x), Bool(y)) => x == y
    case (Num(x), Num(y)) => x == y
    case (Str(x), Str(y)) => x == y
    case _ => false
  }

  /** Strict equality never converts: a number and its decimal text differ. */
  lemma StrictEqualsNoCoercion(n: int)
    ensures !StrictEquals(Num(n), Str(Numbers.IntToString(n)))
    ensures StrictEquals(Num(n), Num(n))
  {
  }

  /** `Number(v)` as relational comparisons apply it; `None` is NaN.
      Arrays and records go through their string form. */
  function ToNumeric(v: Value): (r: Option<int>)
    ensures v.Num? ==> r == Some(v.n)
    ensures v.Undefined? ==> r.None?
    ensures v.Null? ==> r == Some(0)
  {
    match v
    case Undefined => None
    case Null => Some(0)
    case Bool(b) => Some(if b then 1 else 0)
    case Num(n) => Some(n)
    case Str(s) => Numbers.ToNumber(s)
    case Arr(_) => Numbers.ToNumber(ToString(v))
    case Obj(_) => Numbers.ToNumber(ToString(v))
  }

  /** `n >= v` for a number `n`: false whenever `v` is NaN. */
  predicate AtLeast(n: int, v: Value) {
    var m := ToNumeric(v);
    m.Some? && n >= m.value
  }
}

=== FILE: login_form.dfy ===
/** The sign-in form of the authentication modal,
    `src/components/auth/LoginForm.jsx`. */
module LoginForm {
  import opened Wrappers
  import Json
  import Forms
  import LoginPage

  const Fields: set<string> := {"email", "password"}

  /** `validateForm`: the same two checks as the sign-in page. */
  function Validate(v: Forms.Values): (r: Forms.Errors)
    requires Forms.TextFields(v, Fields)
    ensures r.Keys <= Fields
    ensures "email" in r <==> !Forms.LooseEmail(v["email"].s)
    ensures "password" in r <==> |v["password"].s| < 6
    ensures |r| == 0 <==> Forms.LooseEmail(v["email"].s) && |v["password"].s| >= 6
  {
    var r := Forms.Report(map[], "email", Forms.EmailError(v["email"].s));
    Forms.Report(r, "password", Forms.PasswordError(v["password"].s))
  }

  /** The modal and the page report the same errors for the same input. */
  lemma AgreesWithLoginPage(v: Forms.Values)
    requires Forms.TextFields(v, Fields)
    ensures Validate(v) == LoginPage.Validate(v)
  {
  }

  /** `handleSubmit`: `login(email, password)` only for a valid form. */
  function Submit(v: Forms.Values): (r: Forms.Submission<(string, string)>)
    requires Forms.TextFields(v, Fields)
    ensures r.Sent? <==> Forms.LooseEmail(v["email"].s) && |v["password"].s| >= 6
    ensures r.Sent? ==> r.payload == (v["email"].s, v["password"].s)
  {
    Forms.Gate(Validate(v), (v["email"].s, v["password"].s))
  }

  /** `handleChange`: only the named field changes and only its error is
      cleared. */
  function HandleChange(st: Forms.FormState, name: string, value: string): (r: Forms.FormState)
    requires Forms.TextFields(st.values, Fields)
    ensures Forms.TextFields(r.values, Fields)
    ensures name in r.values && r.values[name] == Json.Str(value)
    ensures forall k :: k in st.values && k != name ==> k in r.values && r.values[k] == st.values[k]
    ensures forall k :: k in st.errors && k != name ==> k in r.errors && r.errors[k] == st.errors[k]
    ensures name in r.errors ==> r.errors[name] == ""
  {
    Forms.Change(st, name, Json.Str(value))
  }
}

=== FILE: login_page.dfy ===
/** The sign-in page of `src/pages/Login.jsx`: email and password checks,
    the change handler and the submit gate. */
module LoginPage {
  import opened Wrappers
  import Json
  import Forms

  const Fields: set<string> := {"email", "password"}

  /** The initial `formData`. */
  const Initial: Forms.Values := map["email" := Json.Str(""), "password" := Json.Str("")]

  function Email(v: Forms.Values): string
    requires Forms.TextFields(v, Fields)
  {
    v["email"].s
  }

  function Password(v: Forms.Values): string
    requires Forms.TextFields(v, Fields)
  {
    v["password"].s
  }

  /** `validateForm`: both fields are checked and both errors can be
      reported together; the form is valid exactly when the email passes the
      test and the password has six characters or more. */
  function Validate(v: Forms.Values): (r: Forms.Errors)
    requires Forms.TextFields(v, Fields)
    ensures r.Keys <= Fields
    ensures "email" in r <==> !Forms.LooseEmail(Email(v))
    ensures "email" in r ==> r["email"] == Forms.EmailError(Email(v)).value
    ensures "password" in r <==> |Password(v)| < 6
    ensures "password" in r ==> r["password"] == Forms.PasswordError(Password(v)).value
    ensures |r| == 0 <==> Forms.LooseEmail(Email(v)) && |Password(v)| >= 6
  {
    var r := Forms.Report(map[], "email", Forms.EmailError(Email(v)));
    Forms.Report(r, "password", Forms.PasswordError(Password(v)))
  }

  /** `handleSubmit`: `login(email, password)` only for a valid form. */
  function Submit(v: Forms.Values): (r: Forms.Submission<(string, string)>)
    requires Forms.TextFields(v, Fields)
    ensures r.Sent? <==> Forms.LooseEmail(Email(v)) && |Password(v)| >= 6
    ensures r.Sent? ==> r.payload == (Email(v), Password(v))
    ensures r.Blocked? ==> r.errors == Validate(v)
  {
    Forms.Gate(Validate(v), (Email(v), Password(v)))
  }

  /** The empty form is refused with both "required" messages at once. */
  lemma InitialReportsBoth()
    ensures Submit(Initial) == Forms.Blocked(map["email" := Forms.EmailRequired, "password" := Forms.PasswordRequired])
  {
    assert "email"[0] != "password"[0];
    assert Forms.TextFields(Initial, Fields);
    assert Email(Initial) == "" && Password(Initial) == "";
    var r := Validate(Initial);
    assert r == map["email" := Forms.EmailRequired, "password" := Forms.PasswordRequired];
  }

  /** `handleChange` on a text input: the record stays a record of strings,
      and editing one field never changes the other field's verdict. */
  function HandleChange(st: Forms.FormState, name: string, value: string): (r: Forms.FormState)
    requires Forms.TextFields(st.values, Fields)
    ensures Forms.TextFields(r.values, Fields)
    ensures name == "email" ==> ("password" in Validate(r.values) <==> "password" in Validate(st.values))
    ensures name == "password" ==> ("email" in Validate(r.values) <==> "email" in Validate(st.values))
    ensures name in Fields ==> r.values[name] == Json.Str(value)
  {
    Forms.Change(st, name, Json.Str(value))
  }
}

=== FILE: numbers.dfy ===
/** Integer text conversions of JavaScript: number-to-string, the global
    `parseInt` and the `Number()` coercion of strings (restricted to integer
    literals). */
module Numbers {
  import opened Wrappers
  import Text

  /** `c` is a digit of the given radix (10 or 16). */
  predicate IsDigitIn(c: char, radix: nat) {
    || ('0' <= c <= '9')
    || (radix == 16 && (('a' <= c <= 'f') || ('A' <= c <= 'F')))
  }

  function DigitValue(c: char, radix: nat): (v: nat)
    requires IsDigitIn(c, radix)
    ensures v < 16
  {
    if '0' <= c <= '9' then c as int - '0' as int
    else if 'a' <= c <= 'f' then c as int - 'a' as int + 10
    else c as int - 'A' as int + 10
  }

  predicate AllDigitsIn(s: string, radix: nat) {
    forall i :: 0 <= i < |s| ==> IsDigitIn(s[i], radix)
  }

  /** The number written by the digit string `s` in `radix`. */
  function ValueOf(s: string, radix: nat): nat
    requires AllDigitsIn(s, radix)
  {
    if |s| == 0 then 0
    else ValueOf(s[..|s| - 1], radix) * radix + DigitValue(s[|s| - 1], radix)
  }

  function DigitChar(d: nat): (c: char)
    requires d < 10
    ensures IsDigitIn(c, 10) && DigitValue(c, 10) == d
  {
    ('0' as int + d) as char
  }

  /** Decimal rendering of a natural number, as `String(n)` prints it. */
  function NatToString(n: nat): (r: string)
    ensures |r| >= 1 && AllDigitsIn(r, 10)
    ensures r[0] != '0' || n == 0
  {
    if n < 10 then [DigitChar(n)] else NatToString(n / 10) + [DigitChar(n % 10)]
  }

  /** Decimal rendering of an integer, with a leading '-' when negative. */
  function IntToString(i: int): (r: string)
    ensures |r| >= 1
  {
    if i < 0 then "-" + NatToString(-i) else NatToString(i)
  }

  /** Reading back a rendered natural number gives the number. */
  lemma {:induction false} NatToStringRoundTrip(n: nat)
    ensures ValueOf(NatToString(n), 10) == n
  {
    if n >= 10 {
      NatToStringRoundTrip(n / 10);
      var s := NatToString(n);
      assert s[..|s| - 1] == NatToString(n / 10);
    }
  }

  /** Length of the longest prefix of `s` made of `radix` digits. */
  function DigitRun(s: string, radix: nat): (n: nat)
    ensures n <= |s| && AllDigitsIn(s[..n], radix)
    ensures n < |s| ==> !IsDigitIn(s[n], radix)
  {
    if |s| > 0 && IsDigitIn(s[0], radix) then
      var n := 1 + DigitRun(s[1..], radix);
      assert s[..n] == [s[0]] + s[1..][..n - 1];
      n
    else 0
  }

  /** `s` starts with the hexadecimal prefix "0x" or "0X". */
  predicate HasHexPrefix(s: string) {
    |s| >= 2 && s[0] == '0' && (s[1] == 'x' || s[1] == 'X')
  }

  /** The global `parseInt(s)` with no radix: leading whitespace skipped,
      an optional sign, "0x" selecting radix 16, then the longest run of
      digits; `None` stands for NaN (no digit at all). */
  function ParseInt(s: string): (r: Option<int>)
    ensures r.None? <==>
      var u := Unsigned(Text.TrimStart(s));
      DigitRun(RadixBody(u), RadixOf(u)) == 0
  {
    var t := Text.TrimStart(s);
    var u := Unsigned(t);
    var body := RadixBody(u);
    var n := DigitRun(body, RadixOf(u));
    if n == 0 then None else Some(SignOf(t) * ValueOf(body[..n], RadixOf(u)))
  }

  /** -1 when the text starts with '-', 1 otherwise. */
  function SignOf(t: string): int {
    if |t| > 0 && t[0] == '-' then -1 else 1
  }

  /** The text with one leading sign removed. */
  function Unsigned(t: string): string {
    if |t| > 0 && (t[0] == '-' || t[0] == '+') then t[1..] else t
  }

  function RadixOf(u: string): nat {
    if HasHexPrefix(u) then 16 else 10
  }

  function RadixBody(u: string): string {
    if HasHexPrefix(u) then u[2..] else u
  }

  /** `parseInt(String(n))` is `n`: a rendered id reads back as itself. */
  lemma ParseIntOfNatString(n: nat)
    ensures ParseInt(NatToString(n)) == Some(n)
  {
    ParseIntPrefix(n, []);
    assert NatToString(n) + [] == NatToString(n);
  }

  /** `parseInt` reads a rendered number back from the front of a text when
      what follows cannot extend it. */
  lemma ParseIntPrefix(n: nat, rest: string)
    requires rest == [] || (!IsDigitIn(rest[0], 10) && rest[0] != 'x' && rest[0] != 'X')
    ensures ParseInt(NatToString(n) + rest) == Some(n)
  {
    var d := NatToString(n);
    var s := d + rest;
    assert s[..|d|] == d;
    assert |d| < |s| ==> s[|d|] == rest[0];
    ParseUnsignedDecimal(s, |d|);
    NatToStringRoundTrip(n);
  }

  /** `parseInt` of a text starting with `k` decimal digits that nothing
      extends. */
  lemma ParseUnsignedDecimal(s: string, k: nat)
    requires 1 <= k <= |s| && AllDigitsIn(s[..k], 10)
    requires k < |s| ==> !IsDigitIn(s[k], 10) && s[k] != 'x' && s[k] != 'X'
    ensures ParseInt(s) == Some(ValueOf(s[..k], 10))
  {
    assert s[0] == s[..k][0];
    assert Text.TrimStart(s) == s;
    assert Unsigned(s) == s;
    assert !HasHexPrefix(s) by {
      if |s| >= 2 && k >= 2 {
        assert s[1] == s[..k][1];
      }
    }
    RunThenNonDigit(s, k, 10);
  }

  /** A run of `n` digits followed by a non-digit (or nothing) is exactly
      the digit run. */
  lemma RunThenNonDigit(v: string, n: nat, radix: nat)
    requires n <= |v|
    requires AllDigitsIn(v[..n], radix)
    requires n < |v| ==> !IsDigitIn(v[n], radix)
    ensures DigitRun(v, radix) == n
  {
    assert forall i :: 0 <= i < n ==> v[i] == v[..n][i];
    var m := DigitRun(v, radix);
    assert forall i :: 0 <= i < m ==> v[i] == v[..m][i];
  }

  function Pow10(w: nat): (r: nat)
    ensures r >= 1
  {
    if w == 0 then 1 else 10 * Pow10(w - 1)
  }

  /** `Number(s)` for a string, restricted to integer values: the trimmed
      text is empty (0), a "0x" hexadecimal literal, an optionally signed
      decimal literal, or one followed by a non-negative exponent ('2e1',
      '3E+2'); anything else is NaN (`None`). */
  function ToNumber(s: string): (r: Option<int>)
    ensures Text.AllSpace(s) ==> r == Some(0)
  {
    var t := Text.Trim(s);
    if t == "" then Some(0)
    else if HasHexPrefix(t) then
      if |t| > 2 && AllDigitsIn(t[2..], 16) then Some(ValueOf(t[2..], 16)) else None
    else
      var u := Unsigned(t);
      if |u| > 0 && AllDigitsIn(u, 10) then Some(SignOf(t) * ValueOf(u, 10))
      else match ExponentLiteral(u)
        case Some(v) => Some(SignOf(t) * v)
        case None => None
  }

  /** The length of the mantissa of `u`: its leading decimal digits. */
  function MantissaLength(u: string): nat {
    DigitRun(u, 10)
  }

  /** The exponent digits after the mantissa and its 'e' or 'E', with an
      optional '+' dropped. */
  function ExponentDigits(u: string): string
    requires MantissaLength(u) < |u|
  {
    var k := MantissaLength(u);
    if k + 1 < |u| && u[k + 1] == '+' then u[k + 2..] else u[k + 1..]
  }

  /** Unsigned decimal text with a non-negative exponent: digits, 'e' or
      'E', an optional '+', digits. Its value is the mantissa times ten to
      the exponent. */
  function ExponentLiteral(u: string): (r: Option<nat>)
    ensures r.Some? ==> 0 < MantissaLength(u) < |u| && (u[MantissaLength(u)] == 'e' || u[MantissaLength(u)] == 'E')
  {
    var k := MantissaLength(u);
    if 0 < k < |u| && (u[k] == 'e' || u[k] == 'E') then
      var x := ExponentDigits(u);
      if |x| > 0 && AllDigitsIn(x, 10) then Some(ValueOf(u[..k], 10) * Pow10(ValueOf(x, 10))) else None
    else None
  }

  /** The trimmed text is a plain integer literal, with no exponent. */
  predicate IsIntegerLiteral(s: string) {
    var t := Text.Trim(s);
    HasHexPrefix(t) || AllDigitsIn(Unsigned(t), 10)
  }

  /** Text that starts with a lower-case Latin letter and does not end in
      whitespace is not a number. */
  lemma LetterIsNaN(s: string)
    requires s != [] && 'a' <= s[0] <= 'z' && !Text.IsSpace(s[|s| - 1])
    ensures ToNumber(s).None?
  {
    Text.TrimOfUnspaced(s);
    assert !IsDigitIn(s[0], 10);
  }

  /** On a non-blank string that `Number()` reads, `parseInt` reads a
      number too. On a plain integer literal it is the same number; on an
      exponent literal it is the signed mantissa alone, since `parseInt`
      stops at the 'e'. */
  lemma ParseIntAgreesWithToNumber(s: string, n: int)
    requires !Text.AllSpace(s)
    requires ToNumber(s) == Some(n)
    ensures ParseInt(s).Some?
    ensures IsIntegerLiteral(s) ==> ParseInt(s) == Some(n)
    ensures !IsIntegerLiteral(s) ==>
      var t := Text.Trim(s);
      var u := Unsigned(t);
      ParseInt(s) == Some(SignOf(t) * ValueOf(u[..MantissaLength(u)], 10))
  {
    var t := Text.Trim(s);
    if HasHexPrefix(t) {
      HexLiteralAgrees(s, n);
    } else if AllDigitsIn(Unsigned(t), 10) {
      DecimalLiteralAgrees(s);
    } else {
      ExponentLiteralParsesMantissa(s);
    }
  }

  /** '2e1' is twenty to `Number()` and two to `parseInt`. */
  lemma ExponentExample()
    ensures ToNumber("2e1") == Some(20)
    ensures ParseInt("2e1") == Some(2)
  {
    var s := "2e1";
    Text.TrimOfUnspaced(s);
    assert Unsigned(s) == s && !HasHexPrefix(s);
    ExponentValueExample();
    assert s[..1] == "2" && ValueOf("2", 10) == 2;
    ParseUnsignedDecimal(s, 1);
  }

  /** The exponent literal '2e1' has the mantissa '2' and the value 20. */
  lemma ExponentValueExample()
    ensures MantissaLength("2e1") == 1
    ensures ExponentLiteral("2e1") == Some(20)
  {
    var s := "2e1";
    assert s[..1] == "2" && AllDigitsIn(s[..1], 10);
    RunThenNonDigit(s, 1, 10);
    assert ExponentDigits(s) == "1";
    assert ValueOf("1", 10) == 1 && ValueOf("2", 10) == 2;
  }

  /** `parseInt` of an exponent literal reads its signed mantissa. */
  lemma ExponentLiteralParsesMantissa(s: string)
    requires var t := Text.Trim(s); t != "" && !HasHexPrefix(t) && ExponentLiteral(Unsigned(t)).Some?
    ensures var t := Text.Trim(s);
      var u := Unsigned(t);
      ParseInt(s) == Some(SignOf(t) * ValueOf(u[..MantissaLength(u)], 10))
  {
    var t := Text.Trim(s);
    var ts := Text.TrimStart(s);
    assert t == Text.TrimEnd(ts);
    SignedMantissaPrefix(ts, t);
  }

  /** `ts` starts with the signed exponent literal `t`: after the sign both
      read as decimal, and the digit run `parseInt` takes is the mantissa. */
  lemma SignedMantissaPrefix(ts: string, t: string)
    requires |t| <= |ts| && ts[..|t|] == t && t != []
    requires ExponentLiteral(Unsigned(t)).Some?
    ensures var u := Unsigned(ts);
      var ut := Unsigned(t);
      var k := MantissaLength(ut);
      && RadixOf(u) == 10 && RadixBody(u) == u
      && DigitRun(u, 10) == k && u[..k] == ut[..k]
      && SignOf(ts) == SignOf(t)
  {
    assert ts[0] == t[0];
    var ut := Unsigned(t);
    var u := Unsigned(ts);
    var j := |t| - |ut|;
    assert u == ts[j..] && ut == t[j..];
    assert u[..|ut|] == ut;
    var k := MantissaLength(ut);
    assert u[..k] == ut[..k];
    assert u[k] == ut[k];
    assert !HasHexPrefix(u) by {
      if |u| >= 2 {
        assert u[1] == ut[1];
        assert k >= 2 ==> IsDigitIn(ut[..k][1], 10);
      }
    }
    RunThenNonDigit(u, k, 10);
  }

  lemma HexLiteralAgrees(s: string, n: int)
    requires !Text.AllSpace(s)
    requires ToNumber(s) == Some(n)
    requires HasHexPrefix(Text.Trim(s))
    ensures ParseInt(s) == Some(n)
  {
    var t := Text.Trim(s);
    var ts := Text.TrimStart(s);
    assert t == Text.TrimEnd(ts);
    assert ts[..|t|] == t;
    assert ts[0] == t[0] && ts[1] == t[1];
    assert Unsigned(ts) == ts;
    var v := ts[2..];
    var k := |t| - 2;
    assert v[..k] == t[2..];
    assert forall i :: k <= i < |v| ==> v[i] == ts[i + 2];
    RunOfDigitsThenSpace(v, k, 16);
    assert n == ValueOf(t[2..], 16);
  }

  /** `parseInt` of a signed decimal literal reads the literal's value. */
  lemma DecimalLiteralAgrees(s: string)
    requires var t := Text.Trim(s);
      t != "" && !HasHexPrefix(t) && |Unsigned(t)| > 0 && AllDigitsIn(Unsigned(t), 10)
    ensures var t := Text.Trim(s);
      ParseInt(s) == Some(SignOf(t) * ValueOf(Unsigned(t), 10))
  {
    var t := Text.Trim(s);
    var ts := Text.TrimStart(s);
    assert t == Text.TrimEnd(ts);
    SignedDigitsThenSpace(ts, t);
  }

  /** `ts` is the signed decimal literal `t` followed by whitespace. */
  lemma SignedDigitsThenSpace(ts: string, t: string)
    requires |t| >= 1 && |t| <= |ts| && ts[..|t|] == t
    requires forall i :: |t| <= i < |ts| ==> Text.IsSpace(ts[i])
    requires |Unsigned(t)| > 0 && AllDigitsIn(Unsigned(t), 10)
    ensures var u := Unsigned(ts);
      && RadixOf(u) == 10 && RadixBody(u) == u
      && DigitRun(u, 10) == |Unsigned(t)|
      && u[..|Unsigned(t)|] == Unsigned(t)
      && SignOf(ts) == SignOf(t)
  {
    assert ts[0] == t[0];
    var ut := Unsigned(t);
    var u := Unsigned(ts);
    var k := |t| - |ut|;
    assert u == ts[k..];
    assert ut == t[k..];
    assert u[..|ut|] == ut;
    assert forall i :: |ut| <= i < |u| ==> u[i] == ts[i + k];
    assert !HasHexPrefix(u) by {
      if |u| >= 2 {
        assert u[1] == ts[k + 1];
        if |ut| >= 2 {
          assert u[1] == ut[1];
        } else {
          assert Text.IsSpace(u[1]);
        }
      }
    }
    RunOfDigitsThenSpace(u, |ut|, 10);
  }

  /** A run of `n` digits followed by whitespace (or nothing) is exactly the
      digit run. */
  lemma RunOfDigitsThenSpace(v: string, n: nat, radix: nat)
    requires n <= |v|
    requires AllDigitsIn(v[..n], radix)
    requires forall i :: n <= i < |v| ==> Text.IsSpace(v[i])
    ensures DigitRun(v, radix) == n
  {
    assert forall i :: 0 <= i < n ==> v[i] == v[..n][i];
    var m := DigitRun(v, radix);
    assert forall i :: 0 <= i < m ==> v[i] == v[..m][i];
    assert n < |v| ==> Text.IsSpace(v[n]) && !IsDigitIn(v[n], radix);
  }
}

=== FILE: photo_upload.dfy ===
/** The profile photo picker of `src/components/profile/PhotoUpload.jsx`:
    the checks on a chosen file, the upload that follows, and removal. The
    file reader, the simulated delay and the object URL are outside the
    model: their results are parameters. */
module PhotoUpload {
  import opened Wrappers
  import Text

  const NotAnImage := "Veuillez sélectionner un fichier image"
  const TooLarge := "La taille du fichier ne doit pas dépasser 5MB"
  const UploadFailed := "Erreur lors de l'upload de la photo"

  /** 5 MiB, the largest accepted size in bytes. */
  const MaxSize := 5 * 1024 * 1024

  /** The chosen file: its MIME type and its size in bytes. */
  datatype File = File(mimeType: string, size: nat)

  /** The component's state: the preview URL, the uploading flag and the
      error message. */
  datatype State = State(preview: Option<string>, uploading: bool, error: Option<string>)

  /** How the parent's `onPhotoUpload` was called, if at all. */
  datatype Callback = NotCalled | Called(photo: Option<string>)

  /** The outcome of the asynchronous part: the reader's data URL and the
      returned photo URL, or a thrown error. */
  datatype Upload = Uploaded(dataUrl: string, photoUrl: string) | Failed

  datatype Step = Step(state: State, callback: Callback)

  /** The checks in order: the type first, then the size; exactly 5 MiB
      passes. */
  function CheckFile(file: File): (r: Option<string>)
    ensures r.None? <==> Text.StartsWith(file.mimeType, "image/") && file.size <= MaxSize
    ensures !Text.StartsWith(file.mimeType, "image/") ==> r == Some(NotAnImage)
    ensures Text.StartsWith(file.mimeType, "image/") && file.size > MaxSize ==> r == Some(TooLarge)
  {
    if !Text.StartsWith(file.mimeType, "image/") then Some(NotAnImage)
    else if file.size > MaxSize then Some(TooLarge)
    else None
  }

  /** `handleFileChange` up to the `await`: no file changes nothing; a
      refused file only sets the error; an accepted one clears the error
      and starts uploading. The preview is not touched yet. */
  function Begin(st: State, file: Option<File>): (r: State)
    ensures file.None? ==> r == st
    ensures file.Some? && CheckFile(file.value).Some? ==> r == st.(error := CheckFile(file.value))
    ensures file.Some? && CheckFile(file.value).None? ==> r.error.None? && r.uploading
    ensures r.preview == st.preview
  {
    match file
    case None => st
    case Some(f) =>
      match CheckFile(f)
      case Some(message) => st.(error := Some(message))
      case None => st.(error := None, uploading := true)
  }

  /** The rest of `handleFileChange` after an accepted file: on success the
      preview shows the data URL and the parent receives the photo URL; on
      failure the error is set and the preview goes back to the current
      photo; either way the upload ends. */
  function Settle(st: State, currentPhoto: Option<string>, upload: Upload): (r: Step)
    ensures !r.state.uploading
    ensures upload.Uploaded? ==>
      && r.state.preview == Some(upload.dataUrl) && r.state.error == st.error
      && r.callback == Called(Some(upload.photoUrl))
    ensures upload.Failed? ==>
      && r.state.preview == currentPhoto && r.state.error == Some(UploadFailed)
      && r.callback == NotCalled
  {
    match upload
    case Uploaded(dataUrl, photoUrl) =>
      Step(st.(preview := Some(dataUrl), uploading := false), Called(Some(photoUrl)))
    case Failed =>
      Step(st.(preview := currentPhoto, uploading := false, error := Some(UploadFailed)), NotCalled)
  }

  /** The whole of `handleFileChange`: the parent hears of a photo only
      for an image of at most 5 MiB whose upload succeeded, and then it
      hears that photo's URL. */
  function HandleFileChange(st: State, currentPhoto: Option<string>, file: Option<File>, upload: Upload): (r: Step)
    ensures r.callback.Called? <==> file.Some? && CheckFile(file.value).None? && upload.Uploaded?
    ensures r.callback.Called? ==> r.callback.photo == Some(upload.photoUrl)
    ensures file.None? ==> r == Step(st, NotCalled)
  {
    var started := Begin(st, file);
    if file.Some? && CheckFile(file.value).None? then Settle(started, currentPhoto, upload)
    else Step(started, NotCalled)
  }

  /** A refused file changes nothing but the error message. */
  lemma RefusedFileKeepsPreview(st: State, currentPhoto: Option<string>, f: File, upload: Upload)
    requires CheckFile(f).Some?
    ensures var r := HandleFileChange(st, currentPhoto, Some(f), upload);
      && r.state.preview == st.preview && r.state.uploading == st.uploading
      && r.state.error == CheckFile(f) && r.callback == NotCalled
  {
  }

  /** A non-image is refused for its type whatever its size. */
  lemma TypeCheckedFirst(f: File)
    requires !Text.StartsWith(f.mimeType, "image/")
    ensures CheckFile(f) == Some(NotAnImage)
    ensures CheckFile(f.(size := f.size + MaxSize + 1)) == Some(NotAnImage)
  {
  }

  /** The size limit is inclusive: 5 MiB passes and one byte more fails. */
  lemma SizeLimitInclusive(mimeType: string)
    requires Text.StartsWith(mimeType, "image/")
    ensures CheckFile(File(mimeType, MaxSize)).None?
    ensures CheckFile(File(mimeType, MaxSize + 1)) == Some(TooLarge)
  {
  }

  /** A successful upload after an earlier refusal clears the old error. */
  lemma AcceptedFileClearsError(st: State, currentPhoto: Option<string>, f: File, dataUrl: string, photoUrl: string)
    requires CheckFile(f).None?
    ensures var r := HandleFileChange(st, currentPhoto, Some(f), Uploaded(dataUrl, photoUrl));
      && r.state == State(Some(dataUrl), false, None)
  {
  }

  /** `handleRemovePhoto`: the preview is emptied and the parent receives
      null; nothing else changes. */
  function RemovePhoto(st: State): (r: Step)
    ensures r.state.preview.None? && r.callback == Called(None)
    ensures r.state.uploading == st.uploading && r.state.error == st.error
  {
    Step(st.(preview := None), Called(None))
  }

  /** Removing twice leaves the same state as removing once. */
  lemma RemoveIdempotent(st: State)
    ensures RemovePhoto(RemovePhoto(st).state) == RemovePhoto(st)
  {
  }
}

=== FILE: profile_card.dfy ===
/** What the profile card of `src/components/profile/ProfileCard.jsx`
    shows: the level emoji, the avatar letter, the name and location with
    their fallbacks, the level section and the contact section. Text
    fields are strings when present (`None` stands for null or undefined). */
module ProfileCard {
  import opened Wrappers
  import Text
  import Helpers
  import FilterBar
  import ProfileForm

  const Shuttle: char := '🏸'

  const NoName := "Nom non renseigné"
  const NoLocation := "Localisation non renseignée"
  const ShowContact := "Contacter"
  const HideContact := "Masquer contact"

  /** `n` shuttlecocks. */
  function Shuttles(n: nat): (r: string)
    ensures |r| == n
    ensures forall i :: 0 <= i < n ==> r[i] == Shuttle
  {
    seq(n, i => Shuttle)
  }

  /** `getBadmintonEmoji`: `levelEmojis[level?.toLowerCase()] || '🏸'`. */
  function BadmintonEmoji(level: Option<string>): (r: string)
    ensures 1 <= |r| <= 4
    ensures forall i :: 0 <= i < |r| ==> r[i] == Shuttle
    ensures level.None? ==> r == Shuttles(1)
    ensures r == Shuttles(2) <==> level.Some? && Text.Lower(level.value) == "intermédiaire"
    ensures r == Shuttles(3) <==> level.Some? && Text.Lower(level.value) == "avancé"
    ensures r == Shuttles(4) <==> level.Some? && Text.Lower(level.value) == "expert"
    ensures level.Some? && Text.Lower(level.value) !in {"intermédiaire", "avancé", "expert"} ==> r == Shuttles(1)
  {
    assert "🏸" == Shuttles(1);
    assert "🏸🏸" == Shuttles(2);
    assert "🏸🏸🏸" == Shuttles(3);
    assert "🏸🏸🏸🏸" == Shuttles(4);
    if level.None? then "🏸"
    else
      var key := Text.Lower(level.value);
      if key == "débutant" then "🏸"
      else if key == "intermédiaire" then "🏸🏸"
      else if key == "avancé" then "🏸🏸🏸"
      else if key == "expert" then "🏸🏸🏸🏸"
      else "🏸"
  }

  /** The lookup ignores case. */
  lemma EmojiIgnoresCase(level: string)
    ensures BadmintonEmoji(Some(Text.Lower(level))) == BadmintonEmoji(Some(level))
  {
    Text.LowerIdempotent(level);
  }

  /** The four levels of the announcement forms, in increasing order, show
      one to four shuttlecocks. */
  lemma EmojiOfEachLevel()
    ensures forall i :: 0 <= i < |FilterBar.Levels| ==> BadmintonEmoji(Some(FilterBar.Levels[i])) == Shuttles(i + 1)
  {
    Text.LowerIs("Débutant", "débutant");
    Text.LowerIs("Intermédiaire", "intermédiaire");
    Text.LowerIs("Avancé", "avancé");
    Text.LowerIs("Expert", "expert");
    assert "🏸🏸" == Shuttles(2);
    assert "🏸🏸🏸" == Shuttles(3);
    assert "🏸🏸🏸🏸" == Shuttles(4);
  }

  /** A level of fewer than six characters matches no key and shows one
      shuttlecock. */
  lemma ShortLevelOneShuttle(level: string)
    requires |level| < 6
    ensures BadmintonEmoji(Some(level)) == Shuttles(1)
  {
    assert |Text.Lower(level)| == |level|;
  }

  /** None of the levels the profile form offers (N1 … NC) has an entry,
      so every profile shows a single shuttlecock. */
  lemma ProfileLevelsShowOneShuttle()
    ensures forall i :: 0 <= i < |ProfileForm.BadmintonLevels| ==>
      BadmintonEmoji(Some(ProfileForm.BadmintonLevels[i])) == Shuttles(1)
  {
    forall i | 0 <= i < |ProfileForm.BadmintonLevels|
      ensures BadmintonEmoji(Some(ProfileForm.BadmintonLevels[i])) == Shuttles(1)
    {
      assert |ProfileForm.BadmintonLevels[i]| <= 3;
      ShortLevelOneShuttle(ProfileForm.BadmintonLevels[i]);
    }
  }

  /** `user.name?.charAt(0).toUpperCase() || '?'`: one character, never a
      lower-case letter; '?' when there is no name or it is empty. */
  function Avatar(name: Option<string>): (r: string)
    ensures |r| == 1 && !Text.IsLowerLetter(r[0])
    ensures name.None? || name.value == "" ==> r == "?"
  {
    if name.None? || name.value == "" then "?" else [Text.UpperChar(name.value[0])]
  }

  /** The avatar letter is the first letter of the capitalised name. */
  lemma AvatarIsCapitalInitial(name: string)
    requires name != ""
    ensures Avatar(Some(name)) == Helpers.Capitalize(name)[..1]
  {
  }

  /** The avatar does not depend on the case of the name. */
  lemma AvatarIgnoresCase(name: string)
    ensures Avatar(Some(Text.Lower(name))) == Avatar(Some(name))
  {
    if name != "" {
      var c := name[0];
      assert Text.Lower(name)[0] == Text.LowerChar(c);
    }
  }

  /** `value || fallback` for a text field: the text when non-empty. */
  function TextOr(value: Option<string>, fallback: string): (r: string)
    ensures value.Some? && value.value != "" ==> r == value.value
    ensures value.None? || value.value == "" ==> r == fallback
  {
    if value.Some? && value.value != "" then value.value else fallback
  }

  /** The heading and the location line never come out empty. */
  lemma NameAndLocationShown(name: Option<string>, location: Option<string>)
    ensures TextOr(name, NoName) != "" && TextOr(location, NoLocation) != ""
  {
  }

  /** The level section: the emoji and the badge for a non-empty level,
      'Niveau non renseigné' otherwise. */
  datatype LevelSection = NoLevel | Level(emoji: string, badge: string)

  function LevelView(level: Option<string>): (r: LevelSection)
    ensures r.Level? <==> level.Some? && level.value != ""
    ensures r.Level? ==> r.badge == level.value && r.emoji == BadmintonEmoji(level)
  {
    if level.Some? && level.value != "" then Level(BadmintonEmoji(level), level.value) else NoLevel
  }

  /** The contact block: the email line and, below it, the phone line. */
  datatype ContactInfo = ContactInfo(email: string, phone: Option<string>)

  /** The actions under someone else's profile: the toggle button and,
      once toggled, the contact block. */
  datatype Actions = Hidden | Shown(button: string, contact: Option<ContactInfo>)

  function ActionsView(isOwnProfile: bool, signedIn: bool, showContact: bool,
                       email: Option<string>, phone: Option<string>): (r: Actions)
    ensures r.Shown? <==> !isOwnProfile && signedIn
    ensures r.Shown? ==> (r.button == HideContact <==> showContact)
    ensures r.Shown? ==> (r.contact.Some? <==> showContact && email.Some? && email.value != "")
    ensures r.Shown? && r.contact.Some? ==>
      && r.contact.value.email == email.value
      && (r.contact.value.phone.Some? <==> phone.Some? && phone.value != "")
  {
    if isOwnProfile || !signedIn then Hidden
    else
      var contact :=
        if showContact && email.Some? && email.value != "" then
          Some(ContactInfo(email.value, if phone.Some? && phone.value != "" then phone else None))
        else None;
      Shown(if showContact then HideContact else ShowContact, contact)
  }
}

=== FILE: profile_form.dfy ===
/** The profile editor of `src/components/profile/ProfileForm.jsx`: the
    record built from the user, three checks, the age conversion on
    submit, and the change handler. */
module ProfileForm {
  import opened Wrappers
  import Text
  import Numbers
  import Json
  import Forms

  const NameRequired := "Le nom est requis"
  const AgeRange := "L'âge doit être entre 13 et 100 ans"

  /** The levels offered by the level selector. */
  const BadmintonLevels: seq<string> :=
    ["N1", "N2", "N3", "R4", "R5", "R6", "D7", "D8", "D9", "P10", "P11", "P12", "NC"]

  /** The fields the profile form edits. */
  const Fields := {"name", "email", "age", "location", "bio", "phone", "level", "availability", "city"}

  /** The record the `useEffect` builds from a present user: each field
      read from the user or '', except the level, which defaults to 'NC'. */
  function FromUser(user: Json.Value): (r: Forms.Values)
    ensures r.Keys == Fields
    ensures forall k :: k in r && k != "level" ==> r[k] == Json.Or(Json.Get(user, k), Json.Str(""))
    ensures r["level"] == Json.Or(Json.Get(user, "level"), Json.Str("NC"))
  {
    map k | k in Fields :: Json.Or(Json.Get(user, k), Json.Str(if k == "level" then "NC" else ""))
  }

  /** A user without a level is edited at level 'NC'; one with a level
      keeps it. */
  lemma LevelDefaultsToNC(fields: map<string, Json.Value>)
    ensures !Json.Truthy(Json.Field(fields, "level")) ==> FromUser(Json.Obj(fields))["level"] == Json.Str("NC")
    ensures Json.Truthy(Json.Field(fields, "level")) ==> FromUser(Json.Obj(fields))["level"] == fields["level"]
  {
  }

  /** The record the checks can read: name and email are strings. */
  predicate WellFormed(v: Forms.Values) {
    "name" in v && v["name"].Str? && "email" in v && v["email"].Str? && "age" in v
  }

  /** The age is absent (falsy) or a number from 13 to 100. */
  predicate AgeOk(age: Json.Value) {
    !Json.Truthy(age) || (Json.ToNumeric(age).Some? && 13 <= Json.ToNumeric(age).value <= 100)
  }

  /** `age && (isNaN(age) || age < 13 || age > 100)`: a comparison with NaN
      is false, so only the `isNaN` test catches a non-number. */
  function AgeError(age: Json.Value): (r: Option<string>)
    ensures r.None? <==> AgeOk(age)
    ensures r.Some? ==> r.value == AgeRange
  {
    var n := Json.ToNumeric(age);
    if Json.Truthy(age) && (n.None? || n.value < 13 || n.value > 100) then Some(AgeRange) else None
  }

  /** The email check of this form: required after trimming, then the
      test on the untrimmed text. */
  function EmailError(email: string): (r: Option<string>)
    ensures r.None? <==> !Text.AllSpace(email) && Forms.LooseEmail(email)
    ensures r == Some(Forms.EmailRequired) <==> Text.AllSpace(email)
  {
    if Text.AllSpace(email) then Some(Forms.EmailRequired)
    else if !Forms.LooseEmail(email) then Some(Forms.EmailInvalid)
    else None
  }

  /** `validateForm`: the name must not be blank, the email must pass, the
      age must be absent or in range; all failures are reported together. */
  function Validate(v: Forms.Values): (r: Forms.Errors)
    requires WellFormed(v)
    ensures r.Keys <= {"name", "email", "age"}
    ensures "name" in r <==> Text.AllSpace(v["name"].s)
    ensures "email" in r <==> !(!Text.AllSpace(v["email"].s) && Forms.LooseEmail(v["email"].s))
    ensures "age" in r <==> !AgeOk(v["age"])
    ensures |r| == 0 <==> !Text.AllSpace(v["name"].s) && EmailError(v["email"].s).None? && AgeOk(v["age"])
  {
    assert "name"[0] == 'n' && "email"[0] == 'e' && "age"[0] == 'a';
    var r1 := Forms.Report(map[], "name", if Text.AllSpace(v["name"].s) then Some(NameRequired) else None);
    var r2 := Forms.Report(r1, "email", EmailError(v["email"].s));
    Forms.Report(r2, "age", AgeError(v["age"]))
  }

  /** The age is a number or a plain integer literal, which `parseInt`
      reads whole; an exponent literal such as '2e1' is neither. */
  predicate IntegerAge(age: Json.Value) {
    age.Num? || Numbers.IsIntegerLiteral(Json.ToString(age))
  }

  /** A validated age always reads as some number through `parseInt`. For
      a number or a plain integer literal it is the number `Number()` saw,
      so the number checked is the number sent. */
  lemma ValidAgeParses(age: Json.Value)
    requires Json.Truthy(age) && AgeOk(age)
    ensures Numbers.ParseInt(Json.ToString(age)).Some?
    ensures IntegerAge(age) ==> Numbers.ParseInt(Json.ToString(age)) == Json.ToNumeric(age)
  {
    match age
    case Num(m) =>
      Numbers.ParseIntOfNatString(m);
    case Str(s) =>
      TextAgeParses(s, Json.ToNumeric(age).value);
    case Arr(_) =>
      TextAgeParses(Json.ToString(age), Json.ToNumeric(age).value);
    case Obj(_) =>
      TextAgeParses(Json.ToString(age), Json.ToNumeric(age).value);
    case Bool(_) =>
      assert false;
  }

  /** A text whose number is in range is not blank, so `parseInt` reads a
      number, the same one for a plain integer literal. */
  lemma TextAgeParses(s: string, n: int)
    requires Numbers.ToNumber(s) == Some(n) && 13 <= n <= 100
    ensures Numbers.ParseInt(s).Some?
    ensures Numbers.IsIntegerLiteral(s) ==> Numbers.ParseInt(s) == Some(n)
  {
    if Text.AllSpace(s) {
      assert false;
    } else {
      Numbers.ParseIntAgreesWithToNumber(s, n);
    }
  }

  /** The age sent on submit, `age ? parseInt(age) : null`, for an age that
      passed validation. A number or a plain integer literal is sent as the
      number the check accepted, within 13..100. */
  function SubmittedAge(age: Json.Value): (r: Json.Value)
    requires AgeOk(age)
    ensures !Json.Truthy(age) ==> r == Json.Null
    ensures Json.Truthy(age) ==> r.Num? && Numbers.ParseInt(Json.ToString(age)) == Some(r.n)
    ensures Json.Truthy(age) && IntegerAge(age) ==> r == Json.Num(Json.ToNumeric(age).value) && 13 <= r.n <= 100
  {
    if !Json.Truthy(age) then Json.Null
    else
      ValidAgeParses(age);
      Json.Num(Numbers.ParseInt(Json.ToString(age)).value)
  }

  /** The age as the check reads it, `Number(age)`, which is what the form
      evidently means to send: a given age is within 13..100, and for a
      number or a plain integer literal it is what `parseInt` sends. */
  function CheckedAge(age: Json.Value): (r: Json.Value)
    requires AgeOk(age)
    ensures !Json.Truthy(age) ==> r == Json.Null
    ensures Json.Truthy(age) ==> r.Num? && 13 <= r.n <= 100 && Json.ToNumeric(age) == Some(r.n)
    ensures IntegerAge(age) ==> r == SubmittedAge(age)
  {
    if !Json.Truthy(age) then Json.Null else Json.Num(Json.ToNumeric(age).value)
  }

  /** `handleSubmit`: `updateProfile({...formData, age})` only for a valid
      form; every field but the age is sent as entered. */
  function Submit(v: Forms.Values): (r: Forms.Submission<Forms.Values>)
    requires WellFormed(v)
    ensures r.Sent? <==> |Validate(v)| == 0
    ensures r.Sent? ==> r.payload.Keys == v.Keys
    ensures r.Sent? ==> forall k :: k in v && k != "age" ==> r.payload[k] == v[k]
    ensures r.Sent? ==> r.payload["age"] == SubmittedAge(v["age"])
  {
    var errors := Validate(v);
    if |errors| == 0 then Forms.Sent(v["age" := SubmittedAge(v["age"])]) else Forms.Blocked(errors)
  }

  /** As written, an exponent age escapes the range check: `Number('2e1')`
      is 20, so the form passes, but `parseInt` stops at the 'e' and the
      profile is saved with age 2, outside 13..100. */
  lemma ExponentAgeSentOutOfRange(v: Forms.Values)
    requires WellFormed(v) && v["age"] == Json.Str("2e1")
    requires !Text.AllSpace(v["name"].s) && EmailError(v["email"].s).None?
    ensures Submit(v).Sent? && Submit(v).payload["age"] == Json.Num(2)
    ensures CheckedAge(v["age"]) == Json.Num(20)
  {
    Numbers.ExponentExample();
    assert AgeOk(v["age"]);
  }

  /** An empty age is accepted and sent as null. */
  lemma EmptyAgeSentAsNull(v: Forms.Values)
    requires WellFormed(v) && v["age"] == Json.Str("")
    requires !Text.AllSpace(v["name"].s) && EmailError(v["email"].s).None?
    ensures Submit(v).Sent? && Submit(v).payload["age"] == Json.Null
  {
  }

  /** `handleInputChange`: only the named field changes and only its error
      is cleared. */
  function HandleInputChange(st: Forms.FormState, name: string, value: string): (r: Forms.FormState)
    requires WellFormed(st.values)
    ensures WellFormed(r.values)
    ensures name in r.values && r.values[name] == Json.Str(value)
    ensures forall k :: k in st.values && k != name ==> k in r.values && r.values[k] == st.values[k]
    ensures forall k :: k in st.errors && k != name ==> k in r.errors && r.errors[k] == st.errors[k]
    ensures name in r.errors ==> r.errors[name] == ""
  {
    Forms.Change(st, name, Json.Str(value))
  }
}

=== FILE: register_form.dfy ===
/** The sign-up form of the authentication modal,
    `src/components/auth/RegisterForm.jsx`: the page's first four checks,
    except that the name is measured without trimming. */
module RegisterForm {
  import opened Wrappers
  import Text
  import Json
  import Forms
  import RegisterPage

  const Fields: set<string> := {"name", "email", "password", "confirmPassword"}

  const ConfirmRequired := "Veuillez confirmer le mot de passe"

  /** The name, untrimmed, must have two characters. */
  function NameError(name: string): (r: Option<string>)
    ensures r.None? <==> |name| >= 2
    ensures r == Some(RegisterPage.NameRequired) <==> name == ""
  {
    if name == "" then Some(RegisterPage.NameRequired)
    else if |name| < 2 then Some(RegisterPage.NameShort)
    else None
  }

  /** `validateForm`: each of the four fields is reported exactly when its
      condition fails, all at once. */
  function Validate(v: Forms.Values): (r: Forms.Errors)
    requires Forms.TextFields(v, Fields)
    ensures r.Keys <= Fields
    ensures "name" in r <==> |v["name"].s| < 2
    ensures "email" in r <==> !Forms.LooseEmail(v["email"].s)
    ensures "password" in r <==> |v["password"].s| < 6
    ensures "confirmPassword" in r <==> !(v["confirmPassword"].s != "" && v["confirmPassword"].s == v["password"].s)
    ensures |r| == 0 <==> |v["name"].s| >= 2 && Forms.LooseEmail(v["email"].s) && |v["password"].s| >= 6
                          && v["confirmPassword"].s != "" && v["confirmPassword"].s == v["password"].s
  {
    RegisterPage.FieldNamesDiffer();
    var r1 := Forms.Report(map[], "name", NameError(v["name"].s));
    var r2 := Forms.Report(r1, "email", Forms.EmailError(v["email"].s));
    var r3 := Forms.Report(r2, "password", Forms.PasswordError(v["password"].s));
    Forms.Report(r3, "confirmPassword", Forms.ConfirmError(v["password"].s, v["confirmPassword"].s, ConfirmRequired))
  }

  /** `handleSubmit`: `register(name, email, password)` only for a valid
      form. */
  function Submit(v: Forms.Values): (r: Forms.Submission<(string, string, string)>)
    requires Forms.TextFields(v, Fields)
    ensures r.Sent? <==> |Validate(v)| == 0
    ensures r.Sent? ==> r.payload == (v["name"].s, v["email"].s, v["password"].s)
  {
    Forms.Gate(Validate(v), (v["name"].s, v["email"].s, v["password"].s))
  }

  /** A name the page accepts is accepted here too. */
  lemma PageNameAcceptedHere(name: string)
    requires RegisterPage.NameError(name).None?
    ensures NameError(name).None?
  {
  }

  /** The converse fails: "  a" has three characters but one after
      trimming, so the modal accepts it and the page does not. */
  lemma PaddedNameAcceptedOnlyHere()
    ensures NameError("  a").None?
    ensures RegisterPage.NameError("  a") == Some(RegisterPage.NameShort)
  {
    assert "  a" == "  " + "a";
    Text.TrimStartSpaces("  ", "a");
    assert Text.TrimEnd("a") == "a";
  }

  /** `handleChange`: only the named field changes and only its error is
      cleared. */
  function HandleChange(st: Forms.FormState, name: string, value: string): (r: Forms.FormState)
    requires Forms.TextFields(st.values, Fields)
    ensures Forms.TextFields(r.values, Fields)
    ensures name in r.values && r.values[name] == Json.Str(value)
    ensures forall k :: k in st.values && k != name ==> k in r.values && r.values[k] == st.values[k]
    ensures forall k :: k in st.errors && k != name ==> k in r.errors && r.errors[k] == st.errors[k]
    ensures name in r.errors ==> r.errors[name] == ""
  {
    Forms.Change(st, name, Json.Str(value))
  }
}

=== FILE: register_page.dfy ===
/** The sign-up page of `src/pages/Register.jsx`: seven checks reported
    together, the checkbox-aware change handler and the submit gate. */
module RegisterPage {
  import opened Wrappers
  import Text
  import Json
  import Forms

  /** The fields read as text by the checks (`terms` is a checkbox). */
  const TextKeys: set<string> := {"name", "email", "password", "confirmPassword", "level", "city"}
  const Fields: set<string> := TextKeys + {"terms"}

  const NameRequired := "Le nom est requis"
  const NameShort := "Le nom doit contenir au moins 2 caractères"
  const ConfirmRequired := "La confirmation du mot de passe est requise"
  const LevelRequired := "Veuillez sélectionner votre niveau"
  const CityRequired := "La ville est requise"
  const TermsRequired := "Vous devez accepter les conditions d'utilisation"

  /** The initial `formData`. */
  const Initial: Forms.Values := map[
    "name" := Json.Str(""), "email" := Json.Str(""), "password" := Json.Str(""),
    "confirmPassword" := Json.Str(""), "level" := Json.Str(""), "city" := Json.Str(""),
    "phone" := Json.Str(""), "terms" := Json.Bool(false)]

  /** A well-formed page record: text fields are strings and `terms` is
      present. */
  predicate WellFormed(v: Forms.Values) {
    && "name" in v && v["name"].Str?
    && "email" in v && v["email"].Str?
    && "password" in v && v["password"].Str?
    && "confirmPassword" in v && v["confirmPassword"].Str?
    && "level" in v && v["level"].Str?
    && "city" in v && v["city"].Str?
    && "terms" in v
  }

  /** The name, trimmed, must have two characters. */
  function NameError(name: string): (r: Option<string>)
    ensures r.None? <==> |Text.Trim(name)| >= 2
    ensures r == Some(NameRequired) <==> Text.AllSpace(name)
  {
    var t := Text.Trim(name);
    if t == "" then Some(NameRequired)
    else if |t| < 2 then Some(NameShort)
    else None
  }

  /** The page's field names are pairwise different. */
  lemma FieldNamesDiffer()
    ensures "name" != "email" && "name" != "password" && "name" != "confirmPassword"
    ensures "name" != "level" && "name" != "city" && "name" != "terms"
    ensures "email" != "password" && "email" != "confirmPassword" && "email" != "level"
    ensures "email" != "city" && "email" != "terms" && "password" != "confirmPassword"
    ensures "password" != "level" && "password" != "city" && "password" != "terms"
    ensures "confirmPassword" != "level" && "confirmPassword" != "city" && "confirmPassword" != "terms"
    ensures "level" != "city" && "level" != "terms" && "city" != "terms"
  {
    assert "email"[0] == 'e' && "level"[0] == 'l' && "terms"[0] == 't' && "name"[0] == 'n' && "city"[0] == 'c';
  }

  /** Every field's own condition, as the page states it. */
  predicate NameOk(v: Forms.Values) requires WellFormed(v) { |Text.Trim(v["name"].s)| >= 2 }
  predicate EmailOk(v: Forms.Values) requires WellFormed(v) { Forms.LooseEmail(v["email"].s) }
  predicate PasswordOk(v: Forms.Values) requires WellFormed(v) { |v["password"].s| >= 6 }
  predicate ConfirmOk(v: Forms.Values) requires WellFormed(v) {
    v["confirmPassword"].s != "" && v["confirmPassword"].s == v["password"].s
  }
  predicate LevelOk(v: Forms.Values) requires WellFormed(v) { v["level"].s != "" }
  predicate CityOk(v: Forms.Values) requires WellFormed(v) { !Text.AllSpace(v["city"].s) }
  predicate TermsOk(v: Forms.Values) requires WellFormed(v) { Json.Truthy(v["terms"]) }

  /** The first four chains (name, email, password, confirmation) run on
      `errors`: each of those fields is reported exactly when its condition
      fails, and every other entry is kept. */
  function AccountErrors(errors: Forms.Errors, v: Forms.Values): (r: Forms.Errors)
    requires WellFormed(v)
    ensures "name" in r <==> !NameOk(v) || "name" in errors
    ensures "email" in r <==> !EmailOk(v) || "email" in errors
    ensures "password" in r <==> !PasswordOk(v) || "password" in errors
    ensures "confirmPassword" in r <==> !ConfirmOk(v) || "confirmPassword" in errors
    ensures forall f :: f != "name" && f != "email" && f != "password" && f != "confirmPassword" ==>
      (f in r <==> f in errors)
  {
    FieldNamesDiffer();
    var r1 := Forms.Report(errors, "name", NameError(v["name"].s));
    var r2 := Forms.Report(r1, "email", Forms.EmailError(v["email"].s));
    var r3 := Forms.Report(r2, "password", Forms.PasswordError(v["password"].s));
    Forms.Report(r3, "confirmPassword", Forms.ConfirmError(v["password"].s, v["confirmPassword"].s, ConfirmRequired))
  }

  /** The last three chains (level, city, terms), likewise. */
  function ProfileErrors(errors: Forms.Errors, v: Forms.Values): (r: Forms.Errors)
    requires WellFormed(v)
    ensures "level" in r <==> !LevelOk(v) || "level" in errors
    ensures "city" in r <==> !CityOk(v) || "city" in errors
    ensures "terms" in r <==> !TermsOk(v) || "terms" in errors
    ensures forall f :: f != "level" && f != "city" && f != "terms" ==> (f in r <==> f in errors)
  {
    FieldNamesDiffer();
    var r1 := Forms.Report(errors, "level", if v["level"].s == "" then Some(LevelRequired) else None);
    var r2 := Forms.Report(r1, "city", if Text.AllSpace(v["city"].s) then Some(CityRequired) else None);
    Forms.Report(r2, "terms", if !Json.Truthy(v["terms"]) then Some(TermsRequired) else None)
  }

  /** `validateForm`: each field appears in the map exactly when its own
      condition fails, all at once. */
  function Validate(v: Forms.Values): (r: Forms.Errors)
    requires WellFormed(v)
    ensures r.Keys <= Fields
    ensures "name" in r <==> !NameOk(v)
    ensures "email" in r <==> !EmailOk(v)
    ensures "password" in r <==> !PasswordOk(v)
    ensures "confirmPassword" in r <==> !ConfirmOk(v)
  {
    FieldNamesDiffer();
    ProfileErrors(AccountErrors(map[], v), v)
  }

  /** The remaining fields of `validateForm`, reported the same way. */
  lemma ProfileFieldsReported(v: Forms.Values)
    requires WellFormed(v)
    ensures "level" in Validate(v) <==> !LevelOk(v)
    ensures "city" in Validate(v) <==> !CityOk(v)
    ensures "terms" in Validate(v) <==> !TermsOk(v)
  {
    FieldNamesDiffer();
    var a := AccountErrors(map[], v);
    assert "level" !in a && "city" !in a && "terms" !in a;
  }

  /** The form is valid exactly when every field's condition holds. */
  lemma ValidIff(v: Forms.Values)
    requires WellFormed(v)
    ensures |Validate(v)| == 0 <==> NameOk(v) && EmailOk(v) && PasswordOk(v) && ConfirmOk(v)
                                    && LevelOk(v) && CityOk(v) && TermsOk(v)
  {
    var r := Validate(v);
    ProfileFieldsReported(v);
    if |r| == 0 {
      assert "name" !in r && "email" !in r && "password" !in r && "confirmPassword" !in r;
      assert "level" !in r && "city" !in r && "terms" !in r;
    } else {
      var f :| f in r;
    }
  }

  /** `handleSubmit`: `register(formData)` only for a valid form. */
  function Submit(v: Forms.Values): (r: Forms.Submission<Forms.Values>)
    requires WellFormed(v)
    ensures r.Sent? <==> |Validate(v)| == 0
    ensures r.Sent? ==> r.payload == v
  {
    Forms.Gate(Validate(v), v)
  }

  /** A completed form whose only fault is the unticked box is refused for
      that box alone. */
  lemma OnlyTermsMissing(v: Forms.Values)
    requires WellFormed(v)
    requires NameOk(v) && EmailOk(v) && PasswordOk(v) && ConfirmOk(v) && LevelOk(v) && CityOk(v)
    requires !TermsOk(v)
    ensures Submit(v) == Forms.Blocked(map["terms" := TermsRequired])
  {
    var r := Validate(v);
    ProfileFieldsReported(v);
    assert r.Keys == {"terms"};
    assert r == map["terms" := TermsRequired];
  }

  /** A password of exactly six characters is accepted. */
  lemma SixCharactersSuffice(v: Forms.Values)
    requires WellFormed(v) && |v["password"].s| == 6
    ensures "password" !in Validate(v)
  {
  }

  /** `handleChange`: a checkbox stores `checked`, any other input stores
      `value`; only that field's error is cleared. */
  function HandleChange(st: Forms.FormState, name: string, inputType: string, value: string, checked: bool)
    : (r: Forms.FormState)
    ensures name in r.values
    ensures inputType == "checkbox" ==> r.values[name] == Json.Bool(checked)
    ensures inputType != "checkbox" ==> r.values[name] == Json.Str(value)
    ensures forall k :: k in st.values && k != name ==> k in r.values && r.values[k] == st.values[k]
    ensures forall k :: k in st.errors && k != name ==> k in r.errors && r.errors[k] == st.errors[k]
    ensures r.errors.Keys == st.errors.Keys && (name in r.errors ==> r.errors[name] == "")
  {
    Forms.Change(st, name, if inputType == "checkbox" then Json.Bool(checked) else Json.Str(value))
  }

  /** The page's own inputs keep the record well formed: the terms box is a
      checkbox and every other field is a text input. */
  lemma ChangeKeepsWellFormed(st: Forms.FormState, name: string, value: string, checked: bool)
    requires WellFormed(st.values)
    ensures var inputType := if name == "terms" then "checkbox" else "text";
      WellFormed(HandleChange(st, name, inputType, value, checked).values)
  {
  }
}

=== FILE: seqs.dfy ===
/** Order-preserving filtering of sequences, the shape shared by every list
    operation of the application (`Array.prototype.filter`). */
module Seqs {

  /** `idx` embeds `a` into `b`: strictly increasing positions of `b`
      holding the elements of `a` in order. */
  ghost predicate Embeds<T>(idx: seq<nat>, a: seq<T>, b: seq<T>) {
    && |idx| == |a|
    && (forall k :: 0 <= k < |idx| ==> idx[k] < |b| && a[k] == b[idx[k]])
    && (forall k, l :: 0 <= k < l < |idx| ==> idx[k] < idx[l])
  }

  /** `a` is an order-preserving subsequence of `b`. */
  ghost predicate IsSubsequence<T>(a: seq<T>, b: seq<T>) {
    exists idx :: Embeds(idx, a, b)
  }

  /** `Array.prototype.filter`: keeps, in order, the elements satisfying `p`. */
  function Filter<T>(s: seq<T>, p: T -> bool): (r: seq<T>)
    ensures |r| <= |s|
    ensures forall k :: 0 <= k < |r| ==> r[k] in s && p(r[k])
    ensures forall k :: 0 <= k < |s| && p(s[k]) ==> s[k] in r
  {
    if |s| == 0 then []
    else if p(s[0]) then [s[0]] + Filter(s[1..], p)
    else Filter(s[1..], p)
  }

  /** Filtering keeps every occurrence of a kept element and none of the
      others: a kept element occurs in the result as often as in the input. */
  lemma {:induction false} FilterCount<T>(s: seq<T>, p: T -> bool)
    ensures forall x :: multiset(Filter(s, p))[x] == if p(x) then multiset(s)[x] else 0
  {
    if |s| > 0 {
      FilterCount(s[1..], p);
      assert s == [s[0]] + s[1..];
      assert multiset(s) == multiset{s[0]} + multiset(s[1..]);
      if p(s[0]) {
        assert multiset(Filter(s, p)) == multiset{s[0]} + multiset(Filter(s[1..], p));
      }
    }
  }

  /** Filtering never reorders: the result embeds into the input. */
  lemma {:induction false} FilterIsSubsequence<T>(s: seq<T>, p: T -> bool)
    ensures IsSubsequence(Filter(s, p), s)
  {
    if |s| == 0 {
      assert Embeds([], Filter(s, p), s);
    } else {
      FilterIsSubsequence(s[1..], p);
      var tail := Filter(s[1..], p);
      var idx' :| Embeds(idx', tail, s[1..]);
      var shifted := ShiftEmbedding(idx', tail, s[0], s[1..]);
      if p(s[0]) {
        var idx := [0] + shifted;
        assert Filter(s, p) == [s[0]] + tail;
        assert [s[0]] + s[1..] == s;
        ConsEmbedding(shifted, tail, s[0], s[1..]);
        assert Embeds(idx, Filter(s, p), s);
      } else {
        assert Filter(s, p) == tail;
        assert [s[0]] + s[1..] == s;
        assert Embeds(shifted, Filter(s, p), s);
      }
    }
  }

  /** An embedding into `b` shifts by one into `[x] + b`. */
  lemma ShiftEmbedding<T>(idx: seq<nat>, a: seq<T>, x: T, b: seq<T>) returns (shifted: seq<nat>)
    requires Embeds(idx, a, b)
    ensures Embeds(shifted, a, [x] + b)
    ensures |shifted| == |idx|
    ensures forall k :: 0 <= k < |shifted| ==> shifted[k] == idx[k] + 1
  {
    shifted := seq(|idx|, k requires 0 <= k < |idx| => idx[k] + 1);
    forall k | 0 <= k < |shifted|
      ensures shifted[k] < |[x] + b| && a[k] == ([x] + b)[shifted[k]]
    {
      assert ([x] + b)[idx[k] + 1] == b[idx[k]];
    }
  }

  /** A shifted embedding extends by position 0 for a new head. */
  lemma ConsEmbedding<T>(shifted: seq<nat>, a: seq<T>, x: T, b: seq<T>)
    requires Embeds(shifted, a, [x] + b)
    requires forall k :: 0 <= k < |shifted| ==> shifted[k] >= 1
    ensures Embeds([0] + shifted, [x] + a, [x] + b)
  {
    var idx := [0] + shifted;
    forall k | 0 <= k < |idx|
      ensures idx[k] < |[x] + b| && ([x] + a)[k] == ([x] + b)[idx[k]]
    {
      if k > 0 {
        assert idx[k] == shifted[k - 1];
      }
    }
  }

  /** A filter whose predicate holds everywhere returns the input unchanged. */
  lemma {:induction false} FilterKeepsAll<T>(s: seq<T>, p: T -> bool)
    requires forall k :: 0 <= k < |s| ==> p(s[k])
    ensures Filter(s, p) == s
  {
    if |s| > 0 {
      FilterKeepsAll(s[1..], p);
      assert [s[0]] + s[1..] == s;
    }
  }

  /** Two successive filters are one filter by the conjunction `pq`. */
  lemma {:induction false} FilterFusion<T>(s: seq<T>, p: T -> bool, q: T -> bool, pq: T -> bool)
    requires forall x :: pq(x) == (p(x) && q(x))
    ensures Filter(Filter(s, p), q) == Filter(s, pq)
  {
    if |s| > 0 {
      FilterFusion(s[1..], p, q, pq);
      if p(s[0]) {
        assert Filter(s, p) == [s[0]] + Filter(s[1..], p);
        assert Filter(s, p)[1..] == Filter(s[1..], p);
      }
    }
  }

  /** A predicate that holds nowhere filters everything out. */
  lemma {:induction false} FilterNone<T>(s: seq<T>, p: T -> bool)
    requires forall k :: 0 <= k < |s| ==> !p(s[k])
    ensures Filter(s, p) == []
  {
    if |s| > 0 {
      FilterNone(s[1..], p);
    }
  }

  /** Two filters commute. */
  lemma FilterCommute<T>(s: seq<T>, p: T -> bool, q: T -> bool)
    ensures Filter(Filter(s, p), q) == Filter(Filter(s, q), p)
  {
    FilterFusion(s, p, q, x => p(x) && q(x));
    FilterFusion(s, q, p, x => p(x) && q(x));
  }

  /** Filters by extensionally equal predicates agree. */
  lemma {:induction false} FilterSamePredicate<T>(s: seq<T>, p: T -> bool, q: T -> bool)
    requires forall x :: p(x) == q(x)
    ensures Filter(s, p) == Filter(s, q)
  {
    if |s| > 0 {
      FilterSamePredicate(s[1..], p, q);
    }
  }

  /** Filtering distributes over concatenation. */
  lemma {:induction false} FilterAppend<T>(a: seq<T>, b: seq<T>, p: T -> bool)
    ensures Filter(a + b, p) == Filter(a, p) + Filter(b, p)
  {
    if |a| == 0 {
      assert a + b == b;
    } else {
      FilterAppend(a[1..], b, p);
      assert (a + b)[0] == a[0];
      assert (a + b)[1..] == a[1..] + b;
      if p(a[0]) {
        assert [a[0]] + (Filter(a[1..], p) + Filter(b, p))
            == ([a[0]] + Filter(a[1..], p)) + Filter(b, p);
      }
    }
  }
}

=== FILE: text.dfy ===
/** String primitives of JavaScript used by the application, on strings
    as sequences of Unicode scalar values. */
module Text {

  /** The characters matched by the regular-expression class `\s` and
      removed by `String.prototype.trim` (WhiteSpace and LineTerminator of
      the ECMAScript grammar). */
  predicate IsSpace(c: char) {
    || c == '\t' || c == '\n' || c == '\U{000B}' || c == '\U{000C}' || c == '\r'
    || c == ' ' || c == '\U{00A0}' || c == '\U{1680}'
    || ('\U{2000}' <= c <= '\U{200A}')
    || c == '\U{2028}' || c == '\U{2029}' || c == '\U{202F}' || c == '\U{205F}'
    || c == '\U{3000}' || c == '\U{FEFF}'
  }

  /** Every character of `s` is whitespace (vacuously true of ""). */
  predicate AllSpace(s: string) {
    forall i :: 0 <= i < |s| ==> IsSpace(s[i])
  }

  /** `String.prototype.trimStart`. */
  function TrimStart(s: string): (r: string)
    ensures |r| <= |s| && r == s[|s| - |r|..]
    ensures r == [] || !IsSpace(r[0])
    ensures forall i :: 0 <= i < |s| - |r| ==> IsSpace(s[i])
  {
    if |s| > 0 && IsSpace(s[0]) then TrimStart(s[1..]) else s
  }

  /** `String.prototype.trimEnd`. */
  function TrimEnd(s: string): (r: string)
    ensures |r| <= |s| && r == s[..|r|]
    ensures r == [] || !IsSpace(r[|r| - 1])
    ensures forall i :: |r| <= i < |s| ==> IsSpace(s[i])
  {
    if |s| > 0 && IsSpace(s[|s| - 1]) then TrimEnd(s[..|s| - 1]) else s
  }

  /** `String.prototype.trim`: the slice of `s` left after removing
      leading and trailing whitespace; empty exactly when `s` is all
      whitespace. */
  function Trim(s: string): (r: string)
    ensures |r| <= |s|
    ensures r == [] <==> AllSpace(s)
    ensures r != [] ==> !IsSpace(r[0]) && !IsSpace(r[|r| - 1])
    ensures OccursAt(s, r, |s| - |TrimStart(s)|)
  {
    TrimEmptyOnlyWhenBlank(s);
    TrimOccurs(s);
    TrimFirst(s);
    TrimEnd(TrimStart(s))
  }

  /** The trimmed text sits in `s` right after the leading whitespace. */
  lemma TrimOccurs(s: string)
    ensures OccursAt(s, TrimEnd(TrimStart(s)), |s| - |TrimStart(s)|)
  {
    var t := TrimStart(s);
    var r := TrimEnd(t);
    PrefixOfSuffix(s, |s| - |t|, t, r);
  }

  /** A prefix of a suffix of `s` occurs in `s` where the suffix starts. */
  lemma PrefixOfSuffix(s: string, i: nat, t: string, r: string)
    requires i <= |s| && t == s[i..] && |r| <= |t| && r == t[..|r|]
    ensures OccursAt(s, r, i)
  {
    SliceOfSuffix(s, i, |r|);
  }

  /** The trimmed text does not start with whitespace. */
  lemma TrimFirst(s: string)
    ensures var r := TrimEnd(TrimStart(s)); r != [] ==> !IsSpace(r[0])
  {
    var t := TrimStart(s);
    var r := TrimEnd(t);
    if r != [] {
      assert r[0] == t[0];
    }
  }

  /** A prefix of a suffix is a slice. */
  lemma SliceOfSuffix(s: string, i: nat, n: nat)
    requires i + n <= |s|
    ensures s[i..i + n] == s[i..][..n]
  {
  }

  lemma TrimEmptyOnlyWhenBlank(s: string)
    ensures TrimEnd(TrimStart(s)) == [] <==> AllSpace(s)
  {
  }

  /** `needle` occurs in `hay` starting at position `i`. */
  predicate OccursAt(hay: string, needle: string, i: int) {
    0 <= i && i + |needle| <= |hay| && hay[i..i + |needle|] == needle
  }

  /** `String.prototype.includes`. */
  predicate Contains(hay: string, needle: string) {
    exists i :: 0 <= i <= |hay| && OccursAt(hay, needle, i)
  }

  /** `String.prototype.startsWith`. */
  predicate StartsWith(s: string, prefix: string) {
    |prefix| <= |s| && s[..|prefix|] == prefix
  }

  /** Lower-case mapping of one character (`toLowerCase`), for the ASCII and
      Latin-1 letters, which map one-to-one. */
  function LowerChar(c: char): (r: char)
    ensures !IsUpperLetter(r)
  {
    if IsUpperLetter(c) then (c as int + 32) as char else c
  }

  /** Upper-case mapping of one character (`toUpperCase`), for the ASCII and
      Latin-1 letters that map one-to-one. */
  function UpperChar(c: char): (r: char)
    ensures !IsLowerLetter(r)
  {
    if IsLowerLetter(c) then (c as int - 32) as char else c
  }

  predicate IsUpperLetter(c: char) {
    ('A' <= c <= 'Z') || ('\U{00C0}' <= c <= '\U{00DE}' && c != '\U{00D7}')
  }

  predicate IsLowerLetter(c: char) {
    ('a' <= c <= 'z') || ('\U{00E0}' <= c <= '\U{00FE}' && c != '\U{00F7}')
  }

  /** `String.prototype.toLowerCase`, character by character. */
  function Lower(s: string): (r: string)
    ensures |r| == |s|
    ensures forall i :: 0 <= i < |s| ==> r[i] == LowerChar(s[i])
  {
    seq(|s|, i requires 0 <= i < |s| => LowerChar(s[i]))
  }

  /** `String.prototype.toUpperCase`, character by character. */
  function Upper(s: string): (r: string)
    ensures |r| == |s|
    ensures forall i :: 0 <= i < |s| ==> r[i] == UpperChar(s[i])
  {
    seq(|s|, i requires 0 <= i < |s| => UpperChar(s[i]))
  }

  /** Lower-casing is idempotent, so comparing lower-cased strings is
      insensitive to a prior lower-casing. */
  lemma LowerIdempotent(s: string)
    ensures Lower(Lower(s)) == Lower(s)
  {
  }

  /** `t` is the lower-case form of `s`, checked character by character. */
  lemma LowerIs(s: string, t: string)
    requires |s| == |t| && forall i :: 0 <= i < |s| ==> LowerChar(s[i]) == t[i]
    ensures Lower(s) == t
  {
  }

  /** A string with no whitespace at either end is its own trim. */
  lemma TrimOfUnspaced(s: string)
    requires s != [] && !IsSpace(s[0]) && !IsSpace(s[|s| - 1])
    ensures Trim(s) == s
  {
    assert TrimStart(s) == s;
    assert TrimEnd(s) == s;
  }

  /** Leading whitespace before a non-space character is exactly what
      `trimStart` removes. */
  lemma {:induction false} TrimStartSpaces(pad: string, rest: string)
    requires AllSpace(pad) && rest != [] && !IsSpace(rest[0])
    ensures TrimStart(pad + rest) == rest
    decreases |pad|
  {
    if pad == [] {
      assert pad + rest == rest;
    } else {
      assert (pad + rest)[1..] == pad[1..] + rest;
      TrimStartSpaces(pad[1..], rest);
    }
  }

  /** `r` is what remains of `s` once whitespace runs are cut from both
      ends: a slice of `s` with only whitespace before and after it, and
      no whitespace at its own ends. */
  predicate IsTrimOf(s: string, r: string) {
    exists i :: 0 <= i <= |s| && TrimmedAt(s, r, i)
  }

  predicate TrimmedAt(s: string, r: string, i: int) {
    && OccursAt(s, r, i)
    && AllSpace(s[..i]) && AllSpace(s[i + |r|..])
    && (r == [] || (!IsSpace(r[0]) && !IsSpace(r[|r| - 1])))
  }

  /** `trim` cuts exactly the whitespace at the ends... */
  lemma TrimIsTrimOf(s: string)
    ensures IsTrimOf(s, Trim(s))
  {
    var t := TrimStart(s);
    var r := Trim(s);
    var i := |s| - |t|;
    assert t == s[i..];
    assert r == t[..|r|];
    var tail := s[i + |r|..];
    forall k | 0 <= k < |tail| ensures IsSpace(tail[k]) {
      assert tail[k] == t[|r| + k];
    }
    assert TrimmedAt(s, r, i);
  }

  /** ... and nothing else does. */
  lemma TrimOfIsTrim(s: string, r: string)
    requires IsTrimOf(s, r)
    ensures r == Trim(s)
  {
    var i :| 0 <= i <= |s| && TrimmedAt(s, r, i);
    if r == [] {
      AllSpaceSplit(s, i);
    } else {
      TrimAround(s, r, i);
    }
  }

  /** A text whose two halves are whitespace is whitespace. */
  lemma AllSpaceSplit(s: string, i: nat)
    requires i <= |s| && AllSpace(s[..i]) && AllSpace(s[i..])
    ensures AllSpace(s)
  {
    forall k | 0 <= k < |s| ensures IsSpace(s[k]) {
      if k < i {
        assert s[k] == s[..i][k];
      } else {
        assert s[k] == s[i..][k - i];
      }
    }
  }

  /** A non-empty text with non-space ends, padded by whitespace on both
      sides, is what `trim` returns. */
  lemma TrimAround(s: string, r: string, i: int)
    requires TrimmedAt(s, r, i) && r != []
    ensures Trim(s) == r
  {
    var pad := s[..i];
    var rest := s[i..];
    var tail := s[i + |r|..];
    assert s == pad + rest;
    assert rest == r + tail;
    TrimStartSpaces(pad, rest);
    TrimEndSpaces(r, tail);
  }

  /** Trailing whitespace after a text that ends in a non-space character is
      exactly what `trimEnd` removes. */
  lemma {:induction false} TrimEndSpaces(body: string, pad: string)
    requires AllSpace(pad) && body != [] && !IsSpace(body[|body| - 1])
    ensures TrimEnd(body + pad) == body
    decreases |pad|
  {
    if pad == [] {
      assert body + pad == body;
    } else {
      var s := body + pad;
      assert s[|s| - 1] == pad[|pad| - 1];
      assert s[..|s| - 1] == body + pad[..|pad| - 1];
      TrimEndSpaces(body, pad[..|pad| - 1]);
    }
  }

  /** Trimming a text that ends in whitespace shortens it. */
  lemma TrimDropsTrailingSpace(s: string)
    requires |s| > 0 && IsSpace(s[|s| - 1])
    ensures |Trim(s)| < |s|
  {
    var r := Trim(s);
    if r != [] {
      var i := |s| - |TrimStart(s)|;
      assert s[i + |r| - 1] == r[|r| - 1];
    }
  }

  /** Upper-casing is idempotent. */
  lemma UpperIdempotent(s: string)
    ensures Upper(Upper(s)) == Upper(s)
  {
  }

  /** Position of the first `c` in `s` (`indexOf`), when there is one. */
  function IndexOf(s: string, c: char): (r: nat)
    requires c in s
    ensures r < |s| && s[r] == c
    ensures forall j :: 0 <= j < r ==> s[j] != c
  {
    if s[0] == c then 0 else 1 + IndexOf(s[1..], c)
  }

  /** `String.prototype.split` by a one-character separator: the maximal
      separator-free pieces, in order, at least one of them. */
  function Split(s: string, c: char): (r: seq<string>)
    ensures |r| >= 1
    ensures forall k :: 0 <= k < |r| ==> c !in r[k]
    decreases |s|
  {
    if c !in s then [s]
    else
      var i := IndexOf(s, c);
      [s[..i]] + Split(s[i + 1..], c)
  }

  /** `Array.prototype.join`. */
  function Join(parts: seq<string>, sep: string): string
  {
    if |parts| == 0 then ""
    else if |parts| == 1 then parts[0]
    else parts[0] + sep + Join(parts[1..], sep)
  }

  /** Joining the pieces of a split with the separator rebuilds the string. */
  lemma {:induction false} JoinSplit(s: string, c: char)
    ensures Join(Split(s, c), [c]) == s
    decreases |s|
  {
    if c in s {
      var i := IndexOf(s, c);
      JoinSplit(s[i + 1..], c);
      var rest := Split(s[i + 1..], c);
      assert Split(s, c) == [s[..i]] + rest;
      assert s == s[..i] + [c] + s[i + 1..];
    }
  }

  /** Splitting a joined list of separator-free pieces gives the pieces back. */
  lemma {:induction false} SplitJoin(parts: seq<string>, c: char)
    requires |parts| >= 1
    requires forall k :: 0 <= k < |parts| ==> c !in parts[k]
    ensures Split(Join(parts, [c]), c) == parts
  {
    if |parts| > 1 {
      var rest := Join(parts[1..], [c]);
      var s := parts[0] + [c] + rest;
      assert Join(parts, [c]) == s;
      SplitAfterPiece(parts[0], c, rest);
      SplitJoin(parts[1..], c);
      assert parts == [parts[0]] + parts[1..];
    }
  }

  /** Splitting a string that starts with a separator-free piece and a
      separator yields that piece first. */
  lemma SplitAfterPiece(a: string, c: char, b: string)
    requires c !in a
    ensures Split(a + [c] + b, c) == [a] + Split(b, c)
  {
    var s := a + [c] + b;
    assert s[|a|] == c;
    var i := IndexOf(s, c);
    assert forall j :: 0 <= j < |a| ==> s[j] == a[j];
    assert s[..i] == a;
    assert s[i + 1..] == b;
  }
}

=== FILE: use_announcements.dfy ===
/** The list state of the `useAnnouncements` hook
    (`src/hooks/useAnnouncements.js`): the query string and endpoint built
    from the filters, and the state each request leaves behind once it has
    settled. The HTTP client is outside the model: its answer is the
    parameter `Response`. */
module UseAnnouncements {
  import opened Wrappers
  import Seqs
  import Text
  import Json

  // ---------------------------------------------------------------------
  // application/x-www-form-urlencoded, as URLSearchParams serialises it

  /** The UTF-8 bytes of one Unicode scalar value. */
  function Utf8(c: char): (r: seq<nat>)
    ensures 1 <= |r| <= 4
    ensures forall k :: 0 <= k < |r| ==> r[k] < 256
    ensures |r| == 1 <==> (c as int) < 0x80
  {
    var n := c as int;
    if n < 0x80 then [n]
    else if n < 0x800 then [0xC0 + n / 64, 0x80 + n % 64]
    else if n < 0x10000 then [0xE0 + n / 4096, 0x80 + (n / 64) % 64, 0x80 + n % 64]
    else [0xF0 + n / 262144, 0x80 + (n / 4096) % 64, 0x80 + (n / 64) % 64, 0x80 + n % 64]
  }

  function HexUpper(d: nat): (c: char)
    requires d < 16
    ensures ('0' <= c <= '9') || ('A' <= c <= 'F')
  {
    if d < 10 then ('0' as int + d) as char else ('A' as int + d - 10) as char
  }

  /** Characters the serializer leaves as they are. */
  predicate Unreserved(c: char) {
    || ('a' <= c <= 'z') || ('A' <= c <= 'Z') || ('0' <= c <= '9')
    || c == '*' || c == '-' || c == '.' || c == '_'
  }

  /** Characters an encoded component can contain. */
  predicate EncodedChar(c: char) {
    Unreserved(c) || c == '+' || c == '%'
  }

  function PercentBytes(bytes: seq<nat>): (r: string)
    requires forall k :: 0 <= k < |bytes| ==> bytes[k] < 256
    ensures |r| == 3 * |bytes|
    ensures forall k :: 0 <= k < |r| ==> EncodedChar(r[k])
  {
    if |bytes| == 0 then ""
    else ['%', HexUpper(bytes[0] / 16), HexUpper(bytes[0] % 16)] + PercentBytes(bytes[1..])
  }

  /** One character: space as '+', unreserved as itself, anything else as
      its UTF-8 bytes in `%XX` form. */
  function EncodeChar(c: char): (r: string)
    ensures |r| >= 1
    ensures forall k :: 0 <= k < |r| ==> EncodedChar(r[k])
    ensures Unreserved(c) ==> r == [c]
    ensures c == ' ' ==> r == "+"
    ensures c != ' ' && !Unreserved(c) ==> r[0] == '%'
  {
    if c == ' ' then "+"
    else if Unreserved(c) then [c]
    else PercentBytes(Utf8(c))
  }

  /** A name or a value of the query. */
  function EncodeComponent(s: string): (r: string)
    ensures |r| >= |s|
    ensures forall k :: 0 <= k < |r| ==> EncodedChar(r[k])
  {
    if |s| == 0 then "" else EncodeChar(s[0]) + EncodeComponent(s[1..])
  }

  /** Encoding works character by character. */
  lemma {:induction false} EncodeAppend(a: string, b: string)
    ensures EncodeComponent(a + b) == EncodeComponent(a) + EncodeComponent(b)
  {
    if |a| == 0 {
      assert a + b == b;
    } else {
      assert (a + b)[0] == a[0];
      assert (a + b)[1..] == a[1..] + b;
      EncodeAppend(a[1..], b);
      assert EncodeComponent(a + b) == EncodeChar(a[0]) + EncodeComponent(a[1..] + b);
    }
  }

  /** A space becomes '+' and splits the encoding: "Paris 15e" is sent as
      "Paris+15e". */
  lemma EncodeSpace(a: string, b: string)
    ensures EncodeComponent(a + " " + b) == EncodeComponent(a) + "+" + EncodeComponent(b)
  {
    EncodeAppend(a + " ", b);
    EncodeAppend(a, " ");
    assert EncodeComponent(" ") == "+";
  }

  /** A character outside ASCII goes out as its UTF-8 bytes in `%XX` form:
      'é' (U+00E9, bytes C3 A9) is sent as "%C3%A9". */
  lemma EncodeAccent()
    ensures EncodeComponent("é") == "%C3%A9"
  {
    assert Utf8('é') == [0xC3, 0xA9];
    assert PercentBytes([0xA9]) == "%A9";
    assert PercentBytes([0xC3, 0xA9]) == "%C3" + PercentBytes([0xA9]);
  }

  /** Plain words such as city names pass through unchanged. */
  lemma {:induction false} EncodeUnreserved(s: string)
    requires forall k :: 0 <= k < |s| ==> Unreserved(s[k])
    ensures EncodeComponent(s) == s
  {
    if |s| > 0 {
      EncodeUnreserved(s[1..]);
    }
  }

  // ---------------------------------------------------------------------
  // Query string and endpoint

  /** `Object.entries(filters)`, in enumeration order. */
  type Entries = seq<(string, Json.Value)>

  predicate Kept(e: (string, Json.Value)) {
    Json.Truthy(e.1)
  }

  /** The entries `if (value) queryParams.append(key, value)` keeps, in
      enumeration order. */
  function KeptEntries(entries: Entries): (r: Entries)
    ensures forall k :: 0 <= k < |r| ==> r[k] in entries && Json.Truthy(r[k].1)
    ensures forall k :: 0 <= k < |entries| && Json.Truthy(entries[k].1) ==> entries[k] in r
    ensures forall e :: multiset(r)[e] == if Json.Truthy(e.1) then multiset(entries)[e] else 0
    ensures Seqs.IsSubsequence(r, entries)
  {
    Seqs.FilterCount(entries, Kept);
    Seqs.FilterIsSubsequence(entries, Kept);
    Seqs.Filter(entries, Kept)
  }

  /** `key=value`, both encoded, the value as `String(value)` prints it. */
  function Pair(e: (string, Json.Value)): (r: string)
    ensures '&' !in r
  {
    var r := EncodeComponent(e.0) + "=" + EncodeComponent(Json.ToString(e.1));
    assert forall k :: 0 <= k < |r| ==> r[k] == '=' || EncodedChar(r[k]);
    r
  }

  function Pairs(entries: Entries): (r: seq<string>)
    ensures |r| == |entries|
    ensures forall k :: 0 <= k < |r| ==> r[k] == Pair(entries[k])
  {
    seq(|entries|, k requires 0 <= k < |entries| => Pair(entries[k]))
  }

  /** `queryParams.toString()`. */
  function QueryString(entries: Entries): string {
    Text.Join(Pairs(KeptEntries(entries)), "&")
  }

  /** The query string holds exactly the truthy entries, in order: split at
      '&' it gives back their encoded pairs, and it is empty exactly when
      no entry is truthy. */
  lemma QueryStringEntries(entries: Entries)
    ensures QueryString(entries) == "" <==> |KeptEntries(entries)| == 0
    ensures |KeptEntries(entries)| > 0 ==>
      Text.Split(QueryString(entries), '&') == Pairs(KeptEntries(entries))
  {
    var pairs := Pairs(KeptEntries(entries));
    if |pairs| > 0 {
      Text.SplitJoin(pairs, '&');
      JoinNonEmpty(pairs, "&");
    }
  }

  /** Joining pieces of which the first is nonempty gives a nonempty text. */
  lemma JoinNonEmpty(parts: seq<string>, sep: string)
    requires |parts| > 0 && parts[0] != ""
    ensures Text.Join(parts, sep) != ""
  {
  }

  /** The endpoint: no '?' without a query. */
  function Endpoint(entries: Entries): (r: string)
    ensures |KeptEntries(entries)| == 0 ==> r == "/announcements"
    ensures |KeptEntries(entries)| > 0 ==> r == "/announcements?" + QueryString(entries)
  {
    QueryStringEntries(entries);
    var q := QueryString(entries);
    "/announcements" + (if q != "" then "?" + q else "")
  }

  // ---------------------------------------------------------------------
  // List updaters

  /** The state the hook exposes. */
  datatype HookState = HookState(items: seq<Json.Value>, loading: bool, error: Option<string>)

  /** What the HTTP client answers: the response data, or the error
      message of the thrown error. */
  datatype Response<T> = Success(data: T) | Failure(message: string)

  /** `announcement.id === id`. */
  predicate HasId(item: Json.Value, id: Json.Value) {
    Json.StrictEquals(Json.Get(item, "id"), id)
  }

  /** `[newAnnouncement, ...prev]`. */
  function Prepend(items: seq<Json.Value>, created: Json.Value): (r: seq<Json.Value>)
    ensures |r| == |items| + 1 && r[0] == created && r[1..] == items
  {
    [created] + items
  }

  /** `prev.map(a => a.id === id ? updated : a)`. */
  function ReplaceById(items: seq<Json.Value>, id: Json.Value, updated: Json.Value): (r: seq<Json.Value>)
    ensures |r| == |items|
    ensures forall k :: 0 <= k < |r| ==> r[k] == (if HasId(items[k], id) then updated else items[k])
  {
    seq(|items|, k requires 0 <= k < |items| => if HasId(items[k], id) then updated else items[k])
  }

  /** `prev.filter(a => a.id !== id)`. */
  function RemoveById(items: seq<Json.Value>, id: Json.Value): (r: seq<Json.Value>)
    ensures forall k :: 0 <= k < |r| ==> r[k] in items && !HasId(r[k], id)
    ensures forall k :: 0 <= k < |items| && !HasId(items[k], id) ==> items[k] in r
    ensures forall a :: multiset(r)[a] == if HasId(a, id) then 0 else multiset(items)[a]
  {
    Seqs.FilterCount(items, (a: Json.Value) => !HasId(a, id));
    Seqs.Filter(items, (a: Json.Value) => !HasId(a, id))
  }

  /** Deleting keeps the others in order. */
  lemma RemoveIsSubsequence(items: seq<Json.Value>, id: Json.Value)
    ensures Seqs.IsSubsequence(RemoveById(items, id), items)
  {
    Seqs.FilterIsSubsequence(items, (a: Json.Value) => !HasId(a, id));
  }

  /** Removing an id twice is removing it once. */
  lemma RemoveIdempotent(items: seq<Json.Value>, id: Json.Value)
    ensures RemoveById(RemoveById(items, id), id) == RemoveById(items, id)
  {
    var r := RemoveById(items, id);
    Seqs.FilterKeepsAll(r, (a: Json.Value) => !HasId(a, id));
  }

  /** Deleting what was just created gives back the previous list. */
  lemma RemoveUndoesPrepend(items: seq<Json.Value>, id: Json.Value, created: Json.Value)
    requires HasId(created, id)
    requires forall k :: 0 <= k < |items| ==> !HasId(items[k], id)
    ensures RemoveById(Prepend(items, created), id) == items
  {
    assert Prepend(items, created)[1..] == items;
    Seqs.FilterKeepsAll(items, (a: Json.Value) => !HasId(a, id));
  }

  /** Deleting after an update that keeps the id removes the same
      elements as deleting straight away: the replaced elements go, the
      others are kept in order. */
  lemma {:induction false} ReplaceThenRemove(items: seq<Json.Value>, id: Json.Value, updated: Json.Value)
    requires HasId(updated, id)
    ensures RemoveById(ReplaceById(items, id, updated), id) == RemoveById(items, id)
    decreases |items|
  {
    if |items| > 0 {
      ReplaceThenRemove(items[1..], id, updated);
      assert ReplaceById(items, id, updated)[1..] == ReplaceById(items[1..], id, updated);
    }
  }

  /** An update of an id the list does not hold leaves it as it is. */
  lemma ReplaceAbsentId(items: seq<Json.Value>, id: Json.Value, updated: Json.Value)
    requires forall k :: 0 <= k < |items| ==> !HasId(items[k], id)
    ensures ReplaceById(items, id, updated) == items
  {
  }

  /** An id given as text never matches the numeric ids the records carry:
      `updateAnnouncement('3', …)` changes nothing. */
  lemma TextIdNeverMatches(items: seq<Json.Value>, id: string, updated: Json.Value)
    requires forall k :: 0 <= k < |items| ==> Json.Get(items[k], "id").Num?
    ensures ReplaceById(items, Json.Str(id), updated) == items
    ensures RemoveById(items, Json.Str(id)) == items
  {
    Seqs.FilterKeepsAll(items, (a: Json.Value) => !HasId(a, Json.Str(id)));
  }

  // ---------------------------------------------------------------------
  // Requests

  /** `setLoading(true); setError(null)` before every request. */
  function Begin(s: HookState): HookState {
    s.(loading := true, error := None)
  }

  /** What a request leaves behind: on success `onSuccess` replaces the
      items; on failure the items stay and the message is kept; either way
      loading ends. */
  function Settle<T>(s: HookState, resp: Response<T>, onSuccess: T -> seq<Json.Value>): (r: HookState)
    ensures !r.loading
    ensures resp.Success? ==> r.items == onSuccess(resp.data) && r.error.None?
    ensures resp.Failure? ==> r.items == s.items && r.error == Some(resp.message)
  {
    var started := Begin(s);
    match resp
    case Success(data) => started.(items := onSuccess(data), loading := false)
    case Failure(msg) => started.(error := Some(msg), loading := false)
  }

  /** `fetchAnnouncements`: the response data becomes the list. */
  function Fetch(s: HookState, resp: Response<seq<Json.Value>>): (r: HookState)
    ensures resp.Success? ==> r.items == resp.data
    ensures resp.Failure? ==> r.items == s.items && r.error == Some(resp.message)
    ensures !r.loading
  {
    Settle(s, resp, (data: seq<Json.Value>) => data)
  }

  /** `createAnnouncement`: the created record goes first; the record is
      returned, or the error rethrown. */
  function Create(s: HookState, resp: Response<Json.Value>): (r: (HookState, Result<Json.Value>))
    ensures resp.Success? ==> r.0.items == [resp.data] + s.items && r.1 == Ok(resp.data)
    ensures resp.Failure? ==>
      r.0.items == s.items && r.0.error == Some(resp.message) && r.1 == Err(resp.message)
  {
    var next := Settle(s, resp, (created: Json.Value) => Prepend(s.items, created));
    (next, match resp case Success(d) => Ok(d) case Failure(m) => Err(m))
  }

  /** `updateAnnouncement(id, …)`. */
  function Update(s: HookState, id: Json.Value, resp: Response<Json.Value>): (r: (HookState, Result<Json.Value>))
    ensures resp.Success? ==> |r.0.items| == |s.items| && r.1 == Ok(resp.data)
    ensures resp.Success? ==> forall k :: 0 <= k < |s.items| ==>
      r.0.items[k] == (if HasId(s.items[k], id) then resp.data else s.items[k])
    ensures resp.Failure? ==>
      r.0.items == s.items && r.0.error == Some(resp.message) && r.1 == Err(resp.message)
  {
    var next := Settle(s, resp, (updated: Json.Value) => ReplaceById(s.items, id, updated));
    (next, match resp case Success(d) => Ok(d) case Failure(m) => Err(m))
  }

  /** `deleteAnnouncement(id)`: the answer carries no data. */
  function Delete(s: HookState, id: Json.Value, resp: Response<()>): (r: (HookState, Result<()>))
    ensures resp.Success? ==> r.0.items == RemoveById(s.items, id) && r.1 == Ok(())
    ensures resp.Failure? ==>
      r.0.items == s.items && r.0.error == Some(resp.message) && r.1 == Err(resp.message)
  {
    var next := Settle(s, resp, (_: ()) => RemoveById(s.items, id));
    (next, match resp case Success(_) => Ok(()) case Failure(m) => Err(m))
  }
}

=== FILE: wrappers.dfy ===
/** Failure-carrying results used across the model. The services of the
    application signal failure by throwing an `Error` carrying a message;
    here such a throw is an `Err` value holding that message. */
module Wrappers {

  /** A value that may be absent (JavaScript `undefined` / `null`). */
  datatype Option<+T> = None | Some(value: T) {

    /** The value, or a fallback when absent. */
    function GetOr(default: T): T {
      match this
      case Some(v) => v
      case None => default
    }
  }

  /** The outcome of an operation that may throw. */
  datatype Result<+T> = Ok(value: T) | Err(message: string) {

    predicate IsFailure() {
      Err?
    }

    function PropagateFailure<U>(): Result<U>
      requires Err?
    {
      Err(message)
    }

    function Extract(): T
      requires Ok?
    {
      value
    }
  }
}
